=== FILE: README.md ===
# Portfolio tracker: a Dafny model of its rules

The portfolio tracker is a Next.js front end backed by a Google Apps Script
web app. The web app keeps the data in a spreadsheet with an Assets sheet and
a Transactions sheet. This project models the rules underneath the
screens as pure functions over immutable data, and proves what those rules
guarantee:

- **Records** (`types.dfy`, module `Types`): `Asset`, `Transaction`, the
  declared `AssetType` and `TransactionType`, and the parse from the runtime
  `type` string to the declared kinds. The forms store other strings in those
  fields, so the records keep the runtime string.
- **Derived fields** (`metrics.dfy`, module `Metrics`): market value, profit
  and profit percentage. The percentage is a `Quotient`: a finite value, or
  the +Infinity, -Infinity or NaN that JavaScript produces at cost 0. The
  comparisons the screens make on it (`>= 0`, `> 0`) follow JavaScript.
- **The spreadsheet script** (`sheet.dfy`, `script.dfy`, `responses.dfy`):
  - cells with JavaScript truthiness, and rows read back as records;
  - the two validators;
  - append, update-first-match with the `||` merge, and delete-first-match;
  - the buy/sell posting, and `addTransaction`;
  - `doGet`/`doPost` dispatch, and the `{success, data, error}` envelope.
- **The client store** (`mock_api.dfy`, module `MockApi`): the development
  branch of `lib/api.ts`, an in-memory list with push, merge-at-first-index
  and splice.
- **Price refresh** (`price_updater.dfy`): for each asset, the quote target,
  the truthy-price rule and the callback decision. The quote services are an
  oracle parameter.
- **Screen state** (`asset_list.dfy`, `forms.dfy`):
  - the price callback, replace-by-id and delete-by-id;
  - the per-asset transaction lists;
  - the records the three forms build.
- **Display aggregation** (`dashboard.dfy`, `charts.dfy`, `grouping.dfy`,
  `holdings.dfy`, `transaction_list.dfy`):
  - dashboard totals and category cards;
  - per-type sums and percentages for the two charts;
  - the group-by-notes idiom of the holdings tables;
  - the stock partition and the NT$ conversions;
  - the history table's filter, signs and `Number.parseInt` column.
- **Cross-file consequences** (`consequences.dfy`):
  - what the forms' Chinese type labels do downstream;
  - the agreement between the edit dialog and the price callback;
  - the client/script parameter mismatch.

Numbers are Dafny `real`s, so there is no rounding. Ids, timestamps, the clock
and `JSON.parse` of the notes field are parameters.

## Model

| member | source | states |
|---|---|---|
| Types.ParseAssetType | types/index.ts:1 | A runtime type string reads as a declared kind exactly when it is that kind's name; there are six kinds and every other string reads as none. |
| Types.ParseRecordedType | types/index.ts:18-23 | A recorded transaction type is `buy` or `sell` and nothing else, although `TransactionType` also has `transfer`. |
| Types.WithId | lib/api.ts:29-33 | `{ ...draft, id }` carries the given id and every field of the draft. |
| Types.TextOr | components/crypto-assets-list.tsx:23 | The notes-or-fallback rule gives the notes when present and non-empty, otherwise the fallback. |
| Types.OptionalText | components/AddAssetForm.tsx:43 | Optional text is absent exactly for the empty text and otherwise keeps it. |
| Metrics.Percent | components/AssetList.tsx:52 | `part / whole * 100` is finite exactly when the whole is non-zero, and then times the whole it gives 100 times the part. Over a zero whole it is +Infinity for a positive part, -Infinity for a negative one, and NaN for 0. |
| Metrics.DeriveCharacterised | components/AssetList.tsx:50-52 | Market value is amount times price, and profit plus cost is the market value. The percentage exists exactly when cost is non-zero, and then percentage times cost is 100 times profit. |
| Metrics.WorkedExample | components/ApiTest.tsx:41-53 | 100 units at a cost of 1000 and a price of 15 give 1500, 500 and 50%. |
| Metrics.PercentageSign | components/AssetList.tsx:50-52 | With a positive cost, the percentage is positive exactly when the holding is worth more than it cost, and zero exactly when it is worth the cost. |
| Metrics.PercentSign | components/stock-assets-list.tsx:53-57 | A percentage compares `>= 0` exactly when the part is not negative over a positive whole, not positive over a negative whole, or positive over a zero whole; `> 0` likewise with strict signs. |
| Sheet.RowToRecord | gas/Code.js:55-61 | A record read from a row has exactly the header names as keys. |
| Sheet.RecordLastColumn | gas/Code.js:57-59 | A header's key holds its own column's cell unless a later column repeats that header. |
| Sheet.Records | gas/Code.js:50-62 | Reading a sheet gives one record per data row, in row order; the header row is not returned as data. |
| Sheet.RecordsReadBack | gas/Code.js:50-62 | With distinct headers, each record holds every column's cell under that column's name and nothing else. |
| Sheet.Validate | gas/Code.js:146-158 | A record passes exactly when every required field is truthy; otherwise the error names the first falsy field in list order. |
| Sheet.ValidateAsset | gas/Code.js:146-151 | An asset needs truthy name, type, amount and cost, checked in that order, so an amount or cost of 0 is "amount is required" or "cost is required". |
| Sheet.NewRow | gas/Code.js:70 | The appended row follows the header order; a truthy field is copied and any other column holds `''`. |
| Sheet.NewRowReadBack | gas/Code.js:64-74 | Reading an appended row back gives every truthy request field, `''` for the others, and drops fields that are not headers. |
| Sheet.AddAsset | gas/Code.js:64-74 | After validation exactly one row is appended and the existing rows are untouched; a failed validation changes nothing and reports its error. |
| Sheet.FindRow | gas/Code.js:83-86 | The row found is the first data row whose id cell is strictly equal to the id; none is found when no row has it. |
| Sheet.MergeRow | gas/Code.js:88 | The merged row follows the header. A column whose request field is truthy takes that field; with distinct headers, every other column keeps the row's own cell. |
| Sheet.UpdateAsset | gas/Code.js:76-95 | A falsy id is "Asset ID is required", a failed validation reports its error, and no matching row is "Asset not found". Otherwise only the first matching row is rewritten with the merged row, and the row count and every other row stay. |
| Sheet.UpdateNeverClears | gas/Code.js:88 | A successful update never turns a truthy cell into a falsy one: a falsy request field keeps the old cell. |
| Sheet.DeleteAsset | gas/Code.js:97-113 | A falsy id is "Asset ID is required", no match is "Asset not found", and otherwise exactly the first matching row is removed, with the rest kept in order. |
| Sheet.AddThenDelete | gas/Code.js:64-113 | Adding a valid record whose id no row has and then deleting that id restores the sheet. |
| Script.ValidateTransaction | gas/Code.js:153-158 | A transaction needs truthy asset_id, type, amount, price and date; the first falsy one in that order is reported. |
| Script.Post | gas/Code.js:165-171 | `buy` adds the quantity and quantity times price; every other type subtracts both, so the cost always moves by price times the amount change. |
| Script.BuyThenSellRestores | gas/Code.js:165-171 | A buy followed by a non-buy posting of the same quantity and price restores the holding. |
| Script.FindAsset | gas/Code.js:180-183 | The asset found has the requested id and is one of the records read; none is found exactly when no record has that id. |
| Script.FindAssetAt | gas/Code.js:180-183 | With distinct headers, the asset found is the record of the first row whose id cell matches. |
| Script.UpdateAssetAfterTransaction | gas/Code.js:160-178 | As written, the posting always fails, with "Asset not found" or "name is required". |
| Script.UpdateAssetAfterTransactionFixed | gas/Code.js:160-178 | With the corrected record, an unknown asset id is "Asset not found", and a successful posting found the asset and keeps the header and the row count. |
| Script.PostingRecordRejected | gas/Code.js:173-177 | The record `{id, amount, cost}` fails asset validation with "name is required". |
| Script.AddTransaction | gas/Code.js:130-143 | As written, every request fails. A valid transaction's row is appended first, in header order, and the Assets sheet is left unchanged. An invalid one changes nothing. |
| Script.WithHoldingValid | gas/Code.js:146-151 | Replacing amount and cost in a named, typed asset record by non-zero values keeps its id and passes asset validation. |
| Script.UpdateAt | gas/Code.js:85-91 | A valid update whose id first matches row i rewrites row i only. |
| Script.MergeTakesTruthy | gas/Code.js:88 | A truthy request field overwrites its column in the merged row. |
| Script.FixedPostingUpdatesAsset | gas/Code.js:160-178 | The corrected posting succeeds on an existing named, typed asset with a non-zero posted holding. It writes the posted amount and cost into that row, and changes no other row. |
| Script.AddTransactionFixed | gas/Code.js:130-143 | With the corrected posting, a request succeeds exactly when it validates and the posting succeeds. The transaction row is appended whenever it validates, and the Assets sheet changes only on success. |
| Script.FixedTransactionSucceeds | gas/Code.js:130-143 | With the corrected posting, a valid transaction against an existing named, typed asset is recorded, and it moves that asset's amount and cost cells to the posted values. |
| Script.DoGet | gas/Code.js:10-25 | `getAssets` and `getTransactions` succeed with the records read; any other action fails with "Invalid action". |
| Script.DoPost | gas/Code.js:27-47 | An unknown action is "Invalid action" and changes nothing; `addAsset` succeeds exactly when the record validates; `addTransaction` never succeeds; only `addTransaction` touches the Transactions sheet, and only it leaves a write behind when it fails. |
| Script.HandleGet | gas/Code.js:10-14 | A read succeeds exactly when the `action` parameter names one of the two reads; a request without `action` is "Invalid action". |
| Script.HandlePost | gas/Code.js:27-32 | A body that does not parse fails with the parser's message whatever the action, and changes nothing. A parsed write without an `action` parameter is "Invalid action" and changes nothing. A successful write had a parsed body and named a write action. |
| Responses.Unwrap | lib/api.ts:18-22 | The client returns `data` exactly when `success` is true; otherwise it throws the envelope's error message. |
| Responses.UnwrapRoundTrip | gas/Code.js:186-198 | What `handleResponse` sends comes back as the handler's result, and what `handleError` sends comes back as the thrown message. |
| MockApi.Overlay | lib/api.ts:59-63 | `{ ...asset, ...patch }` takes each supplied field from the patch and keeps each missing one; the empty patch changes nothing. |
| MockApi.PatchOf | lib/api.ts:59-61 | A patch holding every field of an asset overlays to that asset, whatever it is laid over. |
| MockApi.AddAsset | lib/api.ts:25-38 | The store grows by exactly one asset at the end. It is the draft with the fresh id and the new timestamp, and the earlier assets are untouched. |
| MockApi.IndexOfId | lib/api.ts:55 | `findIndex` gives the first position holding the id, and -1 (`None`) exactly when no asset has it. |
| MockApi.UpdateAssetWith | lib/api.ts:51-58 | Searched with `===`, an id string is looked up exactly as UpdateAsset looks it up, and an asset object passed as the id matches no asset, giving "Asset not found". |
| MockApi.IdTextLookup | lib/api.ts:55 | The `===` search with a string argument finds the same position as the id search. |
| MockApi.UpdateAsset | lib/api.ts:51-68 | An unknown id is "Asset not found". Otherwise the first asset with the id is replaced by its overlay, with a new timestamp, and the length and every other asset stay. |
| MockApi.DeleteAsset | lib/api.ts:81-93 | An unknown id is "Asset not found"; otherwise exactly the first asset with the id is spliced out and the order of the rest is kept. |
| MockApi.AddThenDelete | lib/api.ts:29-89 | Adding an asset under an id the store lacks and deleting that id restores the store. |
| MockApi.UpdateWithOwnFields | lib/api.ts:55-64 | Writing back an asset's own fields under its own timestamp leaves the store as it was. |
| MockApi.FetchAfterAdd | lib/api.ts:7-38 | `fetchAssets` returns the store with the added asset at the end; `fetchTransactions` returns none. |
| PriceUpdater.Lower | hooks/useAssetPriceUpdater.ts:47 | Lower-casing keeps the length and maps each ASCII capital to its small letter, leaving every other character. |
| PriceUpdater.LowerIdempotent | hooks/useAssetPriceUpdater.ts:47-51 | Lower-casing a lower-cased symbol changes nothing. |
| PriceUpdater.TargetOf | hooks/useAssetPriceUpdater.ts:26-52 | An asset is looked up exactly when it has a non-empty symbol and is stock_tw, stock_us or crypto. A Taiwan stock queries symbol + ".TW", a US stock the symbol itself, and a crypto asset the lower-cased symbol. |
| PriceUpdater.LookedUpKinds | hooks/useAssetPriceUpdater.ts:20-56 | Only the three priced declared kinds are ever looked up; an undeclared kind never is. |
| PriceUpdater.TaiwanTickerRoundTrip | hooks/useAssetPriceUpdater.ts:28-30 | The Taiwan ticker is the symbol followed by ".TW", and dropping those three characters gives back the symbol. |
| PriceUpdater.Extract | hooks/useAssetPriceUpdater.ts:37-39 | A price is taken exactly when the lookup answered with the field present and non-zero. |
| PriceUpdater.Step | hooks/useAssetPriceUpdater.ts:21-65 | Cash does nothing. The lookup is the asset's target. The callback `(id, p)` fires exactly when a price p was taken and differs from the current price. |
| PriceUpdater.Cycle | hooks/useAssetPriceUpdater.ts:20-66 | One cycle is one step per asset, in list order. |
| PriceUpdater.CycleAppend | hooks/useAssetPriceUpdater.ts:20-66 | Running the cycle over two lists back to back is running it over their concatenation. |
| PriceUpdater.CallbacksPerAsset | hooks/useAssetPriceUpdater.ts:59-61 | A cycle issues at most one callback per asset, each for an asset of the list whose current price differs from the callback's price. |
| PriceUpdater.CashNeverLooked | hooks/useAssetPriceUpdater.ts:21 | A cash asset causes neither a lookup nor a callback. |
| PriceUpdater.IsolatedFailure | hooks/useAssetPriceUpdater.ts:32-55 | When the lookup of one target fails, every asset not looked up with that target steps as it would without the failure, and every asset looked up with it issues no callback. |
| AssetList.ApplyPrice | components/AssetList.tsx:47-54 | The priced asset has the new price and timestamp, derived fields consistent with amount, cost and the new price, and every other field unchanged. |
| AssetList.FindById | components/AssetList.tsx:45 | `find` gives the first asset with the id, and nothing exactly when no asset has it. |
| AssetList.OnPriceUpdate | components/AssetList.tsx:44-57 | An id no asset has causes no update; otherwise the update is the first such asset repriced. |
| AssetList.ReplaceById | components/AssetList.tsx:120-122 | The list keeps its length and ids; each entry with the updated id becomes the update and every other entry stays. |
| AssetList.ReplaceByIdIdempotent | components/AssetList.tsx:120-122 | Replacing twice is replacing once, and an absent id leaves the list as it is. |
| AssetList.HandleUpdate | components/AssetList.tsx:117-127 | When the store call throws, the error is rethrown and the list stays; otherwise the list is the replaced one. |
| AssetList.UpdateAsWrittenNeverApplies | components/AssetList.tsx:117-127 | As written, `updateAsset(updatedAsset)` is "Asset not found" whatever the store holds, so `handleUpdate` rethrows and the edit never reaches the list. |
| AssetList.UpdateFixedApplies | components/AssetList.tsx:117-127 | Called as `updateAsset(updatedAsset.id, updatedAsset)`, an edit of a stored asset is stored with a new timestamp, and the list shows it in place of the old asset. |
| AssetList.PriceUpdateFrame | components/AssetList.tsx:44-57 | A price update on an asset whose id is unique changes that asset only, to its repriced self. |
| AssetList.HandleDelete | components/AssetList.tsx:107-115 | A throwing store call leaves the list. Otherwise the list keeps exactly the positions whose id differs, in their order, each asset as often as before, and drops every asset with the id. |
| AssetList.AppendThenDelete | components/AssetList.tsx:107-115 | Deleting the id of an asset just appended, when no other asset has it, gives back the list before the append. |
| AssetList.AppendTransaction | components/AssetList.tsx:132-135 | The transaction is appended to its asset's list, which starts empty if absent; every other list is unchanged. |
| AssetList.RemoveTransaction | components/AssetList.tsx:147-155 | The key set is kept. Each list keeps exactly the positions of the other transactions, in their order and multiplicity, and the transaction id leaves every list. |
| AssetList.AddThenRemoveTransaction | components/AssetList.tsx:129-162 | Adding a transaction with a fresh id and then deleting it restores the ledger, except that an asset seen for the first time keeps an empty list. |
| AssetList.HandleAddTransaction | components/AssetList.tsx:129-142 | A throwing store call leaves the ledger; otherwise the recorded transaction is appended. |
| AssetList.HandleDeleteTransaction | components/AssetList.tsx:144-162 | A throwing store call leaves the ledger. Otherwise every list keeps the other transactions in their order and multiplicity, and loses the deleted id, as AssetList.RemoveTransaction states. The reload that follows is not modelled. |
| Forms.FormDerived | components/AddAssetForm.tsx:39-41 | The formula written out in both forms is the reference derivation. |
| Forms.NewAssetDraft | components/AddAssetForm.tsx:33-44 | The new asset has no id or symbol. Its name, type, amount, cost and price come from the form, its derived fields are consistent, and empty notes become undefined. |
| Forms.FormWorkedExample | components/ApiTest.tsx:41-53 | The add form turns 100 units, a cost of 1000 and a price of 15 into 1500, 500 and 50%. |
| Forms.EditedAsset | components/EditAssetDialog.tsx:46-58 | Only id and symbol survive from the original asset; every other field comes from the form, with consistent derived fields. |
| Forms.EditMatchesAdd | components/EditAssetDialog.tsx:46-58 | Editing and adding from the same form give the same record apart from id and symbol. |
| Forms.ErrorText | components/EditAssetDialog.tsx:63 | An `Error` shows its message; anything else shows the fallback text. |
| Forms.SubmitEdit | components/EditAssetDialog.tsx:60-64 | The dialog closes exactly when the update resolves; otherwise it stays open showing the error text. |
| Forms.NewTransactionDraft | components/AddTransactionForm.tsx:31-45 | The transaction is bound to the form's asset and carries the form's type, amount and price. Its total is amount times price and never negative, and empty notes become undefined. |
| Forms.FormTransactionUndeclared | components/AddTransactionForm.tsx:75-76 | The form's types 買入 and 賣出 are never a recorded `buy` or `sell`. |
| Forms.FormAssetKindsUndeclared | components/AddAssetForm.tsx:79-81 | None of the form's types 股票, 加密貨幣, 現金 is a declared asset type. |
| Dashboard.CategoriesDisjoint | app/dashboard/page.tsx:17-19 | No asset is on two cards. Both stock types are on the stock card, and defi and wallet are on none. |
| Dashboard.ComputeTotals | app/dashboard/page.tsx:16-23 | The total is the market-value sum of every asset, and each card total is the market-value sum of the assets its filter keeps. The total is the three card totals plus the uncategorised assets' value, and exactly the three card totals when every asset is on a card. |
| Dashboard.CategorySums | app/dashboard/page.tsx:16-23 | The summed market value splits into stock, crypto, cash and the uncategorised rest. |
| Dashboard.MonthlyChange | app/dashboard/page.tsx:26-34 | The change is the summed profit. Its percentage exists exactly when the summed value differs from the summed profit, and then it is the profit over that difference times 100. |
| Dashboard.MonthlyChangeOverCost | app/dashboard/page.tsx:26-34 | For consistent assets that denominator is the summed cost. |
| Dashboard.AssetColor | app/dashboard/page.tsx:193-209 | Gray exactly for an undeclared type; both stock types are blue. |
| Dashboard.ColoursDistinguishKinds | app/dashboard/page.tsx:193-209 | Two declared kinds share a colour only when they are the same kind or both stock kinds. |
| Dashboard.SummaryPositive | app/dashboard/page.tsx:69-75 | For a percentage of a profit over a base, the card is green with an up arrow exactly when the profit is not negative over a positive base, not positive over a negative base, or positive over a zero base (+Infinity). A zero profit over a zero base is NaN and shows red. |
| Dashboard.RowPositive | app/dashboard/page.tsx:156-157 | For a percentage of a profit over a cost, the row is positive exactly when profit and cost have the same strict sign, or the cost is 0 and the profit positive. |
| Dashboard.PositiveRulesDiffer | app/dashboard/page.tsx:156-157 | A row's `> 0` implies a card's `>= 0`, and the two disagree exactly at a finite 0%. |
| Charts.Accumulate | components/asset-distribution-chart.tsx:27-34 | The reducer adds the asset's value to its type's entry, creating the entry at the end for a new type; the sum grows by the asset's value. |
| Charts.ByType | components/AssetAllocationChart.tsx:22-35 | There is one entry per type, and the entries sum to the total market value. |
| Charts.ByTypeKinds | components/AssetAllocationChart.tsx:22-34 | The entries' types are the distinct asset types in order of first appearance. |
| Charts.ByTypeValues | components/asset-distribution-chart.tsx:27-34 | Each entry's value is the summed market value of its type's assets. |
| Charts.Percentages | components/asset-distribution-chart.tsx:37-43 | One percentage per entry, each its value over the total times 100. |
| Charts.PercentagesSumTo100 | components/asset-distribution-chart.tsx:40-43 | With a non-zero total the shares add up to 100. |
| Charts.PercentagesAreShares | components/asset-distribution-chart.tsx:40-43 | With a non-zero total every percentage is defined and is its entry's share. |
| Charts.TypeLabel | components/asset-distribution-chart.tsx:46-58 | A type shows its raw string exactly when it is not one of the five labelled types; wallet is one of those. |
| Charts.DistributionColor | components/asset-distribution-chart.tsx:62-76 | Gray exactly for a type outside the five coloured ones; both stock types share blue. |
| Charts.WalletColours | components/asset-distribution-chart.tsx:62-76 | Wallet slices are gray on the doughnut although wallet rows have a colour of their own on the dashboard. |
| Charts.SliceColor | components/AssetAllocationChart.tsx:79 | Slice i takes a palette colour, the i-th one for the first five. |
| Charts.SliceColorPeriodic | components/AssetAllocationChart.tsx:79 | The palette repeats every five slices. |
| Charts.LabelPercent | components/AssetAllocationChart.tsx:61 | The pie label is the same share as the doughnut's percentage for that entry. |
| Seqs.Filter | components/AssetList.tsx:110 | `filter` keeps only passing elements, drawn from the input, and keeps every passing element; it never lengthens the list. |
| Seqs.FilterSelects | components/transaction-list.tsx:138 | `filter` keeps exactly the passing positions, in increasing order: nothing reordered, repeated or left out. |
| Seqs.FilterMultiset | components/AssetList.tsx:150-152 | `filter` keeps each passing element as often as the input holds it and drops every other element entirely. |
| Grouping.Members | components/cash-assets-list.tsx:14-21 | The items a group should hold are exactly the positions with its key, in input order, each item as often as in the input. |
| Grouping.Push | components/crypto-assets-list.tsx:24-27 | Pushing onto an existing key keeps the keys and adds the item to that group only; a new key adds a one-item group at the end. |
| Grouping.GroupBy | components/crypto-assets-list.tsx:22-29 | The grouping has distinct keys and no empty group. |
| Grouping.GroupByKeys | components/cash-assets-list.tsx:14-25 | The group keys are the distinct item keys in order of first appearance. |
| Grouping.GroupByMembers | components/cash-assets-list.tsx:14-21 | Each group holds exactly the items with its key, in input order. |
| Grouping.Lookup | components/crypto-assets-list.tsx:65 | Looking up a group is empty for a key no group has. |
| Grouping.LookupGroupBy | components/crypto-assets-list.tsx:65 | Looking a key up gives exactly the items with that key, in input order. |
| Grouping.EveryItemGroupedOnce | components/wallet-assets-list.tsx:14-26 | Every item is in the group of its key and in no other group. |
| Grouping.MembersFirst | components/wallet-assets-list.tsx:17-23 | The first member of a group is the first item with its key. |
| Holdings.ProfitPrefix | components/stock-assets-list.tsx:48-50 | The prefix is "+" exactly when profit is at least 0. |
| Holdings.ArrowAgreesWithPrefix | components/stock-assets-list.tsx:48-60 | For a consistent asset with a positive cost, the up arrow shows exactly when the profit has a "+". At cost 0 it shows exactly when there is a profit, so a zero profit shows "+" beside a down arrow. |
| Holdings.TwdValue | components/stock-assets-list.tsx:106 | The NT$ cell divided by 31.5 gives back the market value, and it is not negative exactly when the market value is not. |
| Holdings.SplitStocks | components/stock-assets-list.tsx:14-15 | The Taiwan table holds exactly the positions of the stock_tw assets and the US table those of the stock_us assets, each in input order and multiplicity; the tables are disjoint and take rows only from the list. |
| Holdings.SplitStocksCovers | components/stock-assets-list.tsx:14-15 | When every asset is a stock of one of the two types, the table sizes add up to the list size. |
| Holdings.ExchangeOf | components/crypto-assets-list.tsx:23 | The exchange key is never empty: the notes when present and non-empty, otherwise "other". |
| Holdings.ExchangeTab | components/crypto-assets-list.tsx:65 | A tab shows exactly the assets whose exchange key is that tab's id, in input order. |
| Holdings.CryptoShownIff | components/crypto-assets-list.tsx:14-29 | An asset is on some tab exactly when its notes name one of the four exchanges; without notes it is on none. |
| Holdings.CurrencyOf | components/cash-assets-list.tsx:15 | The currency key is never empty: the notes when present and non-empty, otherwise "TWD". |
| Holdings.CashCards | components/cash-assets-list.tsx:14-25 | There is one card per distinct currency, in order of first appearance, holding exactly that currency's assets. |
| Holdings.CashShownOnce | components/cash-assets-list.tsx:14-21 | Every cash asset is on its currency's card and on no other. |
| Holdings.InfoOf | components/wallet-assets-list.tsx:15 | Without notes the default is used; with notes, what they decode to. |
| Holdings.WalletCards | components/wallet-assets-list.tsx:14-30 | The cards are absent exactly when some notes do not decode; otherwise there is one card per address, holding exactly that address's assets. |
| Holdings.WalletChainFromFirst | components/wallet-assets-list.tsx:16-23 | A card's blockchain is the one decoded from the first asset with that address. |
| Holdings.ProtocolCard | components/defi-assets-list.tsx:24-37 | A card is titled with its group's protocol, takes its type and blockchain from the group's first member, and has one row per member, each annotated from that member's own notes. |
| Holdings.ProtocolCardsOrder | components/defi-assets-list.tsx:14-52 | Cards made one per group carry the protocols in order of first appearance. |
| Holdings.ProtocolCardsRows | components/defi-assets-list.tsx:32-37 | Cards made one per group hold, row by row, the annotated assets of their protocol in input order. |
| Holdings.ProtocolCards | components/defi-assets-list.tsx:14-52 | The cards are absent exactly when some notes do not decode. Otherwise the protocols are the distinct ones in order of first appearance, and each card's rows are exactly the assets of its protocol, in input order and each once, annotated. |
| Holdings.DefiHeaderFromFirst | components/defi-assets-list.tsx:23-31 | A protocol card's type and blockchain badges are those of the first asset listed under that protocol. |
| Holdings.ProtocolRows | components/defi-assets-list.tsx:32-37 | Each row is an asset of the list, on its own protocol's card, carrying its own apy, health factor and risk level. |
| Holdings.UndescribedPosition | components/defi-assets-list.tsx:15-22 | An asset without notes is under "Unknown", with 0% APY, health factor "-" and risk 中, shown yellow. |
| Holdings.HealthWarning | components/defi-assets-list.tsx:91-95 | The icon shows only for a factor other than "-" that reads as a number, and for such a factor exactly when the number is below 1.5. |
| Holdings.HealthWarningMonotone | components/defi-assets-list.tsx:91-95 | The warning is a threshold: a factor that reads no larger than one that warns warns too. |
| Holdings.HealthWarningCases | components/defi-assets-list.tsx:91-95 | "-" never warns and a non-number never warns; a factor of 1.2 warns. |
| Holdings.RiskColor | components/defi-assets-list.tsx:103-109 | 低 is green, 中 is yellow, and anything else is red. |
| TransactionList.Visible | components/transaction-list.tsx:138 | No type, or an empty one, shows every row. A type shows exactly the positions of rows of that type, in order, each row as often as in the list. |
| TransactionList.VisibleIdempotent | components/transaction-list.tsx:138 | Filtering the filtered rows again changes nothing. |
| TransactionList.SignPrefix | components/transaction-list.tsx:214-224 | The sign is "+" exactly for buy, "-" exactly for sell, and none otherwise. |
| TransactionList.ValueText | components/transaction-list.tsx:213-225 | The cell is the sign followed by the value, a space and the currency. |
| TransactionList.ValueTextsDiffer | components/transaction-list.tsx:214-224 | A buy and a sell differ only in the sign; another type shows the bare value and currency. |
| TransactionList.PriceText | components/transaction-list.tsx:212 | "-" stays "-"; any other price is followed by a space and the currency. |
| TransactionList.AvatarFallback | components/transaction-list.tsx:203 | The fallback is the first two characters of the asset code, or the whole code if shorter. |
| TransactionList.AvatarFallbackStable | components/transaction-list.tsx:203 | Taking the fallback twice is taking it once; "ETH/USDT" gives "ET" and "2330" gives "23". |
| TransactionList.ParseInt | components/transaction-list.tsx:231 | After leading white space, text that is empty or starts with neither a digit nor a sign reads as NaN. |
| TransactionList.ParseIntDropsFraction | components/transaction-list.tsx:231-232 | A decimal text reads as its value, and the same text followed by a point and any fraction reads as the same whole number. |
| TransactionList.ParseIntDecimal | components/transaction-list.tsx:231 | Reading back a number's decimal text gives the number, with or without a fractional part. |
| TransactionList.ParseIntSignedExample | components/transaction-list.tsx:231 | " -12px" reads as -12. |
| TransactionList.ParseIntHexExample | components/transaction-list.tsx:231 | "0x1A" reads as 26. |
| TransactionList.TwdValue | components/transaction-list.tsx:229-233 | The NT$ cell is NaN exactly when the value does not parse. A TWD row shows the whole part as is, and any other currency converts it at the row's rate. |
| TransactionList.TwdValueDropsFraction | components/transaction-list.tsx:230-232 | A value with a fractional part loses it before conversion. |
| TransactionList.TwdValueExample | components/transaction-list.tsx:230-232 | 8.75 US dollars at 31.5 shows as 252, not 275.625. |
| Consequences.FormAssetsAreOrphaned | components/AddAssetForm.tsx:79-81 | An asset from the add form is never priced and counted on no dashboard card. It is gray on its row and on the doughnut, shows its raw label, and is in neither stock table. |
| Consequences.FormBuyPostsAsSale | components/AddTransactionForm.tsx:75-76 | A 買入 transaction is posted by the script as a sale: the holding's amount goes down. |
| Consequences.EditAgreesWithPriceUpdate | components/EditAssetDialog.tsx:53-55 | Re-entering an asset's own amount and cost with a new price gives the derived fields the price callback gives. |
| Consequences.ClientRequestsRejected | lib/api.ts:17 | Every request that names its operation in a `method` parameter fails and leaves the store unchanged. A read, or a write with a JSON body, is answered "Invalid action", which the client throws; a write without a body fails with the message of the failed body parse. |
| Consequences.ClientRequestsWithAction | gas/Code.js:12-16 | Named in an `action` parameter, a read returns the assets and an add succeeds exactly when the record validates. |

## Left out

- TransactionList.AvatarFallback: strings are sequences of Unicode scalar values, while `substring(0, 2)` counts UTF-16 code units. For a code that starts with a character outside the Basic Multilingual Plane, such as "𝔘SD", JavaScript gives "𝔘" and the model gives "𝔘S".
- SpreadsheetApp and ContentService are not modelled. A sheet is a header and rows, and each write returns the new sheet. JSON text output is the envelope value.
- HTTP to the script, Yahoo Finance and CoinGecko is not modelled. Quote lookups are an oracle parameter, and the store calls the screens await are succeed-or-fail parameters.
- Timers, `setTimeout` delays, `setInterval` refresh, `useEffect`, polling and React rendering are left out. They are concurrency and lifecycle, not data rules.
- lib/api.ts throws "Asset not found" inside a `setTimeout` callback, which leaves the promise pending. Here it is an error outcome.
- Ids from `Math.random` and timestamps from `new Date()` are parameters.
- Floating point is not modelled: numbers are exact reals with no rounding, and a zero divisor is +0, so a division by -0 is not modelled. Percentages keep JavaScript's +Infinity, -Infinity and NaN as `Quotient` values. `toFixed` and `toLocaleString` formatting is left out.
- AssetList.HandleAddTransaction and AssetList.HandleDeleteTransaction: after a successful store call the source awaits `loadAssets()` (components/AssetList.tsx:137, :157). That reload replaces the asset list from the store, and through the effect on `assets` it reloads every asset's transactions. The model stops before the reload, so the ledger it returns is the state between the two renders. The reloaded state is whatever the store returns (MockApi.FetchAssets, MockApi.FetchTransactions).
- `JSON.parse` of the notes field is a decoder parameter. `None` stands for a throw, which aborts the render.
- `JSON.parse` of the request body is not modelled: `Script.HandlePost` receives its outcome, the parsed record or the message it threw.
- components/asset-growth-chart.tsx is left out. Its series comes from `Math.random` and `Math.sin`.
- The presentation and routing files carry no data rules and are left out: layout, pages other than the dashboard, navigation, filters UI, settings, cards and buttons.
- components/cash-assets-list.tsx:52 shows `market_value` with no conversion. There is nothing to compute, so no member models it.
- `deleteTransaction` and `fetchPriceHistory` are used by components/AssetList.tsx but not defined by lib/api.ts. Their outcomes are parameters.
- AssetList.HandleUpdate takes the store outcome as a parameter. The call at components/AssetList.tsx:119 passes the asset as `id` and never resolves as written (see "## Findings"), so in the source the `Pass` branch, the updated list of AssetList.PriceUpdateFrame and the closing dialog of Forms.SubmitEdit are reached only with the call corrected. In development the as-written call leaves its promise pending, which the model reports as "Asset not found".
- PriceUpdater.Cycle: the quote oracle gives every lookup of one target the same answer within a cycle, while the source fetches once per asset. Two assets with the same target, such as crypto "BTC" and "btc", may get different answers in the source and cannot in the model.
- Keys inherited from `Object.prototype`, such as "constructor", "toString" and "__proto__", are not modelled. The source's `{}` accumulators already hold them. A notes, type or asset-id value equal to one then makes the grouping throw or misplace or lose an entry: `.push` on the inherited function throws (components/crypto-assets-list.tsx:24-27, components/cash-assets-list.tsx:16-19, components/wallet-assets-list.tsx:17-24, components/defi-assets-list.tsx:24-32); `+=` concatenates onto it (components/asset-distribution-chart.tsx:29-32, components/AssetAllocationChart.tsx:24-30); `prev[assetId] || []` starts from it (components/AssetList.tsx:134); and a "__proto__" header sets the prototype (gas/Code.js:58). The model treats every key as an ordinary fresh key.
- `addTransaction` in lib/api.ts has no development branch; its production branch is `Responses.Unwrap`.
- `Object.entries` and `Object.values` list integer-like keys (such as "123") first, in ascending order. The groupings and chart entries here keep first-appearance order for every key.
- Script.UpdateAssetAfterTransaction: a cell that is not a number reads as 0 in the posting arithmetic. As written the posting fails whatever the numbers are, so this does not change its outcome.
- PriceUpdater.Lower: lower-cases ASCII letters only, not the full Unicode case mapping of `toLowerCase`.
- TransactionList.ParseInt: its contract states only when the result is NaN. The values it reads are stated by TransactionList.ParseIntDropsFraction, TransactionList.ParseIntDecimal and the two worked examples. White space is limited to the ASCII spaces, the no-break space and the byte-order mark.
- MockApi.Overlay: states the empty-patch, name and amount clauses only. The other fields follow the same pattern, and MockApi.PatchOf and MockApi.UpdateWithOwnFields cover a patch of every field.
- Script.DoPost: states the dispatch, the success conditions and which sheet a request may touch. The sheet each write leaves behind is stated by Sheet.AddAsset, Sheet.UpdateAsset, Sheet.DeleteAsset and Script.AddTransaction.
- Holdings.HealthWarningCases: JavaScript's `Number` conversion is a parameter, so the warning is stated in terms of whatever number it yields.

## Findings

| source | as written | input that shows it | evidently intended | confidence | as-written member | corrected member |
|---|---|---|---|---|---|---|
| gas/Code.js:173-177 | `updateAssetAfterTransaction` passes `updateAsset` only `{id, amount, cost}`. `validateAssetData` then throws "name is required" after the transaction row has been appended, so a transaction never updates its asset and every `addTransaction` request fails. | Any transaction with truthy asset_id, type, amount, price and date whose asset_id matches an asset row | Merge the new amount and cost into the asset's full record before updating | not executed | Script.AddTransaction | Script.FixedTransactionSucceeds |
| lib/api.ts:17 | The client names the operation in a `method` query parameter, and the script reads `e.parameter.action` (gas/Code.js:12, gas/Code.js:29). Every production request fails: reads and writes with a JSON body fall through to "Invalid action", and `deleteAsset`, which sends no body, fails earlier at `JSON.parse` (gas/Code.js:30). | `?method=getAssets`, the query `fetchAssets` sends | Send the operation as `action`, the parameter the script dispatches on | not executed | Consequences.ClientRequestsRejected | Consequences.ClientRequestsWithAction |
| components/AssetList.tsx:119 | `handleUpdate` calls `updateAsset(updatedAsset)` with one argument, so the asset object becomes the `id` and the patch is undefined. In development `a.id === id` (lib/api.ts:55) never holds; in production the request carries `id=[object Object]` and no body. Either way the update never succeeds and the edit never reaches the list. | Any edit saved through the edit dialog, for an asset the store holds | `updateAsset(updatedAsset.id, updatedAsset)` | not executed | AssetList.UpdateAsWrittenNeverApplies | AssetList.UpdateFixedApplies |

=== FILE: asset_list.dfy ===
/** The in-memory state updates of components/AssetList.tsx: the price-update
    callback, replacing and deleting assets, and the per-asset transaction
    lists. Each store call it awaits is an outcome parameter: when the call
    throws, the handler rethrows and the state is left as it was. */
module AssetList {
  import opened Wrappers
  import opened Types
  import opened Metrics
  import opened Seqs
  import MockApi

  /** The asset after a new price: the three derived fields recomputed from the
      new price and `last_updated` stamped. */
  function ApplyPrice(a: Asset, p: real, now: string): (r: Asset)
    ensures r.currentPrice == p && r.lastUpdated == now
    ensures DerivedOf(r) == Derive(a.amount, a.cost, p)
    ensures Consistent(r)
    ensures r.(currentPrice := a.currentPrice, marketValue := a.marketValue, profit := a.profit,
               profitPercentage := a.profitPercentage, lastUpdated := a.lastUpdated) == a
  {
    assert p * a.amount == a.amount * p;
    a.(currentPrice := p,
       marketValue := p * a.amount,
       profit := p * a.amount - a.cost,
       profitPercentage := Percent(p * a.amount - a.cost, a.cost),
       lastUpdated := now)
  }

  /** `assets.find(a => a.id === id)`. */
  function FindById(assets: seq<Asset>, id: string): (r: Option<Asset>)
    ensures r.None? <==> forall i :: 0 <= i < |assets| ==> assets[i].id != id
    ensures r.Some? ==> exists i :: 0 <= i < |assets| && assets[i] == r.value
                          && forall j :: 0 <= j < i ==> assets[j].id != id
    ensures r.Some? ==> r.value.id == id
  {
    match FindIndex(assets, (a: Asset) => a.id == id)
    case None => None
    case Some(i) => Some(assets[i])
  }

  /** The `onUpdate` callback handed to the price updater: the asset to store, or
      nothing when no asset has that id. */
  function OnPriceUpdate(assets: seq<Asset>, id: string, p: real, now: string): (r: Option<Asset>)
    ensures r.None? <==> forall i :: 0 <= i < |assets| ==> assets[i].id != id
    ensures r.Some? ==> r.value.id == id && r.value.currentPrice == p && Consistent(r.value)
    ensures r.Some? ==> exists i :: 0 <= i < |assets| && assets[i].id == id
                          && r.value == ApplyPrice(assets[i], p, now)
  {
    match FindById(assets, id)
    case None => None
    case Some(a) => Some(ApplyPrice(a, p, now))
  }

  /** `assets.map(asset => asset.id === u.id ? u : asset)`. */
  function ReplaceById(assets: seq<Asset>, u: Asset): (r: seq<Asset>)
    ensures |r| == |assets|
    ensures forall i :: 0 <= i < |assets| ==> r[i].id == assets[i].id
    ensures forall i :: 0 <= i < |assets| && assets[i].id == u.id ==> r[i] == u
    ensures forall i :: 0 <= i < |assets| && assets[i].id != u.id ==> r[i] == assets[i]
    decreases |assets|
  {
    if assets == [] then []
    else
      var last := assets[|assets| - 1];
      ReplaceById(assets[..|assets| - 1], u) + [if last.id == u.id then u else last]
  }

  /** Replacing twice with the same asset is replacing once, and an id that no
      asset has leaves the list as it is. */
  lemma ReplaceByIdIdempotent(assets: seq<Asset>, u: Asset)
    ensures ReplaceById(ReplaceById(assets, u), u) == ReplaceById(assets, u)
    ensures (forall i :: 0 <= i < |assets| ==> assets[i].id != u.id) ==> ReplaceById(assets, u) == assets
  {
  }

  /** `handleUpdate`: the list after the store accepted the update. */
  function HandleUpdate(assets: seq<Asset>, u: Asset, stored: Outcome): (r: Result<seq<Asset>>)
    ensures r.Err? <==> stored.Fail?
    ensures r.Err? ==> r.error == stored.error
    ensures r.Ok? ==> r.value == ReplaceById(assets, u)
  {
    match stored
    case Fail(e) => Err(e)
    case Pass => Ok(ReplaceById(assets, u))
  }

  /** A price update followed by `handleUpdate` changes only the priced asset's
      price, derived fields and timestamp. */
  lemma PriceUpdateFrame(assets: seq<Asset>, id: string, p: real, now: string, i: nat)
    requires i < |assets| && assets[i].id == id
    requires forall j :: 0 <= j < |assets| && j != i ==> assets[j].id != id
    ensures OnPriceUpdate(assets, id, p, now).Some?
    ensures var u := OnPriceUpdate(assets, id, p, now).value;
      var r := ReplaceById(assets, u);
      r[i] == ApplyPrice(assets[i], p, now)
      && forall j :: 0 <= j < |assets| && j != i ==> r[j] == assets[j]
  {
    var u := OnPriceUpdate(assets, id, p, now).value;
    var k :| 0 <= k < |assets| && assets[k].id == id && u == ApplyPrice(assets[k], p, now);
    assert k == i;
  }

  /** Whether a store call resolved: `Pass`, or `Fail` with what it threw. */
  function Settled<T>(r: Result<T>): (o: Outcome)
    ensures o.Pass? <==> r.Ok?
    ensures r.Err? ==> o == Fail(r.error)
  {
    match r
    case Ok(_) => Pass
    case Err(e) => Fail(e)
  }

  /** `await updateAsset(updatedAsset)` as written at line 119: the asset object
      lands in the `id` parameter and no patch is passed. */
  function StoreUpdateAsWritten(store: seq<Asset>, u: Asset, now: string): Result<MockApi.Stored> {
    MockApi.UpdateAssetWith(store, MockApi.AssetObject(u), MockApi.NoPatch, now)
  }

  /** The call as evidently intended: `updateAsset(updatedAsset.id, updatedAsset)`. */
  function StoreUpdateFixed(store: seq<Asset>, u: Asset, now: string): Result<MockApi.Stored> {
    MockApi.UpdateAssetWith(store, MockApi.IdText(u.id), MockApi.PatchOf(u), now)
  }

  /** As written, an edit never reaches the list: whatever the store holds, the
      lookup fails, `handleUpdate` rethrows and the list stays as it was. */
  lemma UpdateAsWrittenNeverApplies(assets: seq<Asset>, store: seq<Asset>, u: Asset, now: string)
    ensures StoreUpdateAsWritten(store, u, now) == Err("Asset not found")
    ensures HandleUpdate(assets, u, Settled(StoreUpdateAsWritten(store, u, now))) == Err("Asset not found")
  {
  }

  /** With the call corrected, an edit of a stored asset is stored, restamped,
      and shown in the list in place of the old asset. */
  lemma UpdateFixedApplies(assets: seq<Asset>, store: seq<Asset>, u: Asset, now: string)
    requires MockApi.HasId(store, u.id)
    ensures StoreUpdateFixed(store, u, now).Ok?
    ensures StoreUpdateFixed(store, u, now).value.asset == u.(lastUpdated := now)
    ensures HandleUpdate(assets, u, Settled(StoreUpdateFixed(store, u, now))) == Ok(ReplaceById(assets, u))
  {
  }

  function IdIsNot(id: string): Asset -> bool {
    (a: Asset) => a.id != id
  }

  /** `handleDelete`: every asset with that id goes, the others stay in order. */
  function HandleDelete(assets: seq<Asset>, id: string, stored: Outcome): (r: Result<seq<Asset>>)
    ensures r.Err? <==> stored.Fail?
    ensures r.Err? ==> r.error == stored.error
    ensures r.Ok? ==> forall i :: 0 <= i < |r.value| ==> r.value[i].id != id
    ensures r.Ok? ==> forall i :: 0 <= i < |assets| && assets[i].id != id ==> assets[i] in r.value
    ensures r.Ok? ==> forall a :: a in r.value ==> a in assets
    ensures r.Ok? ==> Selects(r.value, assets, IdIsNot(id))
    ensures r.Ok? ==> forall a {:trigger multiset(r.value)[a]} :: a in assets ==>
      multiset(r.value)[a] == if a.id != id then multiset(assets)[a] else 0
  {
    match stored
    case Fail(e) => Err(e)
    case Pass =>
      FilterSelects(assets, IdIsNot(id));
      FilterMultiset(assets, IdIsNot(id));
      Ok(Filter(assets, IdIsNot(id)))
  }

  /** Deleting the id of an asset just appended, when no other asset has it, gives
      back the list before the append. */
  lemma {:induction false} AppendThenDelete(assets: seq<Asset>, a: Asset)
    requires forall i :: 0 <= i < |assets| ==> assets[i].id != a.id
    ensures HandleDelete(assets + [a], a.id, Pass) == Ok(assets)
  {
    FilterAppend(assets, [a], IdIsNot(a.id));
    FilterKeepsAll(assets, IdIsNot(a.id));
    FilterDropsAll([a], IdIsNot(a.id));
    assert assets + [] == assets;
  }

  /** The transactions state: each asset id's transactions. */
  type Ledger = map<string, seq<Transaction>>

  /** `prev[assetId] || []`. */
  function Prior(ledger: Ledger, assetId: string): seq<Transaction> {
    if assetId in ledger then ledger[assetId] else []
  }

  /** `[assetId]: [...(prev[assetId] || []), t]`. */
  function AppendTransaction(ledger: Ledger, assetId: string, t: Transaction): (r: Ledger)
    ensures r.Keys == ledger.Keys + {assetId}
    ensures var before := Prior(ledger, assetId);
      |r[assetId]| == |before| + 1 && r[assetId][..|before|] == before && r[assetId][|before|] == t
    ensures forall k :: k in ledger && k != assetId ==> r[k] == ledger[k]
  {
    var before := Prior(ledger, assetId);
    assert (before + [t])[..|before|] == before;
    ledger[assetId := before + [t]]
  }

  function TxIdIsNot(id: string): Transaction -> bool {
    (t: Transaction) => t.id != id
  }

  /** The `for (const assetId in ...)` loop: that transaction id leaves every list. */
  function RemoveTransaction(ledger: Ledger, id: string): (r: Ledger)
    ensures r.Keys == ledger.Keys
    ensures forall k :: k in r ==> forall i :: 0 <= i < |r[k]| ==> r[k][i].id != id
    ensures forall k :: k in r ==> forall i :: 0 <= i < |ledger[k]| && ledger[k][i].id != id ==> ledger[k][i] in r[k]
    ensures forall k :: k in r ==> forall t :: t in r[k] ==> t in ledger[k]
    ensures forall k :: k in r ==> Selects(r[k], ledger[k], TxIdIsNot(id))
    ensures forall k :: k in r ==> forall t {:trigger multiset(r[k])[t]} :: t in ledger[k] ==>
      multiset(r[k])[t] == if t.id != id then multiset(ledger[k])[t] else 0
  {
    FilterEach(ledger, id);
    map k | k in ledger :: Filter(ledger[k], TxIdIsNot(id))
  }

  /** Each list of the ledger, filtered, keeps its order and multiplicities. */
  lemma FilterEach(ledger: Ledger, id: string)
    ensures forall k :: k in ledger ==> Selects(Filter(ledger[k], TxIdIsNot(id)), ledger[k], TxIdIsNot(id))
    ensures forall k :: k in ledger ==> forall t {:trigger multiset(Filter(ledger[k], TxIdIsNot(id)))[t]} :: t in ledger[k] ==>
      multiset(Filter(ledger[k], TxIdIsNot(id)))[t] == if t.id != id then multiset(ledger[k])[t] else 0
  {
    forall k | k in ledger
      ensures Selects(Filter(ledger[k], TxIdIsNot(id)), ledger[k], TxIdIsNot(id))
      ensures forall t {:trigger multiset(Filter(ledger[k], TxIdIsNot(id)))[t]} :: t in ledger[k] ==>
        multiset(Filter(ledger[k], TxIdIsNot(id)))[t] == if t.id != id then multiset(ledger[k])[t] else 0
    {
      FilterSelects(ledger[k], TxIdIsNot(id));
      FilterMultiset(ledger[k], TxIdIsNot(id));
    }
  }

  /** A ledger in which no list holds the id is left as it is. */
  lemma {:induction false} RemoveAbsentTransaction(ledger: Ledger, id: string)
    requires forall k :: k in ledger ==> forall i :: 0 <= i < |ledger[k]| ==> ledger[k][i].id != id
    ensures RemoveTransaction(ledger, id) == ledger
  {
    forall k | k in ledger
      ensures RemoveTransaction(ledger, id)[k] == ledger[k]
    {
      FilterKeepsAll(ledger[k], TxIdIsNot(id));
    }
  }

  /** Removing from a ledger with one list replaced is removing from the ledger
      and filtering the replacement. */
  lemma RemoveAfterSet(ledger: Ledger, assetId: string, txs: seq<Transaction>, id: string)
    ensures RemoveTransaction(ledger[assetId := txs], id)
      == RemoveTransaction(ledger, id)[assetId := Filter(txs, TxIdIsNot(id))]
  {
  }

  /** Filtering out the id of a transaction just appended to a list that did not
      hold it gives back the list. */
  lemma {:induction false} FilterAppended(txs: seq<Transaction>, t: Transaction)
    requires forall i :: 0 <= i < |txs| ==> txs[i].id != t.id
    ensures Filter(txs + [t], TxIdIsNot(t.id)) == txs
  {
    FilterAppend(txs, [t], TxIdIsNot(t.id));
    FilterKeepsAll(txs, TxIdIsNot(t.id));
    FilterDropsAll([t], TxIdIsNot(t.id));
    assert txs + [] == txs;
  }

  /** Removing a transaction id that no list holds from a ledger with one list
      extended by that transaction gives back the ledger with the list as it
      was. */
  lemma {:induction false} RemoveAfterAppend(ledger: Ledger, assetId: string, before: seq<Transaction>, t: Transaction)
    requires forall k :: k in ledger ==> forall i :: 0 <= i < |ledger[k]| ==> ledger[k][i].id != t.id
    requires forall i :: 0 <= i < |before| ==> before[i].id != t.id
    ensures RemoveTransaction(ledger[assetId := before + [t]], t.id) == ledger[assetId := before]
  {
    RemoveAfterSet(ledger, assetId, before + [t], t.id);
    RemoveAbsentTransaction(ledger, t.id);
    FilterAppended(before, t);
  }

  /** Adding a transaction whose id no list holds and then deleting that id gives
      back the ledger, except that an asset seen for the first time keeps an
      empty list. */
  lemma {:induction false} AddThenRemoveTransaction(ledger: Ledger, assetId: string, t: Transaction)
    requires forall k :: k in ledger ==> forall i :: 0 <= i < |ledger[k]| ==> ledger[k][i].id != t.id
    ensures RemoveTransaction(AppendTransaction(ledger, assetId, t), t.id)
      == if assetId in ledger then ledger else ledger[assetId := []]
  {
    var before := Prior(ledger, assetId);
    PriorLacksId(ledger, assetId, t.id);
    RemoveAfterAppend(ledger, assetId, before, t);
    if assetId in ledger {
      assert ledger[assetId := before] == ledger;
    }
  }

  lemma PriorLacksId(ledger: Ledger, assetId: string, id: string)
    requires forall k :: k in ledger ==> forall i :: 0 <= i < |ledger[k]| ==> ledger[k][i].id != id
    ensures forall i :: 0 <= i < |Prior(ledger, assetId)| ==> Prior(ledger, assetId)[i].id != id
  {
  }

  /** `handleAddTransaction`: the store returns the recorded transaction. */
  function HandleAddTransaction(ledger: Ledger, assetId: string, created: Result<Transaction>): (r: Result<Ledger>)
    ensures r.Err? <==> created.Err?
    ensures r.Ok? ==> r.value == AppendTransaction(ledger, assetId, created.value)
  {
    match created
    case Err(e) => Err(e)
    case Ok(t) => Ok(AppendTransaction(ledger, assetId, t))
  }

  /** `handleDeleteTransaction`. */
  function HandleDeleteTransaction(ledger: Ledger, id: string, stored: Outcome): (r: Result<Ledger>)
    ensures r.Err? <==> stored.Fail?
    ensures r.Ok? ==> r.value == RemoveTransaction(ledger, id)
  {
    match stored
    case Fail(e) => Err(e)
    case Pass => Ok(RemoveTransaction(ledger, id))
  }
}

=== FILE: charts.dfy ===
/** The per-type aggregation shared by components/asset-distribution-chart.tsx
    (doughnut of percentages) and components/AssetAllocationChart.tsx (pie of
    values): both reduce the asset list to one entry per type, in order of first
    appearance (the insertion order `Object.values` and `Object.entries`
    follow), holding the summed market value. */
module Charts {
  import opened Wrappers
  import opened Types
  import opened Metrics
  import opened Seqs
  import Dashboard

  /** One slice: a type and the summed market value of its assets. */
  datatype TypeTotal = TypeTotal(kind: string, value: real)

  function ValueOf(e: TypeTotal): real { e.value }

  function KindsOf(entries: seq<TypeTotal>): (r: seq<string>)
    ensures |r| == |entries| && forall i :: 0 <= i < |entries| ==> r[i] == entries[i].kind
  {
    seq(|entries|, i requires 0 <= i < |entries| => entries[i].kind)
  }

  function AssetKinds(assets: seq<Asset>): (r: seq<string>)
    ensures |r| == |assets| && forall i :: 0 <= i < |assets| ==> r[i] == assets[i].kind
  {
    seq(|assets|, i requires 0 <= i < |assets| => assets[i].kind)
  }

  function KindIs(k: string): TypeTotal -> bool {
    (e: TypeTotal) => e.kind == k
  }

  /** The reducer body: add the asset's value to its type's entry, creating the
      entry at the end when the type is new. */
  function Accumulate(acc: seq<TypeTotal>, a: Asset): (r: seq<TypeTotal>)
    ensures a.kind in KindsOf(acc) ==> KindsOf(r) == KindsOf(acc)
    ensures a.kind !in KindsOf(acc) ==> r == acc + [TypeTotal(a.kind, a.marketValue)]
    ensures SumBy(r, ValueOf) == SumBy(acc, ValueOf) + a.marketValue
    ensures NoDuplicates(KindsOf(acc)) ==>
      forall i :: 0 <= i < |acc| ==>
        r[i].value == acc[i].value + (if acc[i].kind == a.kind then a.marketValue else 0.0)
  {
    match FindIndex(acc, KindIs(a.kind))
    case None =>
      SumByAppend(acc, [TypeTotal(a.kind, a.marketValue)], ValueOf);
      acc + [TypeTotal(a.kind, a.marketValue)]
    case Some(i) =>
      var r := acc[i := TypeTotal(a.kind, acc[i].value + a.marketValue)];
      SumByUpdate(acc, i, TypeTotal(a.kind, acc[i].value + a.marketValue), ValueOf);
      assert KindsOf(r) == KindsOf(acc);
      r
  }

  /** `assets.reduce(...)` into the per-type entries. */
  function ByType(assets: seq<Asset>): (r: seq<TypeTotal>)
    ensures NoDuplicates(KindsOf(r))
    ensures SumBy(r, ValueOf) == SumBy(assets, Dashboard.MarketValue)
    decreases |assets|
  {
    if assets == [] then []
    else
      var acc := ByType(assets[..|assets| - 1]);
      var a := assets[|assets| - 1];
      var r := Accumulate(acc, a);
      assert NoDuplicates(KindsOf(r)) by {
        if a.kind !in KindsOf(acc) {
          assert KindsOf(r) == KindsOf(acc) + [a.kind];
        }
      }
      r
  }

  /** The summed market value of the assets of type `k`. */
  function KindTotal(assets: seq<Asset>, k: string): real
    decreases |assets|
  {
    if assets == [] then 0.0
    else
      var a := assets[|assets| - 1];
      KindTotal(assets[..|assets| - 1], k) + (if a.kind == k then a.marketValue else 0.0)
  }

  lemma {:induction false} KindTotalAbsent(assets: seq<Asset>, k: string)
    requires k !in AssetKinds(assets)
    ensures KindTotal(assets, k) == 0.0
    decreases |assets|
  {
    if assets != [] {
      var init := assets[..|assets| - 1];
      assert AssetKinds(init) == AssetKinds(assets)[..|assets| - 1];
      KindTotalAbsent(init, k);
    }
  }

  /** One entry per distinct type, in order of first appearance. */
  lemma {:induction false} ByTypeKinds(assets: seq<Asset>)
    ensures KindsOf(ByType(assets)) == Dedup(AssetKinds(assets))
    decreases |assets|
  {
    if assets != [] {
      var init := assets[..|assets| - 1];
      var a := assets[|assets| - 1];
      ByTypeKinds(init);
      var ks := AssetKinds(assets);
      assert ks[..|ks| - 1] == AssetKinds(init);
      assert ks[|ks| - 1] == a.kind;
      var acc := ByType(init);
      if a.kind !in KindsOf(acc) {
        assert KindsOf(acc + [TypeTotal(a.kind, a.marketValue)]) == KindsOf(acc) + [a.kind];
      }
    }
  }

  /** Each entry holds the summed market value of the assets of its type. */
  lemma {:induction false} ByTypeValues(assets: seq<Asset>)
    ensures forall i :: 0 <= i < |ByType(assets)| ==>
      ByType(assets)[i].value == KindTotal(assets, ByType(assets)[i].kind)
    decreases |assets|
  {
    if assets != [] {
      var init := assets[..|assets| - 1];
      var a := assets[|assets| - 1];
      var acc := ByType(init);
      var r := ByType(assets);
      ByTypeValues(init);
      forall i | 0 <= i < |r|
        ensures r[i].value == KindTotal(assets, r[i].kind)
      {
        if i < |acc| {
          assert r[i].kind == acc[i].kind by {
            assert KindsOf(r)[i] == KindsOf(acc)[i] || r == acc + [TypeTotal(a.kind, a.marketValue)];
          }
        } else {
          assert a.kind !in KindsOf(acc);
          ByTypeKinds(init);
          KindTotalAbsent(init, a.kind);
        }
      }
    }
  }

  /** The sum of every entry, the denominator of each share. */
  function Total(entries: seq<TypeTotal>): real {
    SumBy(entries, ValueOf)
  }

  /** `(value / total) * 100` for each entry, where `total` is the sum of all
      entries. */
  function Percentages(entries: seq<TypeTotal>): (r: seq<Quotient>)
    ensures |r| == |entries|
    ensures forall i :: 0 <= i < |entries| ==> r[i] == Percent(entries[i].value, Total(entries))
  {
    var total := Total(entries);
    seq(|entries|, i requires 0 <= i < |entries| => Percent(entries[i].value, total))
  }

  function ShareOf(total: real): TypeTotal -> real
    requires total != 0.0
  {
    (e: TypeTotal) => e.value / total * 100.0
  }

  lemma ShareScale(v: real, total: real)
    requires total != 0.0
    ensures v / total * 100.0 == (100.0 / total) * v
  {
  }

  /** With a non-zero total the shares add up to 100. */
  lemma PercentagesSumTo100(entries: seq<TypeTotal>)
    requires Total(entries) != 0.0
    ensures SumBy(entries, ShareOf(Total(entries))) == 100.0
  {
    var total := Total(entries);
    var share := ShareOf(total);
    forall i | 0 <= i < |entries|
      ensures share(entries[i]) == (100.0 / total) * ValueOf(entries[i])
    {
      ShareScale(entries[i].value, total);
    }
    SumByScale(entries, share, ValueOf, 100.0 / total);
    assert (100.0 / total) * total == 100.0;
  }

  /** With a non-zero total each percentage is defined and is its entry's share. */
  lemma PercentagesAreShares(entries: seq<TypeTotal>, i: nat)
    requires Total(entries) != 0.0 && i < |entries|
    ensures Percentages(entries)[i] == Finite(ShareOf(Total(entries))(entries[i]))
  {
  }

  /** `typeLabels[type] || type`: five fixed labels; wallet and every other type
      show the raw string. */
  function TypeLabel(kind: string): (r: string)
    ensures r == kind <==> !(kind in {"stock_tw", "stock_us", "crypto", "cash", "defi"})
  {
    if kind == "stock_tw" then "台股"
    else if kind == "stock_us" then "美股"
    else if kind == "crypto" then "加密貨幣"
    else if kind == "cash" then "現金"
    else if kind == "defi" then "DeFi 資產"
    else kind
  }

  const Gray: string := "#6b7280"

  /** The doughnut's colour switch. */
  function DistributionColor(kind: string): (r: string)
    ensures r == Gray <==> !(kind in {"stock_tw", "stock_us", "crypto", "cash", "defi"})
    ensures kind == "stock_tw" || kind == "stock_us" ==> r == "#3b82f6"
  {
    if kind == "stock_tw" || kind == "stock_us" then "#3b82f6"
    else if kind == "crypto" then "#a855f7"
    else if kind == "defi" then "#ec4899"
    else if kind == "cash" then "#eab308"
    else Gray
  }

  /** Wallet slices are gray on the doughnut although the dashboard rows give
      wallets a colour of their own. */
  lemma WalletColours()
    ensures DistributionColor("wallet") == Gray
    ensures Dashboard.AssetColor("wallet") != "gray"
  {
    assert ParseAssetType("wallet") == Some(Wallet);
  }

  /** `COLORS` of the allocation pie. */
  const Palette: seq<string> := ["#0088FE", "#00C49F", "#FFBB28", "#FF8042", "#8884D8"]

  /** `COLORS[index % COLORS.length]`: the palette repeats every five slices. */
  function SliceColor(i: nat): (r: string)
    ensures r in Palette
    ensures i < |Palette| ==> r == Palette[i]
  {
    Palette[i % |Palette|]
  }

  lemma SliceColorPeriodic(i: nat)
    ensures SliceColor(i + 5) == SliceColor(i)
  {
  }

  /** The pie label's percent, `(value / total) * 100`. */
  function LabelPercent(entries: seq<TypeTotal>, i: nat): (r: Quotient)
    requires i < |entries|
    ensures r == Percentages(entries)[i]
  {
    Percent(entries[i].value, Total(entries))
  }
}

=== FILE: consequences.dfy ===
/** How the separately written pieces combine. The forms label types and
    transaction kinds in Chinese while every reader of an asset or a posting
    compares against the declared English tags, and the derived fields are
    written out at several call sites that must agree. */
module Consequences {
  import opened Wrappers
  import opened Types
  import opened Metrics
  import Forms
  import PriceUpdater
  import Dashboard
  import Charts
  import Holdings
  import AssetList
  import Sheet
  import Script
  import Responses

  /** An asset entered through the add form is never priced, counted on no
      dashboard card, drawn gray with its raw label on the doughnut and gray on
      its dashboard row, and listed in neither stock table. */
  lemma FormAssetsAreOrphaned(f: Forms.AssetForm, now: string, id: string)
    requires f.kind in Forms.AssetFormKinds
    ensures var a := WithId(Forms.NewAssetDraft(f, now), id);
      PriceUpdater.TargetOf(a).None?
      && Dashboard.Uncategorised(a)
      && Dashboard.AssetColor(a.kind) == "gray"
      && Charts.DistributionColor(a.kind) == Charts.Gray
      && Charts.TypeLabel(a.kind) == a.kind
      && !Holdings.IsTaiwanStock(a) && !Holdings.IsUsStock(a)
  {
    var a := WithId(Forms.NewAssetDraft(f, now), id);
    Forms.FormAssetKindsUndeclared(f.kind);
    PriceUpdater.LookedUpKinds(a);
    assert !Dashboard.IsStock(a) by {
      assert a.kind[0] != 's';
    }
  }

  /** A transaction recorded by the form as 買入 ("buy") is posted by the
      spreadsheet script as a sale: every kind other than the literal `buy`
      subtracts. */
  lemma FormBuyPostsAsSale(asset: Asset, amount: real, price: real, notes: string, now: string, h: Script.Holding)
    requires amount >= 0.0 && price >= 0.0
    ensures var t := Forms.NewTransactionDraft(asset, "買入", amount, price, notes, now);
      Script.Post(h, Sheet.Str(t.kind), t.amount, t.price).amount == h.amount - amount
  {
    assert Sheet.Str("買入") != Sheet.Str("buy") by {
      assert "買入"[0] != "buy"[0];
    }
  }

  /** Re-entering an asset's own amount and cost in the edit dialog with a new
      price stores the same derived fields the price updater's callback would. */
  lemma EditAgreesWithPriceUpdate(asset: Asset, f: Forms.AssetForm, now: string)
    requires f.amount == asset.amount && f.cost == asset.cost
    ensures DerivedOf(Forms.EditedAsset(asset, f, now)) == DerivedOf(AssetList.ApplyPrice(asset, f.currentPrice, now))
  {
  }

  /** lib/api.ts names the operation in a `method` parameter while the script
      dispatches on `action`: every request the client sends fails and no write
      reaches the store. A read, and a write carrying a JSON body, are answered
      'Invalid action', which the client rethrows; a write without a body
      (`deleteAsset`, or `updateAsset` with no patch) fails earlier, with the
      message of the failed body parse. */
  lemma ClientRequestsRejected(op: string, id: string, body: Result<Sheet.Record>, db: Script.Db)
    ensures Responses.Unwrap(Script.HandleGet(map["method" := op], db)) == Err("Invalid action")
    ensures body.Ok? ==> Script.HandlePost(map["method" := op], body, db) == Script.Response(db, Responses.Failure("Invalid action"))
    ensures body.Err? ==> Responses.Unwrap(Script.HandlePost(map["method" := op, "id" := id], body, db).envelope) == Err(body.error)
    ensures !Script.HandlePost(map["method" := op, "id" := id], body, db).envelope.success
    ensures Script.HandlePost(map["method" := op, "id" := id], body, db).db == db
  {
    assert "action" != "method" by { assert "action"[0] != "method"[0]; }
    assert "action" != "id" by { assert "action"[0] != "id"[0]; }
  }

  /** Named in an `action` parameter, the same requests reach their handlers:
      the assets are read back, and an asset is added exactly when it passes
      validation. */
  lemma ClientRequestsWithAction(data: Sheet.Record, db: Script.Db)
    ensures Responses.Unwrap(Script.HandleGet(map["action" := "getAssets"], db))
      == Ok(Some(Script.Rows(Sheet.Records(db.assets))))
    ensures Script.HandlePost(map["action" := "addAsset"], Ok(data), db).envelope.success
      <==> Sheet.ValidateAsset(data).Pass?
  {
  }
}

=== FILE: dashboard.dfy ===
/** The figures of app/dashboard/page.tsx: the total, the stock, crypto and cash
    subtotals, the period change of each card, and the colour of each asset
    row. */
module Dashboard {
  import opened Wrappers
  import opened Types
  import opened Metrics
  import opened Seqs

  function MarketValue(a: Asset): real { a.marketValue }
  function Profit(a: Asset): real { a.profit }
  function Cost(a: Asset): real { a.cost }

  /** `s.startsWith(prefix)`. */
  predicate StartsWith(s: string, prefix: string) {
    |prefix| <= |s| && s[..|prefix|] == prefix
  }

  /** The three card filters. Stocks are selected by prefix, so any `stock_…`
      type counts, declared or not. */
  predicate IsStock(a: Asset) { StartsWith(a.kind, "stock_") }
  predicate IsCrypto(a: Asset) { a.kind == "crypto" }
  predicate IsCash(a: Asset) { a.kind == "cash" }

  /** An asset no card counts: defi, wallet, or any undeclared type. */
  predicate Uncategorised(a: Asset) { !IsStock(a) && !IsCrypto(a) && !IsCash(a) }

  /** No asset falls into two cards; both declared stock types fall into the
      stock card; defi and wallet fall into none. */
  lemma CategoriesDisjoint(a: Asset)
    ensures !(IsStock(a) && IsCrypto(a)) && !(IsStock(a) && IsCash(a)) && !(IsCrypto(a) && IsCash(a))
    ensures ParseAssetType(a.kind) == Some(StockTw) || ParseAssetType(a.kind) == Some(StockUs) ==> IsStock(a)
    ensures ParseAssetType(a.kind) == Some(Defi) || ParseAssetType(a.kind) == Some(Wallet) ==> Uncategorised(a)
  {
    if IsStock(a) {
      assert a.kind[0] == a.kind[..6][0] == 's';
    }
  }

  /** The four figures at the top of the page. */
  datatype Totals = Totals(total: real, stock: real, crypto: real, cash: real)

  function SumOf(assets: seq<Asset>, p: Asset -> bool): real {
    SumBy(Filter(assets, p), MarketValue)
  }

  /** `totalAssets` and the three card totals: each is the market-value sum of
      the assets its filter keeps. */
  function ComputeTotals(assets: seq<Asset>): (r: Totals)
    ensures r.total == SumBy(assets, MarketValue)
    ensures r.stock == SumOf(assets, IsStock) && r.crypto == SumOf(assets, IsCrypto)
      && r.cash == SumOf(assets, IsCash)
    ensures r.total == r.stock + r.crypto + r.cash + SumOf(assets, Uncategorised)
    ensures (forall i :: 0 <= i < |assets| ==> !Uncategorised(assets[i])) ==>
      r.total == r.stock + r.crypto + r.cash
  {
    CategorySums(assets);
    NothingUncategorised(assets);
    Totals(SumBy(assets, MarketValue), SumOf(assets, IsStock), SumOf(assets, IsCrypto), SumOf(assets, IsCash))
  }

  /** The total splits into the three cards and the uncategorised rest. */
  lemma {:induction false} CategorySums(assets: seq<Asset>)
    ensures SumBy(assets, MarketValue)
      == SumOf(assets, IsStock) + SumOf(assets, IsCrypto) + SumOf(assets, IsCash) + SumOf(assets, Uncategorised)
    decreases |assets|
  {
    if assets != [] {
      var init := assets[..|assets| - 1];
      var last := assets[|assets| - 1];
      CategorySums(init);
      SumByFilterStep(assets, IsStock, MarketValue);
      SumByFilterStep(assets, IsCrypto, MarketValue);
      SumByFilterStep(assets, IsCash, MarketValue);
      SumByFilterStep(assets, Uncategorised, MarketValue);
      CategoriesDisjoint(last);
    }
  }

  lemma NothingUncategorised(assets: seq<Asset>)
    ensures (forall i :: 0 <= i < |assets| ==> !Uncategorised(assets[i])) ==> SumOf(assets, Uncategorised) == 0.0
  {
    if forall i :: 0 <= i < |assets| ==> !Uncategorised(assets[i]) {
      FilterDropsAll(assets, Uncategorised);
    }
  }

  /** `calculateMonthlyChange`: the summed profit, and that profit relative to the
      summed market value less the summed profit. */
  datatype Change = Change(profit: real, percentage: Quotient)

  function MonthlyChange(assets: seq<Asset>): (r: Change)
    ensures r.profit == SumBy(assets, Profit)
    ensures r.percentage.Finite? <==> SumBy(assets, MarketValue) != SumBy(assets, Profit)
    ensures r.percentage.Finite? ==>
      r.percentage.value * (SumBy(assets, MarketValue) - SumBy(assets, Profit)) == r.profit * 100.0
  {
    var profit := SumBy(assets, Profit);
    Change(profit, Percent(profit, SumBy(assets, MarketValue) - profit))
  }

  /** When every asset's stored fields are consistent, the denominator is the
      summed cost, so the card shows profit relative to what was paid. */
  lemma MonthlyChangeOverCost(assets: seq<Asset>)
    requires forall i :: 0 <= i < |assets| ==> Consistent(assets[i])
    ensures SumBy(assets, MarketValue) - SumBy(assets, Profit) == SumBy(assets, Cost)
    ensures MonthlyChange(assets).percentage == Percent(SumBy(assets, Profit), SumBy(assets, Cost))
  {
    SumByLinear(assets, MarketValue, Profit, Cost);
  }

  /** `getAssetColor`. */
  function AssetColor(kind: string): (r: string)
    ensures r == "gray" <==> ParseAssetType(kind).None?
    ensures kind == "stock_tw" || kind == "stock_us" ==> r == "blue"
  {
    match ParseAssetType(kind)
    case None => "gray"
    case Some(t) =>
      match t
      case StockTw => "blue"
      case StockUs => "blue"
      case Crypto => "purple"
      case Wallet => "indigo"
      case Defi => "pink"
      case Cash => "yellow"
  }

  /** Each declared kind other than the two stock kinds has a colour of its own. */
  lemma ColoursDistinguishKinds(t: AssetType, u: AssetType)
    requires AssetColor(AssetTypeName(t)) == AssetColor(AssetTypeName(u))
    ensures t == u || (t in {StockTw, StockUs} && u in {StockTw, StockUs})
  {
    assert ParseAssetType(AssetTypeName(t)) == Some(t);
    assert ParseAssetType(AssetTypeName(u)) == Some(u);
  }

  /** A summary card's colour, arrow and sign: `percentage >= 0`. For the
      percentage of a profit over a base, the card is positive exactly when the
      profit is not negative over a positive base, not positive over a negative
      base, or positive over a zero base (+Infinity); a zero profit over a zero
      base is NaN and shows as negative. */
  predicate SummaryPositive(p: Quotient): (r: bool)
    ensures forall part: real, whole: real {:trigger Percent(part, whole)} :: p == Percent(part, whole) ==>
      (r <==> (whole > 0.0 && part >= 0.0) || (whole < 0.0 && part <= 0.0) || (whole == 0.0 && part > 0.0))
  {
    PercentSigns();
    AtLeastZero(p)
  }

  /** An asset row's sign and colour: `profit_percentage > 0`. For the percentage
      of a profit over a cost, the row is positive exactly when profit and cost
      have the same strict sign, or the cost is zero and the profit positive. */
  predicate RowPositive(p: Quotient): (r: bool)
    ensures forall part: real, whole: real {:trigger Percent(part, whole)} :: p == Percent(part, whole) ==>
      (r <==> (whole > 0.0 && part > 0.0) || (whole < 0.0 && part < 0.0) || (whole == 0.0 && part > 0.0))
  {
    PercentSigns();
    AboveZero(p)
  }

  /** The two rules disagree on exactly one value: a change of 0% is positive on
      a card and not positive on a row. */
  lemma PositiveRulesDiffer(p: Quotient)
    ensures RowPositive(p) ==> SummaryPositive(p)
    ensures SummaryPositive(p) && !RowPositive(p) <==> p == Finite(0.0)
  {
  }
}

=== FILE: forms.dfy ===
/** The records the three forms build from their inputs: the new asset of
    components/AddAssetForm.tsx, the edited asset of
    components/EditAssetDialog.tsx and the new transaction of
    components/AddTransactionForm.tsx. The form inputs arrive already converted
    by `Number(...)`; the clock reading is a parameter. */
module Forms {
  import opened Wrappers
  import opened Types
  import opened Metrics

  /** The type options both asset forms offer. None of them is a declared
      `AssetType`. */
  const AssetFormKinds: seq<string> := ["股票", "加密貨幣", "現金"]

  /** The type options of the transaction form. */
  const TransactionFormKinds: seq<string> := ["買入", "賣出"]

  /** The fields an asset form submits, after `Number(...)` on the numeric ones. */
  datatype AssetForm = AssetForm(name: string, kind: string, amount: real, cost: real, currentPrice: real, notes: string)

  /** The three derived fields as both asset forms write them out. */
  function FormDerived(f: AssetForm): (r: Derived)
    ensures r == Derive(f.amount, f.cost, f.currentPrice)
  {
    assert f.currentPrice * f.amount == f.amount * f.currentPrice;
    Derived(f.amount * f.currentPrice,
            f.currentPrice * f.amount - f.cost,
            Percent(f.currentPrice * f.amount - f.cost, f.cost))
  }

  /** `newAsset` of AddAssetForm: no id, since the store assigns it, and no symbol,
      since the form has no symbol input. */
  function NewAssetDraft(f: AssetForm, now: string): (r: AssetDraft)
    ensures r.symbol.None?
    ensures r.name == f.name && r.kind == f.kind
    ensures r.amount == f.amount && r.cost == f.cost && r.currentPrice == f.currentPrice
    ensures forall id :: Consistent(WithId(r, id))
    ensures r.lastUpdated == now
    ensures r.notes == OptionalText(f.notes)
  {
    var d := FormDerived(f);
    AssetDraft(f.name, f.kind, None, f.amount, f.cost, f.currentPrice,
               d.marketValue, d.profit, d.profitPercentage, now, OptionalText(f.notes))
  }

  /** The worked example: 100 units bought for 1000 in total at price 15 are worth
      1500 with a profit of 500, or 50%. */
  lemma FormWorkedExample(name: string, kind: string, now: string)
    ensures var d := NewAssetDraft(AssetForm(name, kind, 100.0, 1000.0, 15.0, ""), now);
      d.marketValue == 1500.0 && d.profit == 500.0 && d.profitPercentage == Finite(50.0)
  {
    WorkedExample();
  }

  /** `updatedAsset` of EditAssetDialog: `{ ...asset, ...fields from the form }`.
      Only `id` and `symbol` survive from the original asset. */
  function EditedAsset(asset: Asset, f: AssetForm, now: string): (r: Asset)
    ensures r.id == asset.id && r.symbol == asset.symbol
    ensures r.name == f.name && r.kind == f.kind
    ensures r.amount == f.amount && r.cost == f.cost && r.currentPrice == f.currentPrice
    ensures Consistent(r)
    ensures r.lastUpdated == now
    ensures r.notes == OptionalText(f.notes)
  {
    var d := FormDerived(f);
    asset.(name := f.name, kind := f.kind, amount := f.amount, cost := f.cost,
           currentPrice := f.currentPrice, marketValue := d.marketValue, profit := d.profit,
           profitPercentage := d.profitPercentage, lastUpdated := now,
           notes := OptionalText(f.notes))
  }

  /** Editing an asset and adding one from the same form give the same record
      apart from the id and the symbol. */
  lemma EditMatchesAdd(asset: Asset, f: AssetForm, now: string)
    ensures DraftOf(EditedAsset(asset, f, now)) == NewAssetDraft(f, now).(symbol := asset.symbol)
  {
  }

  /** What an awaited store call can throw: an `Error` with its message, or any
      other value. */
  datatype Thrown = ErrorObject(message: string) | OtherValue

  /** `err instanceof Error ? err.message : fallback`. */
  function ErrorText(t: Thrown, fallback: string): (r: string)
    ensures t.ErrorObject? ==> r == t.message
    ensures t.OtherValue? ==> r == fallback
  {
    match t
    case ErrorObject(m) => m
    case OtherValue => fallback
  }

  const EditFallback: string := "更新資產時發生錯誤"

  /** The open dialog after a submission. */
  datatype DialogState = DialogState(open: bool, error: Option<string>)

  /** `handleSubmit` of EditAssetDialog once `onUpdate` settles: `None` when it
      resolves. The dialog closes only then; otherwise it stays open and shows
      the error. */
  function SubmitEdit(thrown: Option<Thrown>): (r: DialogState)
    ensures !r.open <==> thrown.None?
    ensures r.open <==> r.error.Some?
    ensures thrown.Some? ==> r.error == Some(ErrorText(thrown.value, EditFallback))
  {
    match thrown
    case None => DialogState(false, None)
    case Some(t) => DialogState(true, Some(ErrorText(t, EditFallback)))
  }

  /** `handleSubmit` of AddTransactionForm. The select offers only the two form
      kinds and both numeric inputs carry `min="0"`. */
  function NewTransactionDraft(asset: Asset, kind: string, amount: real, price: real, notes: string, now: string)
    : (r: TransactionDraft)
    requires kind in TransactionFormKinds
    requires amount >= 0.0 && price >= 0.0
    ensures r.assetId == asset.id && r.kind == kind
    ensures r.amount == amount && r.price == price
    ensures r.total >= 0.0
    ensures amount != 0.0 ==> r.total / amount == price
    ensures r.date == now
    ensures r.notes == OptionalText(notes)
  {
    TransactionDraft(asset.id, kind, amount, price, amount * price, now, OptionalText(notes))
  }

  /** The form never records the declared `buy` or `sell`. */
  lemma FormTransactionUndeclared(asset: Asset, kind: string, amount: real, price: real, notes: string, now: string)
    requires kind in TransactionFormKinds
    requires amount >= 0.0 && price >= 0.0
    ensures ParseRecordedType(NewTransactionDraft(asset, kind, amount, price, notes, now).kind).None?
  {
  }

  /** None of the asset form's kinds is a declared `AssetType`. */
  lemma FormAssetKindsUndeclared(kind: string)
    requires kind in AssetFormKinds
    ensures ParseAssetType(kind).None?
  {
  }
}

=== FILE: grouping.dfy ===
/** The group-by idiom of the holdings lists:
    `items.reduce((acc, x) => { if (!acc[k]) acc[k] = []; acc[k].push(x); return acc }, {})`
    followed by `Object.entries(acc)`. Groups appear in order of their key's
    first appearance and each keeps its items in input order. */
module Grouping {
  import opened Wrappers
  import opened Seqs

  datatype Group<K, T> = Group(key: K, members: seq<T>)

  function Keys<K, T>(groups: seq<Group<K, T>>): (r: seq<K>)
    ensures |r| == |groups| && forall i :: 0 <= i < |groups| ==> r[i] == groups[i].key
  {
    seq(|groups|, i requires 0 <= i < |groups| => groups[i].key)
  }

  function KeysOf<T, K>(s: seq<T>, key: T -> K): (r: seq<K>)
    ensures |r| == |s| && forall i :: 0 <= i < |s| ==> r[i] == key(s[i])
  {
    seq(|s|, i requires 0 <= i < |s| => key(s[i]))
  }

  function KeyIs<K(==), T>(k: K): Group<K, T> -> bool {
    (g: Group<K, T>) => g.key == k
  }

  /** The reducer body: push `x` onto the group of `k`, creating it at the end
      when `k` is new. */
  function Push<K(==), T>(groups: seq<Group<K, T>>, k: K, x: T): (r: seq<Group<K, T>>)
    ensures k in Keys(groups) ==> Keys(r) == Keys(groups)
    ensures k !in Keys(groups) ==> r == groups + [Group(k, [x])]
    ensures NoDuplicates(Keys(groups)) ==>
      forall i :: 0 <= i < |groups| ==>
        r[i].members == groups[i].members + (if groups[i].key == k then [x] else [])
  {
    match FindIndex(groups, KeyIs(k))
    case None => groups + [Group(k, [x])]
    case Some(i) =>
      var r := groups[i := Group(k, groups[i].members + [x])];
      assert Keys(r) == Keys(groups);
      r
  }

  /** The grouped items: one group per distinct key, none of them empty. */
  function GroupBy<T, K(==)>(s: seq<T>, key: T -> K): (r: seq<Group<K, T>>)
    ensures NoDuplicates(Keys(r))
    ensures forall i :: 0 <= i < |r| ==> |r[i].members| > 0
    decreases |s|
  {
    if s == [] then []
    else
      var groups := GroupBy(s[..|s| - 1], key);
      var x := s[|s| - 1];
      var r := Push(groups, key(x), x);
      assert NoDuplicates(Keys(r)) by {
        if key(x) !in Keys(groups) {
          assert Keys(r) == Keys(groups) + [key(x)];
        }
      }
      r
  }

  function HasKey<T, K(==)>(key: T -> K, k: K): T -> bool {
    (x: T) => key(x) == k
  }

  /** The items whose key is `k`, in input order: what the group of `k` should
      hold. */
  function Members<T, K(==)>(s: seq<T>, key: T -> K, k: K): (r: seq<T>)
    ensures forall i :: 0 <= i < |r| ==> key(r[i]) == k && r[i] in s
    ensures forall j :: 0 <= j < |s| && key(s[j]) == k ==> s[j] in r
    ensures Selects(r, s, HasKey(key, k))
    ensures forall x {:trigger multiset(r)[x]} :: x in s ==> multiset(r)[x] == if key(x) == k then multiset(s)[x] else 0
  {
    FilterSelects(s, HasKey(key, k));
    FilterMultiset(s, HasKey(key, k));
    Filter(s, HasKey(key, k))
  }

  lemma MembersAbsent<T, K>(s: seq<T>, key: T -> K, k: K)
    requires k !in KeysOf(s, key)
    ensures Members(s, key, k) == []
  {
    assert forall i :: 0 <= i < |s| ==> KeysOf(s, key)[i] == key(s[i]);
    FilterDropsAll(s, HasKey(key, k));
  }

  /** The group keys are the distinct keys in order of first appearance. */
  lemma {:induction false} GroupByKeys<T, K>(s: seq<T>, key: T -> K)
    ensures Keys(GroupBy(s, key)) == Dedup(KeysOf(s, key))
    decreases |s|
  {
    if s != [] {
      var init := s[..|s| - 1];
      var x := s[|s| - 1];
      GroupByKeys(init, key);
      var ks := KeysOf(s, key);
      assert ks[..|ks| - 1] == KeysOf(init, key);
      var groups := GroupBy(init, key);
      if key(x) !in Keys(groups) {
        assert Keys(groups + [Group(key(x), [x])]) == Keys(groups) + [key(x)];
      }
    }
  }

  /** Each group holds exactly the items with its key, in input order. */
  lemma {:induction false} GroupByMembers<T, K>(s: seq<T>, key: T -> K)
    ensures forall i :: 0 <= i < |GroupBy(s, key)| ==>
      GroupBy(s, key)[i].members == Members(s, key, GroupBy(s, key)[i].key)
    decreases |s|
  {
    if s != [] {
      var init := s[..|s| - 1];
      var x := s[|s| - 1];
      var groups := GroupBy(init, key);
      var r := GroupBy(s, key);
      GroupByMembers(init, key);
      forall i | 0 <= i < |r|
        ensures r[i].members == Members(s, key, r[i].key)
      {
        if i < |groups| {
          assert r[i].key == groups[i].key by {
            assert Keys(r)[i] == Keys(groups)[i] || r == groups + [Group(key(x), [x])];
          }
        } else {
          assert key(x) !in Keys(groups);
          GroupByKeys(init, key);
          MembersAbsent(init, key, key(x));
        }
      }
    }
  }

  /** `acc[k] || []`: the items of the group keyed `k`, or none. */
  function Lookup<K(==), T>(groups: seq<Group<K, T>>, k: K): (r: seq<T>)
    ensures k !in Keys(groups) ==> r == []
  {
    match FindIndex(groups, KeyIs(k))
    case None => []
    case Some(i) => groups[i].members
  }

  /** Looking a key up in the grouping gives the items with that key, whether or
      not any item has it. */
  lemma LookupGroupBy<T, K>(s: seq<T>, key: T -> K, k: K)
    ensures Lookup(GroupBy(s, key), k) == Members(s, key, k)
  {
    var groups := GroupBy(s, key);
    GroupByKeys(s, key);
    GroupByMembers(s, key);
    match FindIndex(groups, KeyIs(k))
    case None =>
      assert k !in Keys(groups);
      MembersAbsent(s, key, k);
    case Some(i) =>
  }

  /** Every item is in the group of its key, and in no other group. */
  lemma EveryItemGroupedOnce<T, K>(s: seq<T>, key: T -> K, j: nat)
    requires j < |s|
    ensures exists i :: (0 <= i < |GroupBy(s, key)| && GroupBy(s, key)[i].key == key(s[j])
      && s[j] in GroupBy(s, key)[i].members)
    ensures forall i :: 0 <= i < |GroupBy(s, key)| && s[j] in GroupBy(s, key)[i].members ==>
      GroupBy(s, key)[i].key == key(s[j])
  {
    var groups := GroupBy(s, key);
    GroupByKeys(s, key);
    GroupByMembers(s, key);
    var k := key(s[j]);
    assert KeysOf(s, key)[j] == k;
    assert k in Keys(groups);
    var i :| 0 <= i < |groups| && Keys(groups)[i] == k;
    assert groups[i].members == Members(s, key, k);
    forall i' | 0 <= i' < |groups| && s[j] in groups[i'].members
      ensures groups[i'].key == k
    {
      var m := groups[i'].members;
      assert m == Members(s, key, groups[i'].key);
      var n :| 0 <= n < |m| && m[n] == s[j];
    }
  }

  /** The first member of a group is the first item with its key. */
  lemma {:induction false} MembersFirst<T, K>(s: seq<T>, key: T -> K, k: K, j: nat)
    requires j < |s| && key(s[j]) == k
    requires forall i :: 0 <= i < j ==> key(s[i]) != k
    ensures |Members(s, key, k)| > 0 && Members(s, key, k)[0] == s[j]
    decreases |s|
  {
    var init := s[..|s| - 1];
    if j < |s| - 1 {
      MembersFirst(init, key, k, j);
    } else {
      forall i | 0 <= i < |init|
        ensures KeysOf(init, key)[i] != k
      {
        assert init[i] == s[i];
      }
      MembersAbsent(init, key, k);
    }
  }
}

=== FILE: holdings.dfy ===
/** The per-type holdings tables: components/stock-assets-list.tsx,
    crypto-assets-list.tsx, cash-assets-list.tsx, wallet-assets-list.tsx and
    defi-assets-list.tsx. Each receives a list of assets and splits or groups
    it for display; the wallet and DeFi tables decode a JSON description kept in
    `notes`, which is a decoder parameter here (`None` when `JSON.parse`
    throws, which aborts the render). */
module Holdings {
  import opened Wrappers
  import opened Types
  import opened Metrics
  import opened Seqs
  import opened Grouping
  import Dashboard

  /** The rate every US-dollar table multiplies by for its NT$ column. */
  const UsdToTwd: real := 31.5

  /** `market_value * 31.5`, the NT$ column of the US-stock, crypto, wallet and
      DeFi tables. The cash table shows `market_value` unconverted. */
  function TwdValue(a: Asset): (r: real)
    ensures r / UsdToTwd == a.marketValue
    ensures r >= 0.0 <==> a.marketValue >= 0.0
  {
    a.marketValue * UsdToTwd
  }

  // ----- Signs shown on every row -----

  /** `profit >= 0 ? "+" : ""`. */
  function ProfitPrefix(profit: real): (r: string)
    ensures r == "+" <==> profit >= 0.0
    ensures r == "" <==> profit < 0.0
  {
    if profit >= 0.0 then "+" else ""
  }

  /** `profit_percentage >= 0`: the up arrow and the green colour. */
  predicate ArrowUp(p: Quotient) { Dashboard.SummaryPositive(p) }

  /** For a consistent asset bought at a positive cost, the arrow points up
      exactly when the profit carries a plus sign. At zero cost the percentage is
      an infinity or NaN: the arrow points up exactly when there is a profit, so
      a zero profit shows a plus sign beside a down arrow. */
  lemma ArrowAgreesWithPrefix(a: Asset)
    requires Consistent(a)
    ensures a.cost > 0.0 ==> (ArrowUp(a.profitPercentage) <==> ProfitPrefix(a.profit) == "+")
    ensures a.cost == 0.0 ==> (ArrowUp(a.profitPercentage) <==> a.profit > 0.0)
    ensures a.cost == 0.0 && a.profit == 0.0 ==> ProfitPrefix(a.profit) == "+" && !ArrowUp(a.profitPercentage)
  {
    assert a.profitPercentage == Percent(a.profit, a.cost);
  }

  // ----- Stocks -----

  predicate IsTaiwanStock(a: Asset) { a.kind == "stock_tw" }
  predicate IsUsStock(a: Asset) { a.kind == "stock_us" }

  /** The two tables of the stock page. */
  datatype StockTables = StockTables(taiwan: seq<Asset>, us: seq<Asset>)

  /** `assets.filter(type === 'stock_tw')` and `assets.filter(type === 'stock_us')`. */
  function SplitStocks(assets: seq<Asset>): (r: StockTables)
    ensures forall j :: 0 <= j < |assets| ==> (assets[j] in r.taiwan <==> assets[j].kind == "stock_tw")
    ensures forall j :: 0 <= j < |assets| ==> (assets[j] in r.us <==> assets[j].kind == "stock_us")
    ensures forall a :: a in r.taiwan || a in r.us ==> a in assets
    ensures forall a :: !(a in r.taiwan && a in r.us)
    ensures Selects(r.taiwan, assets, IsTaiwanStock) && Selects(r.us, assets, IsUsStock)
    ensures forall a {:trigger multiset(r.taiwan)[a]} {:trigger multiset(r.us)[a]} :: a in assets ==>
      multiset(r.taiwan)[a] == (if a.kind == "stock_tw" then multiset(assets)[a] else 0)
      && multiset(r.us)[a] == (if a.kind == "stock_us" then multiset(assets)[a] else 0)
  {
    FilterSelects(assets, IsTaiwanStock);
    FilterSelects(assets, IsUsStock);
    FilterMultiset(assets, IsTaiwanStock);
    FilterMultiset(assets, IsUsStock);
    StockTables(Filter(assets, IsTaiwanStock), Filter(assets, IsUsStock))
  }

  /** When every asset is one of the two stock types, each row appears in
      exactly one table. */
  lemma {:induction false} SplitStocksCovers(assets: seq<Asset>)
    requires forall j :: 0 <= j < |assets| ==> assets[j].kind in {"stock_tw", "stock_us"}
    ensures |SplitStocks(assets).taiwan| + |SplitStocks(assets).us| == |assets|
    decreases |assets|
  {
    if assets != [] {
      var init := assets[..|assets| - 1];
      assert forall j :: 0 <= j < |init| ==> init[j] == assets[j];
      SplitStocksCovers(init);
    }
  }

  // ----- Crypto -----

  /** The four exchange tabs, in order. */
  const Exchanges: seq<string> := ["binance", "okx", "bybit", "flipser"]

  /** `asset.notes || 'other'`. */
  function ExchangeOf(a: Asset): (r: string)
    ensures r != ""
    ensures HasNotes(a) ==> r == a.notes.value
    ensures !HasNotes(a) ==> r == "other"
  {
    TextOr(a.notes, "other")
  }

  /** `assetsByExchange[exchange.id] || []`: the rows of one tab. */
  function ExchangeTab(assets: seq<Asset>, exchange: string): (r: seq<Asset>)
    ensures r == Members(assets, ExchangeOf, exchange)
  {
    LookupGroupBy(assets, ExchangeOf, exchange);
    Lookup(GroupBy(assets, ExchangeOf), exchange)
  }

  /** An asset is shown on some tab exactly when its notes name one of the four
      exchanges; an asset without notes ('other') is shown on none. */
  lemma CryptoShownIff(assets: seq<Asset>, j: nat)
    requires j < |assets|
    ensures (exists t :: t in Exchanges && assets[j] in ExchangeTab(assets, t))
      <==> ExchangeOf(assets[j]) in Exchanges
    ensures TextOr(assets[j].notes, "") == "" ==> forall t :: t in Exchanges ==> assets[j] !in ExchangeTab(assets, t)
  {
    var a := assets[j];
    forall t | t in Exchanges && a in ExchangeTab(assets, t)
      ensures ExchangeOf(a) == t
    {
      var m := ExchangeTab(assets, t);
      var n :| 0 <= n < |m| && m[n] == a;
    }
    if ExchangeOf(a) in Exchanges {
      assert a in ExchangeTab(assets, ExchangeOf(a));
    }
  }

  // ----- Cash -----

  /** `asset.notes || 'TWD'`. */
  function CurrencyOf(a: Asset): (r: string)
    ensures r != ""
    ensures HasNotes(a) ==> r == a.notes.value
    ensures !HasNotes(a) ==> r == "TWD"
  {
    TextOr(a.notes, "TWD")
  }

  /** `Object.entries(currencyGroups)`: one card per currency, every one rendered. */
  function CashCards(assets: seq<Asset>): (r: seq<Group<string, Asset>>)
    ensures Keys(r) == Dedup(KeysOf(assets, CurrencyOf))
    ensures forall i :: 0 <= i < |r| ==> r[i].members == Members(assets, CurrencyOf, r[i].key)
  {
    GroupByKeys(assets, CurrencyOf);
    GroupByMembers(assets, CurrencyOf);
    GroupBy(assets, CurrencyOf)
  }

  /** Every cash asset is on the card of its currency and on no other card. */
  lemma CashShownOnce(assets: seq<Asset>, j: nat)
    requires j < |assets|
    ensures exists i :: (0 <= i < |CashCards(assets)| && CashCards(assets)[i].key == CurrencyOf(assets[j])
      && assets[j] in CashCards(assets)[i].members)
    ensures forall i :: 0 <= i < |CashCards(assets)| && assets[j] in CashCards(assets)[i].members ==>
      CashCards(assets)[i].key == CurrencyOf(assets[j])
  {
    assert CashCards(assets) == GroupBy(assets, CurrencyOf);
    EveryItemGroupedOnce(assets, CurrencyOf, j);
  }

  // ----- Notes holding JSON -----

  /** `asset.notes ? ...`: notes are decoded only when present and non-empty. */
  predicate HasNotes(a: Asset) { a.notes.Some? && a.notes.value != "" }

  /** No asset's notes make `JSON.parse` throw. */
  predicate AllDecodable<I>(assets: seq<Asset>, decode: string -> Option<I>) {
    forall i :: 0 <= i < |assets| ==> !HasNotes(assets[i]) || decode(assets[i].notes.value).Some?
  }

  /** The decoded notes, or the fallback when there are none. */
  function InfoOf<I>(decode: string -> Option<I>, fallback: I, a: Asset): (r: I)
    ensures !HasNotes(a) ==> r == fallback
    ensures HasNotes(a) && decode(a.notes.value).Some? ==> r == decode(a.notes.value).value
  {
    if HasNotes(a) then decode(a.notes.value).GetOr(fallback) else fallback
  }

  // ----- Wallets -----

  datatype WalletInfo = WalletInfo(address: string, blockchain: string)

  const UnknownWallet: WalletInfo := WalletInfo("unknown", "Unknown")

  function AddressOf(decode: string -> Option<WalletInfo>): Asset -> string {
    (a: Asset) => InfoOf(decode, UnknownWallet, a).address
  }

  /** One wallet card: its address, the blockchain badge, and its rows. */
  datatype WalletGroup = WalletGroup(address: string, blockchain: string, assets: seq<Asset>)

  /** The card of a group: the blockchain is the one decoded from the group's first
      asset, because the group is created when that asset is reached. */
  function WalletCard(decode: string -> Option<WalletInfo>, g: Group<string, Asset>): WalletGroup
    requires |g.members| > 0
  {
    WalletGroup(g.key, InfoOf(decode, UnknownWallet, g.members[0]).blockchain, g.members)
  }

  /** `Object.entries(walletGroups)`, or `None` when some notes do not parse. */
  function WalletCards(assets: seq<Asset>, decode: string -> Option<WalletInfo>): (r: Option<seq<WalletGroup>>)
    ensures r.None? <==> !AllDecodable(assets, decode)
    ensures r.Some? ==> |r.value| == |GroupBy(assets, AddressOf(decode))|
    ensures r.Some? ==> forall i :: 0 <= i < |r.value| ==>
      r.value[i].address == GroupBy(assets, AddressOf(decode))[i].key
      && r.value[i].assets == Members(assets, AddressOf(decode), r.value[i].address)
  {
    if !AllDecodable(assets, decode) then None
    else
      var groups := GroupBy(assets, AddressOf(decode));
      GroupByMembers(assets, AddressOf(decode));
      Some(seq(|groups|, i requires 0 <= i < |groups| => WalletCard(decode, groups[i])))
  }

  /** A wallet's badge shows the blockchain of the first asset listed under its
      address, whatever the later ones say. */
  lemma WalletChainFromFirst(assets: seq<Asset>, decode: string -> Option<WalletInfo>, j: nat)
    requires AllDecodable(assets, decode)
    requires j < |assets|
    requires forall i :: 0 <= i < j ==> AddressOf(decode)(assets[i]) != AddressOf(decode)(assets[j])
    ensures exists i :: (0 <= i < |WalletCards(assets, decode).value|
      && WalletCards(assets, decode).value[i].address == AddressOf(decode)(assets[j])
      && WalletCards(assets, decode).value[i].blockchain == InfoOf(decode, UnknownWallet, assets[j]).blockchain)
  {
    var key := AddressOf(decode);
    var groups := GroupBy(assets, key);
    EveryItemGroupedOnce(assets, key, j);
    GroupByMembers(assets, key);
    var i :| 0 <= i < |groups| && groups[i].key == key(assets[j]) && assets[j] in groups[i].members;
    MembersFirst(assets, key, key(assets[j]), j);
    assert WalletCards(assets, decode).value[i] == WalletCard(decode, groups[i]);
  }

  // ----- DeFi positions -----

  datatype DefiInfo = DefiInfo(protocol: string, kind: string, blockchain: string,
                               apy: string, healthFactor: string, riskLevel: string)

  const UnknownDefi: DefiInfo := DefiInfo("Unknown", "Unknown", "Unknown", "0%", "-", "中")

  function ProtocolOf(decode: string -> Option<DefiInfo>): Asset -> string {
    (a: Asset) => InfoOf(decode, UnknownDefi, a).protocol
  }

  /** `{ ...asset, apy, healthFactor, riskLevel }`. */
  datatype Position = Position(asset: Asset, apy: string, healthFactor: string, riskLevel: string)

  function Annotate(decode: string -> Option<DefiInfo>, a: Asset): Position {
    var info := InfoOf(decode, UnknownDefi, a);
    Position(a, info.apy, info.healthFactor, info.riskLevel)
  }

  /** One protocol card: the header badges and the annotated rows. */
  datatype Protocol = Protocol(protocol: string, kind: string, blockchain: string, positions: seq<Position>)

  /** The card of a group: header from the group's first asset, each row
      annotated from its own notes. */
  function ProtocolCard(decode: string -> Option<DefiInfo>, g: Group<string, Asset>): (r: Protocol)
    requires |g.members| > 0
    ensures |r.positions| == |g.members|
    ensures forall k :: 0 <= k < |g.members| ==> r.positions[k] == Annotate(decode, g.members[k])
    ensures r.protocol == g.key
    ensures r.kind == InfoOf(decode, UnknownDefi, g.members[0]).kind
    ensures r.blockchain == InfoOf(decode, UnknownDefi, g.members[0]).blockchain
  {
    var first := InfoOf(decode, UnknownDefi, g.members[0]);
    Protocol(g.key, first.kind, first.blockchain,
             seq(|g.members|, k requires 0 <= k < |g.members| => Annotate(decode, g.members[k])))
  }

  /** `Object.entries(protocolGroups)`, or `None` when some notes do not parse. */
  function ProtocolCards(assets: seq<Asset>, decode: string -> Option<DefiInfo>): (r: Option<seq<Protocol>>)
    ensures r.None? <==> !AllDecodable(assets, decode)
    ensures r.Some? ==> (Dedup(KeysOf(assets, ProtocolOf(decode)))
      == seq(|r.value|, i requires 0 <= i < |r.value| => r.value[i].protocol))
    ensures r.Some? ==> forall i :: 0 <= i < |r.value| ==>
      var m := Members(assets, ProtocolOf(decode), r.value[i].protocol);
      |r.value[i].positions| == |m|
      && forall k :: 0 <= k < |m| ==> r.value[i].positions[k] == Annotate(decode, m[k])
  {
    if !AllDecodable(assets, decode) then None
    else
      var groups := GroupBy(assets, ProtocolOf(decode));
      var r := seq(|groups|, i requires 0 <= i < |groups| => ProtocolCard(decode, groups[i]));
      ProtocolCardsOrder(assets, decode, r);
      ProtocolCardsRows(assets, decode, r);
      Some(r)
  }

  /** Cards made one per group, in group order, carry the protocols in order of
      first appearance. */
  lemma ProtocolCardsOrder(assets: seq<Asset>, decode: string -> Option<DefiInfo>, r: seq<Protocol>)
    requires |r| == |GroupBy(assets, ProtocolOf(decode))|
    requires forall i :: 0 <= i < |r| ==> r[i] == ProtocolCard(decode, GroupBy(assets, ProtocolOf(decode))[i])
    ensures Dedup(KeysOf(assets, ProtocolOf(decode))) == seq(|r|, i requires 0 <= i < |r| => r[i].protocol)
  {
    var groups := GroupBy(assets, ProtocolOf(decode));
    GroupByKeys(assets, ProtocolOf(decode));
    assert forall i :: 0 <= i < |r| ==> r[i].protocol == groups[i].key;
    assert seq(|r|, i requires 0 <= i < |r| => r[i].protocol) == Keys(groups);
  }

  /** Cards made one per group hold, row by row, the annotated assets of their
      protocol. */
  lemma ProtocolCardsRows(assets: seq<Asset>, decode: string -> Option<DefiInfo>, r: seq<Protocol>)
    requires |r| == |GroupBy(assets, ProtocolOf(decode))|
    requires forall i :: 0 <= i < |r| ==> r[i] == ProtocolCard(decode, GroupBy(assets, ProtocolOf(decode))[i])
    ensures forall i :: 0 <= i < |r| ==>
      var m := Members(assets, ProtocolOf(decode), r[i].protocol);
      |r[i].positions| == |m|
      && forall k :: 0 <= k < |m| ==> r[i].positions[k] == Annotate(decode, m[k])
  {
    var key := ProtocolOf(decode);
    var groups := GroupBy(assets, key);
    forall i | 0 <= i < |r|
      ensures var m := Members(assets, key, r[i].protocol);
        |r[i].positions| == |m| && forall k :: 0 <= k < |m| ==> r[i].positions[k] == Annotate(decode, m[k])
    {
      GroupByMembers(assets, key);
      assert groups[i].members == Members(assets, key, groups[i].key);
    }
  }

  /** A protocol card's type and blockchain badges are those decoded from the
      first asset listed under that protocol, whatever the later ones say. */
  lemma DefiHeaderFromFirst(assets: seq<Asset>, decode: string -> Option<DefiInfo>, j: nat)
    requires AllDecodable(assets, decode)
    requires j < |assets|
    requires forall i :: 0 <= i < j ==> ProtocolOf(decode)(assets[i]) != ProtocolOf(decode)(assets[j])
    ensures exists i :: (0 <= i < |ProtocolCards(assets, decode).value|
      && ProtocolCards(assets, decode).value[i].protocol == ProtocolOf(decode)(assets[j])
      && ProtocolCards(assets, decode).value[i].kind == InfoOf(decode, UnknownDefi, assets[j]).kind
      && ProtocolCards(assets, decode).value[i].blockchain == InfoOf(decode, UnknownDefi, assets[j]).blockchain)
  {
    var key := ProtocolOf(decode);
    var groups := GroupBy(assets, key);
    EveryItemGroupedOnce(assets, key, j);
    GroupByMembers(assets, key);
    var i :| 0 <= i < |groups| && groups[i].key == key(assets[j]) && assets[j] in groups[i].members;
    MembersFirst(assets, key, key(assets[j]), j);
    assert ProtocolCards(assets, decode).value[i] == ProtocolCard(decode, groups[i]);
  }

  /** Each row of a protocol card keeps every field of its asset, carries the
      annotations decoded from that asset's own notes, and sits on the card of
      its own protocol. */
  lemma ProtocolRows(assets: seq<Asset>, decode: string -> Option<DefiInfo>, i: nat, k: nat)
    requires AllDecodable(assets, decode)
    requires i < |ProtocolCards(assets, decode).value|
    requires k < |ProtocolCards(assets, decode).value[i].positions|
    ensures var row := ProtocolCards(assets, decode).value[i].positions[k];
      row.asset in assets
      && ProtocolOf(decode)(row.asset) == ProtocolCards(assets, decode).value[i].protocol
      && row.apy == InfoOf(decode, UnknownDefi, row.asset).apy
      && row.healthFactor == InfoOf(decode, UnknownDefi, row.asset).healthFactor
      && row.riskLevel == InfoOf(decode, UnknownDefi, row.asset).riskLevel
  {
    var key := ProtocolOf(decode);
    var groups := GroupBy(assets, key);
    GroupByMembers(assets, key);
    assert ProtocolCards(assets, decode).value[i] == ProtocolCard(decode, groups[i]);
    assert groups[i].members == Members(assets, key, groups[i].key);
  }

  /** An asset without notes is listed under 'Unknown' with a 0% APY, no health
      factor and medium risk. */
  lemma UndescribedPosition(decode: string -> Option<DefiInfo>, a: Asset)
    requires !HasNotes(a)
    ensures ProtocolOf(decode)(a) == "Unknown"
    ensures Annotate(decode, a) == Position(a, "0%", "-", "中")
    ensures RiskColor(Annotate(decode, a).riskLevel) == "yellow"
  {
  }

  /** `healthFactor !== "-" && Number(healthFactor) < 1.5`: the warning icon.
      `toNumber` is JavaScript's `Number`, `None` for NaN. */
  predicate HealthWarning(healthFactor: string, toNumber: string -> Option<real>): (r: bool)
    ensures r ==> healthFactor != "-" && toNumber(healthFactor).Some?
    ensures healthFactor != "-" && toNumber(healthFactor).Some? ==> (r <==> toNumber(healthFactor).value < 1.5)
  {
    healthFactor != "-" && toNumber(healthFactor).Some? && toNumber(healthFactor).value < 1.5
  }

  /** The warning is a threshold: a factor that reads as no larger than one that
      warns warns too. */
  lemma HealthWarningMonotone(low: string, high: string, toNumber: string -> Option<real>)
    requires low != "-" && toNumber(low).Some? && toNumber(high).Some?
    requires toNumber(low).value <= toNumber(high).value
    requires HealthWarning(high, toNumber)
    ensures HealthWarning(low, toNumber)
  {
  }

  /** The placeholder never warns, and a factor that is not a number never
      warns. */
  lemma HealthWarningCases(healthFactor: string, toNumber: string -> Option<real>)
    ensures HealthWarning(healthFactor, toNumber) ==> healthFactor != "-"
    ensures toNumber(healthFactor).None? ==> !HealthWarning(healthFactor, toNumber)
    ensures healthFactor != "-" && toNumber(healthFactor) == Some(1.2) ==> HealthWarning(healthFactor, toNumber)
  {
  }

  /** The risk column's colour: 低 green, 中 yellow, anything else red. */
  function RiskColor(level: string): (r: string)
    ensures r == "green" <==> level == "低"
    ensures r == "yellow" <==> level == "中"
    ensures r == "red" <==> level != "低" && level != "中"
  {
    if level == "低" then "green" else if level == "中" then "yellow" else "red"
  }
}

=== FILE: metrics.dfy ===
/** The derived fields of an asset (market value, profit, profit percentage).

    The formula is written out independently at three call sites
    (components/AssetList.tsx, components/EditAssetDialog.tsx,
    components/AddAssetForm.tsx); `Derive` is the one reference definition the
    model checks each of them against. */
module Metrics {
  import opened Wrappers
  import opened Types

  /** `part / whole * 100`. No call site guards `whole == 0`; JavaScript then yields
      Infinity with the sign of `part`, or NaN for `0 / 0`. */
  function Percent(part: real, whole: real): (r: Quotient)
    ensures r.Finite? <==> whole != 0.0
    ensures r.Finite? ==> r.value * whole == part * 100.0
    ensures r.PosInfinity? <==> whole == 0.0 && part > 0.0
    ensures r.NegInfinity? <==> whole == 0.0 && part < 0.0
    ensures r.NaN? <==> whole == 0.0 && part == 0.0
  {
    if whole != 0.0 then Finite(part / whole * 100.0)
    else if part > 0.0 then PosInfinity
    else if part < 0.0 then NegInfinity
    else NaN
  }

  /** JavaScript's `q >= 0`: NaN compares false, +Infinity true. */
  predicate AtLeastZero(q: Quotient) {
    q.PosInfinity? || (q.Finite? && q.value >= 0.0)
  }

  /** JavaScript's `q > 0`. */
  predicate AboveZero(q: Quotient) {
    q.PosInfinity? || (q.Finite? && q.value > 0.0)
  }

  /** How the two comparisons of a percentage follow the signs of its part and
      whole; a zero whole compares like the part itself, but `0 / 0` is NaN and
      is neither. */
  lemma PercentSign(part: real, whole: real)
    ensures AtLeastZero(Percent(part, whole))
      <==> (whole > 0.0 && part >= 0.0) || (whole < 0.0 && part <= 0.0) || (whole == 0.0 && part > 0.0)
    ensures AboveZero(Percent(part, whole))
      <==> (whole > 0.0 && part > 0.0) || (whole < 0.0 && part < 0.0) || (whole == 0.0 && part > 0.0)
  {
    if whole != 0.0 {
      var v := Percent(part, whole).value;
      assert v * whole == part * 100.0;
      if whole > 0.0 {
        assert v >= 0.0 ==> part >= 0.0;
        assert v < 0.0 ==> part < 0.0;
        assert v > 0.0 ==> part > 0.0;
        assert v <= 0.0 ==> part <= 0.0;
      } else {
        assert v >= 0.0 ==> part <= 0.0;
        assert v < 0.0 ==> part > 0.0;
        assert v > 0.0 ==> part < 0.0;
        assert v <= 0.0 ==> part >= 0.0;
      }
    }
  }

  lemma PercentSigns()
    ensures forall part: real, whole: real {:trigger Percent(part, whole)} ::
      (AtLeastZero(Percent(part, whole)) <==>
         (whole > 0.0 && part >= 0.0) || (whole < 0.0 && part <= 0.0) || (whole == 0.0 && part > 0.0))
      && (AboveZero(Percent(part, whole)) <==>
         (whole > 0.0 && part > 0.0) || (whole < 0.0 && part < 0.0) || (whole == 0.0 && part > 0.0))
  {
    forall part: real, whole: real {
      PercentSign(part, whole);
    }
  }

  datatype Derived = Derived(marketValue: real, profit: real, profitPercentage: Quotient)

  /** Reference derivation: value is amount times price, profit is value less cost,
      percentage is profit relative to cost. */
  function Derive(amount: real, cost: real, price: real): Derived {
    var value := amount * price;
    Derived(value, value - cost, Percent(value - cost, cost))
  }

  function DerivedOf(a: Asset): Derived {
    Derived(a.marketValue, a.profit, a.profitPercentage)
  }

  /** The stored derived fields agree with amount, cost and current price. */
  predicate Consistent(a: Asset) {
    DerivedOf(a) == Derive(a.amount, a.cost, a.currentPrice)
  }

  /** The derivation as a relation: market value and profit are determined by the
      inputs, the percentage exists exactly when cost is non-zero, and then
      percentage times cost is one hundred times profit. */
  lemma DeriveCharacterised(amount: real, cost: real, price: real)
    ensures Derive(amount, cost, price).marketValue == amount * price
    ensures Derive(amount, cost, price).profit + cost == amount * price
    ensures Derive(amount, cost, price).profitPercentage.Finite? <==> cost != 0.0
    ensures cost != 0.0 ==>
      Derive(amount, cost, price).profitPercentage.value * cost
        == (amount * price - cost) * 100.0
  {
  }

  /** The worked example: 100 units bought for 1000 in total, priced at 15. */
  lemma WorkedExample()
    ensures Derive(100.0, 1000.0, 15.0) == Derived(1500.0, 500.0, Finite(50.0))
  {
  }

  /** With a positive cost the percentage is positive exactly when the holding is
      worth more than it cost. */
  lemma PercentageSign(amount: real, cost: real, price: real)
    requires cost > 0.0
    ensures Derive(amount, cost, price).profitPercentage.value > 0.0 <==> amount * price > cost
    ensures Derive(amount, cost, price).profitPercentage.value == 0.0 <==> amount * price == cost
  {
    var p := Derive(amount, cost, price).profitPercentage.value;
    assert p * cost == (amount * price - cost) * 100.0;
  }
}

=== FILE: mock_api.dfy ===
/** The development branch of lib/api.ts: an in-memory asset list standing in
    for the spreadsheet store. Fresh ids (`Math.random`) and timestamps
    (`new Date()`) are parameters. The production branch is the envelope
    decoding of module Responses. */
module MockApi {
  import opened Wrappers
  import opened Types
  import opened Seqs

  /** `Partial<Asset>`: a field the caller left out is `None`. */
  datatype AssetPatch = AssetPatch(
    id: Option<string>,
    name: Option<string>,
    kind: Option<string>,
    symbol: Option<Option<string>>,
    amount: Option<real>,
    cost: Option<real>,
    currentPrice: Option<real>,
    marketValue: Option<real>,
    profit: Option<real>,
    profitPercentage: Option<Quotient>,
    lastUpdated: Option<string>,
    notes: Option<Option<string>>)

  /** `{ ...a, ...patch }`: each supplied field wins, each missing one is kept. */
  function Overlay(a: Asset, patch: AssetPatch): (r: Asset)
    ensures patch == AssetPatch(None, None, None, None, None, None, None, None, None, None, None, None) ==> r == a
    ensures patch.name.Some? ==> r.name == patch.name.value
    ensures patch.name.None? ==> r.name == a.name
    ensures patch.amount.Some? ==> r.amount == patch.amount.value
    ensures patch.amount.None? ==> r.amount == a.amount
  {
    Asset(patch.id.GetOr(a.id), patch.name.GetOr(a.name), patch.kind.GetOr(a.kind),
          patch.symbol.GetOr(a.symbol), patch.amount.GetOr(a.amount), patch.cost.GetOr(a.cost),
          patch.currentPrice.GetOr(a.currentPrice), patch.marketValue.GetOr(a.marketValue),
          patch.profit.GetOr(a.profit), patch.profitPercentage.GetOr(a.profitPercentage),
          patch.lastUpdated.GetOr(a.lastUpdated), patch.notes.GetOr(a.notes))
  }

  /** The patch that sets every field of `a`: overlaying it yields `a` whatever
      it is laid over. */
  function PatchOf(a: Asset): (r: AssetPatch)
    ensures forall b :: Overlay(b, r) == a
  {
    AssetPatch(Some(a.id), Some(a.name), Some(a.kind), Some(a.symbol), Some(a.amount), Some(a.cost),
               Some(a.currentPrice), Some(a.marketValue), Some(a.profit), Some(a.profitPercentage),
               Some(a.lastUpdated), Some(a.notes))
  }

  /** The store and the asset a call resolves with. */
  datatype Stored = Stored(store: seq<Asset>, asset: Asset)

  /** `addAsset`: the draft with a fresh id and a new timestamp, pushed at the end. */
  function AddAsset(store: seq<Asset>, draft: AssetDraft, id: string, now: string): (r: Stored)
    ensures |r.store| == |store| + 1
    ensures r.store[..|store|] == store && r.store[|store|] == r.asset
    ensures r.asset.id == id && r.asset.lastUpdated == now
    ensures DraftOf(r.asset) == draft.(lastUpdated := now)
  {
    var a := WithId(draft.(lastUpdated := now), id);
    assert (store + [a])[..|store|] == store;
    Stored(store + [a], a)
  }

  predicate HasId(store: seq<Asset>, id: string) {
    exists i :: 0 <= i < |store| && store[i].id == id
  }

  /** `mockAssets.findIndex(a => a.id === id)`. */
  function IndexOfId(store: seq<Asset>, id: string): (r: Option<nat>)
    ensures r.None? <==> !HasId(store, id)
    ensures r.Some? ==> r.value < |store| && store[r.value].id == id
    ensures r.Some? ==> forall j :: 0 <= j < r.value ==> store[j].id != id
  {
    FindIndex(store, IdIs(id))
  }

  function IdIs(id: string): Asset -> bool {
    (a: Asset) => a.id == id
  }

  /** `updateAsset(id, patch)`: the first asset with the id is overlaid and
      restamped; an unknown id is 'Asset not found'. */
  function UpdateAsset(store: seq<Asset>, id: string, patch: AssetPatch, now: string): (r: Result<Stored>)
    ensures r.Err? <==> !HasId(store, id)
    ensures r.Err? ==> r.error == "Asset not found"
    ensures r.Ok? ==> |r.value.store| == |store|
    ensures r.Ok? ==>
      exists i :: (0 <= i < |store| && store[i].id == id
        && (forall j :: 0 <= j < i ==> store[j].id != id)
        && r.value.asset == Overlay(store[i], patch).(lastUpdated := now)
        && r.value.store == store[i := r.value.asset])
  {
    UpdateAssetAt(store, IndexOfId(store, id), patch, now)
  }

  /** The patch `...undefined` spreads: it supplies no field. */
  const NoPatch: AssetPatch := AssetPatch(None, None, None, None, None, None, None, None, None, None, None, None)

  /** The JavaScript value a caller passes as `updateAsset`'s `id`: the string
      the signature declares, or a whole asset object, as
      components/AssetList.tsx:119 passes. */
  datatype IdArgument = IdText(text: string) | AssetObject(asset: Asset)

  /** `a.id === id`: a string is never strictly equal to an object. */
  function IdMatches(arg: IdArgument): Asset -> bool {
    (a: Asset) => arg.IdText? && a.id == arg.text
  }

  /** A string argument is looked up exactly as the id it holds. */
  lemma IdTextLookup(store: seq<Asset>, text: string)
    ensures FindIndex(store, IdMatches(IdText(text))) == IndexOfId(store, text)
  {
  }

  /** `updateAsset(id, asset)` for whatever value `id` holds: the store is
      searched with `===`. A string behaves as UpdateAsset; an object matches
      no asset, so the call is 'Asset not found'. */
  function UpdateAssetWith(store: seq<Asset>, arg: IdArgument, patch: AssetPatch, now: string): (r: Result<Stored>)
    ensures arg.IdText? ==> r == UpdateAsset(store, arg.text, patch, now)
    ensures arg.AssetObject? ==> r == Err("Asset not found")
  {
    if arg.IdText? then IdTextLookup(store, arg.text); UpdateAssetAt(store, FindIndex(store, IdMatches(arg)), patch, now)
    else UpdateAssetAt(store, FindIndex(store, IdMatches(arg)), patch, now)
  }

  /** The overlay and restamp at a found index, or 'Asset not found'. */
  function UpdateAssetAt(store: seq<Asset>, found: Option<nat>, patch: AssetPatch, now: string): Result<Stored>
    requires found.Some? ==> found.value < |store|
  {
    match found
    case None => Err("Asset not found")
    case Some(i) =>
      var a := Overlay(store[i], patch).(lastUpdated := now);
      Ok(Stored(store[i := a], a))
  }

  /** `deleteAsset(id)`: the first asset with the id is spliced out. */
  function DeleteAsset(store: seq<Asset>, id: string): (r: Result<seq<Asset>>)
    ensures r.Err? <==> !HasId(store, id)
    ensures r.Err? ==> r.error == "Asset not found"
    ensures r.Ok? ==>
      exists i :: (0 <= i < |store| && store[i].id == id
        && (forall j :: 0 <= j < i ==> store[j].id != id)
        && r.value == store[..i] + store[i + 1..])
  {
    match IndexOfId(store, id)
    case None => Err("Asset not found")
    case Some(i) => Ok(RemoveAt(store, i))
  }

  /** Adding an asset under an id the store does not hold and deleting that id
      restores the store. */
  lemma AddThenDelete(store: seq<Asset>, draft: AssetDraft, id: string, now: string)
    requires !HasId(store, id)
    ensures DeleteAsset(AddAsset(store, draft, id, now).store, id) == Ok(store)
  {
    var s := AddAsset(store, draft, id, now).store;
    forall j | 0 <= j < |store|
      ensures !IdIs(id)(s[j])
    {
      assert s[j] == store[j];
    }
    FindIndexAt(s, IdIs(id), |store|);
    assert s[..|store|] + s[|store| + 1..] == store;
  }

  /** Writing back an asset's own fields under its own timestamp leaves the store
      as it was. */
  lemma UpdateWithOwnFields(store: seq<Asset>, i: nat)
    requires i < |store|
    requires forall j :: 0 <= j < i ==> store[j].id != store[i].id
    ensures UpdateAsset(store, store[i].id, PatchOf(store[i]), store[i].lastUpdated) == Ok(Stored(store, store[i]))
  {
    FindIndexAt(store, IdIs(store[i].id), i);
    assert Overlay(store[i], PatchOf(store[i])).(lastUpdated := store[i].lastUpdated) == store[i];
    assert store[i := store[i]] == store;
  }

  /** `fetchAssets` resolves with the store itself. */
  function FetchAssets(store: seq<Asset>): seq<Asset> {
    store
  }

  /** `fetchTransactions` resolves with no transactions. */
  function FetchTransactions(): seq<Transaction> {
    []
  }

  /** What was added is fetched back at the end of the list, and no transaction
      ever is. */
  lemma FetchAfterAdd(store: seq<Asset>, draft: AssetDraft, id: string, now: string)
    ensures var added := AddAsset(store, draft, id, now);
      FetchAssets(added.store) == store + [added.asset]
    ensures |FetchTransactions()| == 0
  {
  }
}

=== FILE: price_updater.dfy ===
/** The per-asset body of `updatePrices` in hooks/useAssetPriceUpdater.ts: which
    quote to ask for, which answers count as a price, and when the update
    callback fires. The quote services are an abstract oracle from a quote
    target to an answer; the timer that repeats the cycle is not modelled. */
module PriceUpdater {
  import opened Wrappers
  import opened Types

  /** What is asked of a quote service: an equity ticker (Yahoo Finance chart) or
      a coin id priced in US dollars (CoinGecko simple price). */
  datatype Target = EquityQuote(ticker: string) | CoinQuote(coinId: string)

  /** One answer of the oracle: the request or its JSON decoding threw, or it
      answered with the price field present (`Some`) or absent (`None`). */
  datatype Quote = LookupFailed | Answered(field: Option<real>)

  type Oracle = Target -> Quote

  /** `toLowerCase` on one character, restricted to ASCII letters. */
  function LowerChar(c: char): (r: char)
    ensures 'A' <= c <= 'Z' ==> r as int == c as int + 32
    ensures !('A' <= c <= 'Z') ==> r == c
    ensures !('A' <= r <= 'Z')
  {
    if 'A' <= c <= 'Z' then (c as int + 32) as char else c
  }

  function Lower(s: string): (r: string)
    ensures |r| == |s|
    ensures forall i :: 0 <= i < |s| ==> r[i] == LowerChar(s[i])
  {
    seq(|s|, i requires 0 <= i < |s| => LowerChar(s[i]))
  }

  /** Lower-casing twice is lower-casing once. */
  lemma LowerIdempotent(s: string)
    ensures Lower(Lower(s)) == Lower(s)
  {
  }

  /** `asset.symbol` is truthy: present and not empty. */
  predicate HasSymbol(a: Asset) {
    a.symbol.Some? && a.symbol.value != ""
  }

  /** The quote an asset's price is looked up with, if any. */
  function TargetOf(a: Asset): (r: Option<Target>)
    ensures r.Some? <==> HasSymbol(a) && (a.kind == "stock_tw" || a.kind == "stock_us" || a.kind == "crypto")
    ensures r.Some? && a.kind == "stock_tw" ==> r.value == EquityQuote(a.symbol.value + ".TW")
    ensures r.Some? && a.kind == "stock_us" ==> r.value == EquityQuote(a.symbol.value)
    ensures r.Some? && a.kind == "crypto" ==> r.value == CoinQuote(Lower(a.symbol.value))
  {
    if (a.kind == "stock_tw" || a.kind == "stock_us") && HasSymbol(a) then
      Some(EquityQuote(if a.kind == "stock_tw" then a.symbol.value + ".TW" else a.symbol.value))
    else if a.kind == "crypto" && HasSymbol(a) then
      Some(CoinQuote(Lower(a.symbol.value)))
    else None
  }

  /** Only the three priced kinds of the declared `AssetType` are ever looked up;
      cash, defi, wallet and any undeclared kind never are. */
  lemma {:induction false} LookedUpKinds(a: Asset)
    ensures TargetOf(a).Some? ==>
      ParseAssetType(a.kind) == Some(StockTw) || ParseAssetType(a.kind) == Some(StockUs)
      || ParseAssetType(a.kind) == Some(Crypto)
    ensures ParseAssetType(a.kind).None? ==> TargetOf(a).None?
  {
    if TargetOf(a).Some? {
      if a.kind == "stock_tw" {
        assert AssetTypeName(StockTw) == a.kind;
      } else if a.kind == "stock_us" {
        assert AssetTypeName(StockUs) == a.kind;
      } else {
        assert AssetTypeName(Crypto) == a.kind;
      }
    }
  }

  /** A Taiwan ticker is the symbol with the `.TW` suffix, which removing the last
      three characters undoes. */
  lemma TaiwanTickerRoundTrip(a: Asset)
    requires a.kind == "stock_tw" && HasSymbol(a)
    ensures TargetOf(a).value.ticker[..|TargetOf(a).value.ticker| - 3] == a.symbol.value
    ensures TargetOf(a).value.ticker[|TargetOf(a).value.ticker| - 3..] == ".TW"
  {
    var t := TargetOf(a).value.ticker;
    assert t == a.symbol.value + ".TW";
  }

  /** The truthy-price rule: a missing field, a failed lookup or a price of 0
      yields no price. */
  function Extract(q: Quote): (r: Option<real>)
    ensures r.Some? <==> q.Answered? && q.field.Some? && q.field.value != 0.0
    ensures r.Some? ==> r.value == q.field.value && r.value != 0.0
  {
    match q
    case Answered(Some(p)) => if p != 0.0 then Some(p) else None
    case _ => None
  }

  /** `onUpdate(asset.id, newPrice)`. */
  datatype Update = Update(assetId: string, price: real)

  /** What one asset contributes to a cycle: the lookup issued, if any, and the
      callback issued, if any. A callback that throws is caught, so whether it
      succeeds does not change what the cycle does next. */
  datatype StepLog = StepLog(lookup: Option<Target>, update: Option<Update>)

  /** One iteration of the `for` loop. */
  function Step(a: Asset, oracle: Oracle): (r: StepLog)
    ensures a.kind == "cash" ==> r == StepLog(None, None)
    ensures r.lookup == TargetOf(a)
    ensures r.update.Some? <==>
      TargetOf(a).Some? && Extract(oracle(TargetOf(a).value)).Some?
      && Extract(oracle(TargetOf(a).value)).value != a.currentPrice
    ensures r.update.Some? ==>
      r.update.value == Update(a.id, Extract(oracle(r.lookup.value)).value)
  {
    if a.kind == "cash" then StepLog(None, None)
    else
      match TargetOf(a)
      case None => StepLog(None, None)
      case Some(t) =>
        var price := Extract(oracle(t));
        StepLog(Some(t), if price.Some? && price.value != a.currentPrice then Some(Update(a.id, price.value)) else None)
  }

  /** One run of `updatePrices`: one log entry per asset, in list order. */
  function Cycle(assets: seq<Asset>, oracle: Oracle): (r: seq<StepLog>)
    ensures |r| == |assets|
    ensures forall i :: 0 <= i < |assets| ==> r[i] == Step(assets[i], oracle)
    decreases |assets|
  {
    if assets == [] then []
    else Cycle(assets[..|assets| - 1], oracle) + [Step(assets[|assets| - 1], oracle)]
  }

  /** The callbacks of a cycle in the order they are issued. */
  function Callbacks(log: seq<StepLog>): (r: seq<Update>)
    ensures |r| <= |log|
    decreases |log|
  {
    if log == [] then []
    else
      var last := log[|log| - 1];
      Callbacks(log[..|log| - 1]) + (if last.update.Some? then [last.update.value] else [])
  }

  lemma {:induction false} CallbacksAppend(a: seq<StepLog>, b: seq<StepLog>)
    ensures Callbacks(a + b) == Callbacks(a) + Callbacks(b)
    decreases |b|
  {
    if b == [] {
      assert a + b == a;
    } else {
      var init := b[..|b| - 1];
      assert (a + b)[..|a + b| - 1] == a + init;
      CallbacksAppend(a, init);
    }
  }

  /** Running the cycle over two lists back to back is running it over their
      concatenation. */
  lemma {:induction false} CycleAppend(xs: seq<Asset>, ys: seq<Asset>, oracle: Oracle)
    ensures Cycle(xs + ys, oracle) == Cycle(xs, oracle) + Cycle(ys, oracle)
  {
    var l := Cycle(xs + ys, oracle);
    var m := Cycle(xs, oracle) + Cycle(ys, oracle);
    assert |l| == |m|;
    forall i | 0 <= i < |l|
      ensures l[i] == m[i]
    {
      if i < |xs| {
        assert (xs + ys)[i] == xs[i];
      } else {
        assert (xs + ys)[i] == ys[i - |xs|];
      }
    }
  }

  /** A cycle issues at most one callback per asset, each for an asset of the list
      and only when the price differs from the stored one. */
  lemma {:induction false} CallbacksPerAsset(assets: seq<Asset>, oracle: Oracle)
    ensures |Callbacks(Cycle(assets, oracle))| <= |assets|
    ensures forall u :: u in Callbacks(Cycle(assets, oracle)) ==>
      exists i :: 0 <= i < |assets| && assets[i].id == u.assetId && assets[i].currentPrice != u.price
    decreases |assets|
  {
    if assets != [] {
      var init := assets[..|assets| - 1];
      var last := assets[|assets| - 1];
      CyclePrefix(assets, oracle);
      CallbacksPerAsset(init, oracle);
      var log := Cycle(assets, oracle);
      assert log[..|log| - 1] == Cycle(init, oracle);
      forall u | u in Callbacks(log)
        ensures exists i :: 0 <= i < |assets| && assets[i].id == u.assetId && assets[i].currentPrice != u.price
      {
        if u in Callbacks(Cycle(init, oracle)) {
          var i :| 0 <= i < |init| && init[i].id == u.assetId && init[i].currentPrice != u.price;
          assert assets[i] == init[i];
        } else {
          assert u == Step(last, oracle).update.value;
          assert assets[|assets| - 1] == last;
        }
      }
    }
  }

  lemma CyclePrefix(assets: seq<Asset>, oracle: Oracle)
    requires assets != []
    ensures Cycle(assets, oracle)[..|assets| - 1] == Cycle(assets[..|assets| - 1], oracle)
  {
  }

  /** Cash assets never cause a lookup or a callback. */
  lemma CashNeverLooked(assets: seq<Asset>, oracle: Oracle, i: nat)
    requires i < |assets| && assets[i].kind == "cash"
    ensures Cycle(assets, oracle)[i] == StepLog(None, None)
  {
  }

  /** A failed lookup only silences its own asset: with oracles that differ only
      on the target `t`, every asset not looked up with `t` logs the same step,
      and an asset whose lookup failed issues no callback. */
  lemma IsolatedFailure(assets: seq<Asset>, o1: Oracle, o2: Oracle, t: Target)
    requires forall u :: u != t ==> o1(u) == o2(u)
    requires o1(t) == LookupFailed
    ensures forall i :: 0 <= i < |assets| && TargetOf(assets[i]) != Some(t) ==>
      Cycle(assets, o1)[i] == Cycle(assets, o2)[i]
    ensures forall i :: 0 <= i < |assets| && TargetOf(assets[i]) == Some(t) ==>
      Cycle(assets, o1)[i].update.None?
  {
  }
}

=== FILE: responses.dfy ===
/** The JSON envelope `{success, data}` / `{success, error}` produced by
    `handleResponse` / `handleError` in gas/Code.js and unwrapped by every
    production-branch function of lib/api.ts. */
module Responses {
  import opened Wrappers

  /** The parsed envelope; a field absent from the JSON is `None`. */
  datatype Envelope<T> = Envelope(success: bool, data: Option<T>, error: Option<string>)

  /** `handleResponse(data)`. */
  function Success<T>(x: T): Envelope<T> {
    Envelope(true, Some(x), None)
  }

  /** `handleError(error)`: only the message travels. */
  function Failure<T>(message: string): Envelope<T> {
    Envelope(false, None, Some(message))
  }

  /** `if (!data.success) throw new Error(data.error); return data.data;`
      `new Error(undefined)` has the empty message. */
  function Unwrap<T>(env: Envelope<T>): (r: Result<Option<T>>)
    ensures r.Ok? <==> env.success
    ensures r.Ok? ==> r.value == env.data
    ensures r.Err? && env.error.Some? ==> r.error == env.error.value
  {
    if !env.success then Err(env.error.GetOr("")) else Ok(env.data)
  }

  /** What the script sends is what the client gets back: the handler's result on
      success, the thrown message on failure. */
  lemma UnwrapRoundTrip<T>(x: T, message: string)
    ensures Unwrap(Success(x)) == Ok(Some(x))
    ensures Unwrap(Failure<T>(message)) == Err(message)
  {
  }
}

=== FILE: script.dfy ===
/** gas/Code.js, the transaction half and the request dispatch: the transaction
    validator, the posting arithmetic, `addTransaction`, `doGet` and `doPost`.

    The Assets and Transactions sheets together form the store (`Db`). Apps Script
    has no rollback, so a write made before a later `throw` stays in the store. */
module Script {
  import opened Wrappers
  import opened Seqs
  import opened Sheet
  import opened Responses

  datatype Db = Db(assets: Sheet, transactions: Sheet)

  const TransactionFields: seq<string> := ["asset_id", "type", "amount", "price", "date"]

  /** `validateTransactionData`: asset_id, type, amount, price and date must be
      truthy; the first falsy one is reported. */
  function ValidateTransaction(data: Record): (r: Outcome)
    ensures r.Pass? <==> (Truthy(Get(data, "asset_id")) && Truthy(Get(data, "type"))
                          && Truthy(Get(data, "amount")) && Truthy(Get(data, "price"))
                          && Truthy(Get(data, "date")))
    ensures !Truthy(Get(data, "asset_id")) ==> r == Fail(Required("asset_id"))
    ensures (Truthy(Get(data, "asset_id")) && !Truthy(Get(data, "type"))) ==> r == Fail(Required("type"))
    ensures (Truthy(Get(data, "asset_id")) && Truthy(Get(data, "type")) && !Truthy(Get(data, "amount")))
              ==> r == Fail(Required("amount"))
    ensures (Truthy(Get(data, "asset_id")) && Truthy(Get(data, "type")) && Truthy(Get(data, "amount"))
              && !Truthy(Get(data, "price"))) ==> r == Fail(Required("price"))
    ensures (Truthy(Get(data, "asset_id")) && Truthy(Get(data, "type")) && Truthy(Get(data, "amount"))
              && Truthy(Get(data, "price")) && !Truthy(Get(data, "date"))) ==> r == Fail(Required("date"))
  {
    ValidateCons(data, "asset_id", ["type", "amount", "price", "date"]);
    ValidateCons(data, "type", ["amount", "price", "date"]);
    ValidateCons(data, "amount", ["price", "date"]);
    ValidateCons(data, "price", ["date"]);
    ValidateCons(data, "date", []);
    assert TransactionFields == ["asset_id"] + ["type", "amount", "price", "date"];
    assert ["type", "amount", "price", "date"] == ["type"] + ["amount", "price", "date"];
    assert ["amount", "price", "date"] == ["amount"] + ["price", "date"];
    assert ["price", "date"] == ["price"] + ["date"];
    assert ["date"] == ["date"] + [];
    Validate(data, TransactionFields)
  }

  // ---------------------------------------------------------------------------
  // Posting arithmetic (updateAssetAfterTransaction)

  datatype Holding = Holding(amount: real, cost: real)

  /** `transaction.type === 'buy'` adds the quantity and its price to the holding;
      every other type, whatever its spelling, subtracts both. */
  function Post(h: Holding, kind: Value, quantity: real, price: real): (r: Holding)
    ensures r.cost - h.cost == (r.amount - h.amount) * price
    ensures kind == Str("buy") ==> r.amount == h.amount + quantity
    ensures kind != Str("buy") ==> r.amount == h.amount - quantity
  {
    if kind == Str("buy") then Holding(h.amount + quantity, h.cost + quantity * price)
    else Holding(h.amount - quantity, h.cost - quantity * price)
  }

  /** A buy followed by any non-buy posting of the same quantity and price restores
      the holding. */
  lemma BuyThenSellRestores(h: Holding, kind: Value, quantity: real, price: real)
    requires kind != Str("buy")
    ensures Post(Post(h, Str("buy"), quantity, price), kind, quantity, price) == h
  {
  }

  /** A cell read as a number. Only numeric cells take part in the arithmetic here;
      the posting's outcome does not depend on the numbers (see `UpdateAssetAfterTransaction`). */
  function NumberOf(v: Value): real {
    match v
    case Num(n) => n
    case _ => 0.0
  }

  /** `getAssetById`: the first asset record whose `id` is strictly equal to `id`. */
  function FindAsset(assets: Sheet, id: Value): (r: Option<Record>)
    ensures r.Some? ==> exists i :: 0 <= i < |assets.rows| && r.value == Records(assets)[i] && Get(r.value, "id") == id
    ensures r.None? ==> forall i :: 0 <= i < |assets.rows| ==> Get(Records(assets)[i], "id") != id
  {
    var records := Records(assets);
    match FindIndex(records, (a: Record) => Get(a, "id") == id)
    case None => None
    case Some(i) => Some(records[i])
  }

  /** The holding after posting `tx` against the asset record `asset`. */
  function PostedHolding(asset: Record, tx: Record): Holding {
    Post(Holding(NumberOf(Get(asset, "amount")), NumberOf(Get(asset, "cost"))),
         Get(tx, "type"), NumberOf(Get(tx, "amount")), NumberOf(Get(tx, "price")))
  }

  /** `updateAssetAfterTransaction` as written: it passes `updateAsset` a record of
      only id, amount and cost, which `validateAssetData` always rejects, so the
      posting never reaches the sheet. */
  function UpdateAssetAfterTransaction(assets: Sheet, tx: Record): (r: Result<Sheet>)
    ensures r.Err?
    ensures Truthy(Get(tx, "asset_id")) ==> r.error == "Asset not found" || r.error == Required("name")
  {
    match FindAsset(assets, Get(tx, "asset_id"))
    case None => Err("Asset not found")
    case Some(asset) =>
      var h := PostedHolding(asset, tx);
      var partial := PostingRecord(Get(tx, "asset_id"), h);
      PostingRecordRejected(Get(tx, "asset_id"), h);
      UpdateAsset(assets, partial)
  }

  /** `{ id, amount, cost }`, the record `updateAssetAfterTransaction` sends. */
  function PostingRecord(id: Value, h: Holding): Record {
    map["id" := id, "amount" := Num(h.amount), "cost" := Num(h.cost)]
  }

  /** The posting record has no name, so asset validation rejects it. */
  lemma PostingRecordRejected(id: Value, h: Holding)
    ensures ValidateAsset(PostingRecord(id, h)) == Fail(Required("name"))
    ensures Get(PostingRecord(id, h), "id") == id
  {
    var partial := PostingRecord(id, h);
    assert "name" != "cost" by { assert "name"[0] != "cost"[0]; }
    assert "name" !in partial;
  }

  /** The result of a write: the store afterwards and the handler's outcome. */
  datatype Posted = Posted(db: Db, outcome: Result<string>)

  /** `addTransaction` as written: the transaction row is appended first, then the
      asset update throws, so the request fails with the Transactions sheet one row
      longer and the Assets sheet unchanged. */
  function AddTransaction(db: Db, data: Record): (r: Posted)
    ensures r.outcome.Err?
    ensures ValidateTransaction(data).Fail? ==> r == Posted(db, Err(ValidateTransaction(data).error))
    ensures ValidateTransaction(data).Pass? ==>
      r.db.assets == db.assets
      && |r.db.transactions.rows| == |db.transactions.rows| + 1
      && r.db.transactions.rows[..|db.transactions.rows|] == db.transactions.rows
      && r.db.transactions.rows[|db.transactions.rows|] == NewRow(db.transactions.header, data)
    ensures ValidateTransaction(data).Pass? ==>
      r.outcome.error == "Asset not found" || r.outcome.error == Required("name")
  {
    match ValidateTransaction(data)
    case Fail(e) => Posted(db, Err(e))
    case Pass =>
      var txs := Append(db.transactions, data);
      assert txs.rows[..|db.transactions.rows|] == db.transactions.rows;
      match UpdateAssetAfterTransaction(db.assets, data)
      case Err(e) => Posted(Db(db.assets, txs), Err(e))
      case Ok(a) => Posted(Db(a, txs), Ok("Transaction added successfully"))
  }

  // ---------------------------------------------------------------------------
  // The corrected posting: merge the new amount and cost into the whole asset record

  /** `updateAssetAfterTransaction` as evidently intended: the posted amount and
      cost are merged into the asset's whole record, which then passes validation
      whenever the asset itself does (FixedPostingUpdatesAsset). */
  function UpdateAssetAfterTransactionFixed(assets: Sheet, tx: Record): (r: Result<Sheet>)
    ensures FindAsset(assets, Get(tx, "asset_id")).None? ==> r == Err("Asset not found")
    ensures r.Ok? ==> FindAsset(assets, Get(tx, "asset_id")).Some?
    ensures r.Ok? ==> r.value.header == assets.header && |r.value.rows| == |assets.rows|
  {
    match FindAsset(assets, Get(tx, "asset_id"))
    case None => Err("Asset not found")
    case Some(asset) =>
      var h := PostedHolding(asset, tx);
      UpdateAsset(assets, WithHolding(asset, h))
  }

  /** The asset record with its amount and cost replaced by the posted holding. */
  function WithHolding(asset: Record, h: Holding): Record {
    asset["amount" := Num(h.amount)]["cost" := Num(h.cost)]
  }

  /** Replacing amount and cost keeps every other field, so a named, typed asset
      with a non-zero posted holding passes asset validation. */
  lemma WithHoldingValid(asset: Record, h: Holding)
    requires Truthy(Get(asset, "name")) && Truthy(Get(asset, "type"))
    requires h.amount != 0.0 && h.cost != 0.0
    ensures ValidateAsset(WithHolding(asset, h)).Pass?
    ensures Get(WithHolding(asset, h), "id") == Get(asset, "id")
    ensures Get(WithHolding(asset, h), "amount") == Num(h.amount)
    ensures Get(WithHolding(asset, h), "cost") == Num(h.cost)
  {
    assert "name" != "cost" by { assert "name"[0] != "cost"[0]; }
    assert "type" != "cost" by { assert "type"[0] != "cost"[0]; }
  }

  lemma FirstMatchUnique(sheet: Sheet, i: int, j: int, id: Value)
    requires FirstMatch(sheet, i, id) && FirstMatch(sheet, j, id)
    ensures i == j
  {
  }

  /** The `id` of each record read back is the row's id cell. */
  lemma RecordId(assets: Sheet, j: nat)
    requires NoDuplicates(assets.header) && "id" in assets.header
    requires j < |assets.rows|
    ensures Get(Records(assets)[j], "id") == Cell(assets.rows[j], IdColumn(assets))
  {
    var col := IdColumn(assets);
    assert 0 <= col < |assets.header| && assets.header[col] == "id";
    RecordField(assets.header, assets.rows[j], col);
  }

  /** `getAssetById` finds the record of the first row whose id cell matches. */
  lemma FindAssetAt(assets: Sheet, id: Value, i: nat)
    requires NoDuplicates(assets.header) && "id" in assets.header
    requires FirstMatch(assets, i, id)
    ensures FindAsset(assets, id) == Some(Records(assets)[i])
  {
    var records := Records(assets);
    var p := (a: Record) => Get(a, "id") == id;
    RecordId(assets, i);
    forall j | 0 <= j < i
      ensures !p(records[j])
    {
      RecordId(assets, j);
      assert !RowHasId(assets, assets.rows[j], id);
    }
    FindIndexAt(records, p, i);
  }

  /** A valid update whose id first matches row `i` rewrites row `i` only. */
  lemma UpdateAt(assets: Sheet, data: Record, i: nat)
    requires FirstMatch(assets, i, Get(data, "id")) && Truthy(Get(data, "id"))
    requires ValidateAsset(data).Pass?
    ensures UpdateAsset(assets, data).Ok?
    ensures |UpdateAsset(assets, data).value.rows| == |assets.rows|
    ensures UpdateAsset(assets, data).value.rows[i] == MergeRow(assets.header, data, assets.rows[i])
    ensures forall j :: 0 <= j < |assets.rows| && j != i ==> UpdateAsset(assets, data).value.rows[j] == assets.rows[j]
  {
    var r := UpdateAsset(assets, data);
    var i' :| FirstMatch(assets, i', Get(data, "id"))
      && r.value.rows[i'] == MergeRow(assets.header, data, assets.rows[i'])
      && forall j :: 0 <= j < |assets.rows| && j != i' ==> r.value.rows[j] == assets.rows[j];
    FirstMatchUnique(assets, i, i', Get(data, "id"));
  }

  /** A truthy request field overwrites its column in the merged row. */
  lemma MergeTakesTruthy(header: seq<string>, data: Record, previous: Row, h: string)
    requires NoDuplicates(header) && h in header && Truthy(Get(data, h))
    ensures Cell(MergeRow(header, data, previous), IndexOf(header, h)) == Get(data, h)
  {
  }

  /** The corrected posting succeeds against an existing asset that has a name and
      a type when the new amount and cost are non-zero: the asset's amount and cost
      cells then hold the posted values and no other row changes. */
  lemma FixedPostingUpdatesAsset(assets: Sheet, tx: Record, i: nat)
    requires NoDuplicates(assets.header)
    requires "id" in assets.header && "amount" in assets.header && "cost" in assets.header
    requires FirstMatch(assets, i, Get(tx, "asset_id")) && Truthy(Get(tx, "asset_id"))
    requires Truthy(Get(RowToRecord(assets.header, assets.rows[i]), "name"))
    requires Truthy(Get(RowToRecord(assets.header, assets.rows[i]), "type"))
    requires PostedHolding(RowToRecord(assets.header, assets.rows[i]), tx).amount != 0.0
    requires PostedHolding(RowToRecord(assets.header, assets.rows[i]), tx).cost != 0.0
    ensures UpdateAssetAfterTransactionFixed(assets, tx).Ok?
    ensures |UpdateAssetAfterTransactionFixed(assets, tx).value.rows| == |assets.rows|
    ensures Cell(UpdateAssetAfterTransactionFixed(assets, tx).value.rows[i], IndexOf(assets.header, "amount"))
              == Num(PostedHolding(RowToRecord(assets.header, assets.rows[i]), tx).amount)
    ensures Cell(UpdateAssetAfterTransactionFixed(assets, tx).value.rows[i], IndexOf(assets.header, "cost"))
              == Num(PostedHolding(RowToRecord(assets.header, assets.rows[i]), tx).cost)
    ensures forall j :: 0 <= j < |assets.rows| && j != i ==>
              UpdateAssetAfterTransactionFixed(assets, tx).value.rows[j] == assets.rows[j]
  {
    var id := Get(tx, "asset_id");
    var rec := RowToRecord(assets.header, assets.rows[i]);
    FindAssetAt(assets, id, i);
    var col := IdColumn(assets);
    RecordField(assets.header, assets.rows[i], col);
    var h := PostedHolding(rec, tx);
    var data := WithHolding(rec, h);
    WithHoldingValid(rec, h);
    UpdateAt(assets, data, i);
    MergeTakesTruthy(assets.header, data, assets.rows[i], "amount");
    MergeTakesTruthy(assets.header, data, assets.rows[i], "cost");
  }

  /** `addTransaction` with the corrected posting. */
  function AddTransactionFixed(db: Db, data: Record): (r: Posted)
    ensures ValidateTransaction(data).Fail? ==> r == Posted(db, Err(ValidateTransaction(data).error))
    ensures ValidateTransaction(data).Pass? ==> r.db.transactions == Append(db.transactions, data)
    ensures r.outcome.Ok? <==> ValidateTransaction(data).Pass? && UpdateAssetAfterTransactionFixed(db.assets, data).Ok?
    ensures r.outcome.Ok? ==> r.db.assets == UpdateAssetAfterTransactionFixed(db.assets, data).value
    ensures r.outcome.Err? ==> r.db.assets == db.assets
  {
    match ValidateTransaction(data)
    case Fail(e) => Posted(db, Err(e))
    case Pass =>
      var txs := Append(db.transactions, data);
      match UpdateAssetAfterTransactionFixed(db.assets, data)
      case Err(e) => Posted(Db(db.assets, txs), Err(e))
      case Ok(a) => Posted(Db(a, txs), Ok("Transaction added successfully"))
  }

  /** With the corrected posting, a valid transaction against an existing asset
      that has a name and a type, and whose posted amount and cost are non-zero,
      is recorded and moves the asset's amount and cost cells to the posted
      values. */
  lemma FixedTransactionSucceeds(db: Db, data: Record, i: nat)
    requires ValidateTransaction(data).Pass?
    requires NoDuplicates(db.assets.header)
    requires "id" in db.assets.header && "amount" in db.assets.header && "cost" in db.assets.header
    requires FirstMatch(db.assets, i, Get(data, "asset_id"))
    requires Truthy(Get(RowToRecord(db.assets.header, db.assets.rows[i]), "name"))
    requires Truthy(Get(RowToRecord(db.assets.header, db.assets.rows[i]), "type"))
    requires PostedHolding(RowToRecord(db.assets.header, db.assets.rows[i]), data).amount != 0.0
    requires PostedHolding(RowToRecord(db.assets.header, db.assets.rows[i]), data).cost != 0.0
    ensures AddTransactionFixed(db, data).outcome == Ok("Transaction added successfully")
    ensures |AddTransactionFixed(db, data).db.transactions.rows| == |db.transactions.rows| + 1
    ensures Cell(AddTransactionFixed(db, data).db.assets.rows[i], IndexOf(db.assets.header, "amount"))
              == Num(PostedHolding(RowToRecord(db.assets.header, db.assets.rows[i]), data).amount)
    ensures Cell(AddTransactionFixed(db, data).db.assets.rows[i], IndexOf(db.assets.header, "cost"))
              == Num(PostedHolding(RowToRecord(db.assets.header, db.assets.rows[i]), data).cost)
  {
    FixedPostingUpdatesAsset(db.assets, data, i);
  }

  // ---------------------------------------------------------------------------
  // Dispatch (doGet, doPost, handleResponse, handleError)

  /** What a handler returns: the records read, or its success message. */
  datatype Payload = Rows(records: seq<Record>) | Message(text: string)

  /** `doGet`: a read; any other action throws 'Invalid action'. */
  function DoGet(action: string, db: Db): (r: Envelope<Payload>)
    ensures r.success <==> action == "getAssets" || action == "getTransactions"
    ensures !r.success ==> r == Failure("Invalid action")
    ensures action == "getAssets" ==> r.data == Some(Rows(Records(db.assets)))
    ensures action == "getTransactions" ==> r.data == Some(Rows(Records(db.transactions)))
  {
    if action == "getAssets" then Success(Rows(Records(db.assets)))
    else if action == "getTransactions" then Success(Rows(Records(db.transactions)))
    else Failure("Invalid action")
  }

  /** The query parameters of a request, `e.parameter`. */
  type Query = map<string, string>

  /** `doGet(e)`: the operation is read from the `action` parameter, and a
      request without one falls through to 'Invalid action'. */
  function HandleGet(query: Query, db: Db): (r: Envelope<Payload>)
    ensures r.success <==> "action" in query && query["action"] in {"getAssets", "getTransactions"}
    ensures "action" !in query ==> r == Failure("Invalid action")
  {
    if "action" in query then DoGet(query["action"], db) else Failure("Invalid action")
  }

  /** The store and the envelope after a `doPost`. */
  datatype Response = Response(db: Db, envelope: Envelope<Payload>)

  /** An asset-sheet write turned into a response. */
  function Respond(db: Db, r: Result<Sheet>, message: string): Response {
    match r
    case Ok(s) => Response(db.(assets := s), Success(Message(message)))
    case Err(e) => Response(db, Failure(e))
  }

  const PostActions: set<string> := {"addAsset", "updateAsset", "deleteAsset", "addTransaction"}

  /** `doPost`: a write, dispatched on the action; `data` is the parsed body. */
  function DoPost(action: string, data: Record, db: Db): (r: Response)
    ensures action !in PostActions ==> r == Response(db, Failure("Invalid action"))
    ensures r.envelope.success ==> action in PostActions && r.envelope.data.Some? && r.envelope.data.value.Message?
    ensures !r.envelope.success ==> r.envelope.error.Some? && r.envelope.data.None?
    ensures action == "addAsset" ==> (r.envelope.success <==> ValidateAsset(data).Pass?)
    ensures action == "addTransaction" ==> !r.envelope.success
    ensures action != "addTransaction" && !r.envelope.success ==> r.db == db
    ensures action != "addTransaction" ==> r.db.transactions == db.transactions
  {
    if action == "addAsset" then Respond(db, AddAsset(db.assets, data), "Asset added successfully")
    else if action == "updateAsset" then Respond(db, UpdateAsset(db.assets, data), "Asset updated successfully")
    else if action == "deleteAsset" then Respond(db, DeleteAsset(db.assets, Get(data, "id")), "Asset deleted successfully")
    else if action == "addTransaction" then
      var p := AddTransaction(db, data);
      match p.outcome
      case Ok(m) => Response(p.db, Success(Message(m)))
      case Err(e) => Response(p.db, Failure(e))
    else Response(db, Failure("Invalid action"))
  }

  /** `doPost(e)`, dispatching on the `action` parameter as `doGet` does.
      `body` is the outcome of `JSON.parse(e.postData.contents)`, which runs
      before the dispatch: a request without a JSON body fails with the
      parser's message whatever its action, and nothing is written. */
  function HandlePost(query: Query, body: Result<Record>, db: Db): (r: Response)
    ensures body.Err? ==> r == Response(db, Failure(body.error))
    ensures body.Ok? && "action" !in query ==> r == Response(db, Failure("Invalid action"))
    ensures r.envelope.success ==> body.Ok? && "action" in query && query["action"] in PostActions
  {
    match body
    case Err(e) => Response(db, Failure(e))
    case Ok(data) =>
      if "action" in query then DoPost(query["action"], data, db) else Response(db, Failure("Invalid action"))
  }
}

=== FILE: seqs.dfy ===
/** Sequence operations the JavaScript code uses through `Array` methods.
    The folds recurse on the prefix, so elements are consumed left to right
    exactly as `reduce`, `forEach` and `push` consume them. */
module Seqs {
  import opened Wrappers

  /** The positions of the elements satisfying `p`, in increasing order. */
  function Positions<T>(s: seq<T>, p: T -> bool): (f: seq<nat>)
    ensures forall k :: 0 <= k < |f| ==> f[k] < |s| && p(s[f[k]])
    ensures forall k, l :: 0 <= k < l < |f| ==> f[k] < f[l]
    ensures forall i :: 0 <= i < |s| && p(s[i]) ==> i in f
    decreases |s|
  {
    if s == [] then []
    else
      var init := s[..|s| - 1];
      var f := Positions(init, p);
      assert forall i :: 0 <= i < |s| - 1 ==> s[i] == init[i];
      f + (if p(s[|s| - 1]) then [|s| - 1] else [])
  }

  /** `r` lists the elements of `s` at the positions that satisfy `p`, in order:
      nothing reordered, nothing repeated, nothing left out. */
  ghost predicate Selects<T>(r: seq<T>, s: seq<T>, p: T -> bool) {
    |r| == |Positions(s, p)| && forall k :: 0 <= k < |r| ==> r[k] == s[Positions(s, p)[k]]
  }

  /** `s.filter(p)`: the elements satisfying `p`, in their original order and
      each as often as in `s` (FilterSelects, FilterMultiset). */
  function Filter<T>(s: seq<T>, p: T -> bool): (r: seq<T>)
    ensures |r| <= |s|
    ensures forall x :: x in r ==> x in s && p(x)
    ensures forall i :: 0 <= i < |r| ==> p(r[i])
    ensures forall i :: 0 <= i < |s| && p(s[i]) ==> s[i] in r
    decreases |s|
  {
    if s == [] then []
    else
      var init := s[..|s| - 1];
      assert forall i :: 0 <= i < |s| - 1 ==> s[i] == init[i];
      Filter(init, p) + (if p(s[|s| - 1]) then [s[|s| - 1]] else [])
  }

  /** The filter keeps exactly the selected positions, in order. */
  lemma {:induction false} FilterSelects<T>(s: seq<T>, p: T -> bool)
    ensures Selects(Filter(s, p), s, p)
    decreases |s|
  {
    if s != [] {
      var init := s[..|s| - 1];
      FilterSelects(init, p);
      var r0 := Filter(init, p);
      var f0 := Positions(init, p);
      var r := Filter(s, p);
      var f := Positions(s, p);
      assert |r| == |f|;
      forall k | 0 <= k < |r|
        ensures r[k] == s[f[k]]
      {
        if k < |r0| {
          assert r[k] == r0[k] && f[k] == f0[k];
          assert init[f0[k]] == s[f0[k]];
        }
      }
    }
  }

  /** The filter keeps each passing element as often as `s` holds it and drops
      every other. */
  lemma {:induction false} FilterMultiset<T>(s: seq<T>, p: T -> bool)
    ensures forall x {:trigger multiset(Filter(s, p))[x]} :: x in s ==> multiset(Filter(s, p))[x] == if p(x) then multiset(s)[x] else 0
    decreases |s|
  {
    if s != [] {
      var init := s[..|s| - 1];
      var last := s[|s| - 1];
      FilterMultiset(init, p);
      assert s == init + [last];
      var r0 := Filter(init, p);
      var r := Filter(s, p);
      assert multiset(s) == multiset(init) + multiset{last};
      assert multiset(r) == multiset(r0) + (if p(last) then multiset{last} else multiset{});
      forall x | x in s
        ensures multiset(r)[x] == if p(x) then multiset(s)[x] else 0
      {
        if x !in init {
          assert multiset(init)[x] == 0;
          assert multiset(r0)[x] == 0;
        }
      }
    }
  }

  /** Filtering distributes over concatenation, so relative order is kept. */
  lemma {:induction false} FilterAppend<T>(a: seq<T>, b: seq<T>, p: T -> bool)
    ensures Filter(a + b, p) == Filter(a, p) + Filter(b, p)
    decreases |b|
  {
    if b == [] {
      assert a + b == a;
    } else {
      var b' := b[..|b| - 1];
      assert (a + b)[..|a + b| - 1] == a + b';
      FilterAppend(a, b', p);
    }
  }

  /** A filter that every element passes is the identity. */
  lemma {:induction false} FilterKeepsAll<T>(s: seq<T>, p: T -> bool)
    requires forall i :: 0 <= i < |s| ==> p(s[i])
    ensures Filter(s, p) == s
    decreases |s|
  {
    if s != [] {
      FilterKeepsAll(s[..|s| - 1], p);
      assert s[..|s| - 1] + [s[|s| - 1]] == s;
    }
  }

  /** A filter that no element passes is empty. */
  lemma {:induction false} FilterDropsAll<T>(s: seq<T>, p: T -> bool)
    requires forall i :: 0 <= i < |s| ==> !p(s[i])
    ensures Filter(s, p) == []
    decreases |s|
  {
    if s != [] {
      FilterDropsAll(s[..|s| - 1], p);
    }
  }

  /** `s.reduce((sum, x) => sum + f(x), 0)`. */
  function SumBy<T>(s: seq<T>, f: T -> real): real
    decreases |s|
  {
    if s == [] then 0.0 else SumBy(s[..|s| - 1], f) + f(s[|s| - 1])
  }

  lemma {:induction false} SumByAppend<T>(a: seq<T>, b: seq<T>, f: T -> real)
    ensures SumBy(a + b, f) == SumBy(a, f) + SumBy(b, f)
    decreases |b|
  {
    if b == [] {
      assert a + b == a;
    } else {
      var b' := b[..|b| - 1];
      assert (a + b)[..|a + b| - 1] == a + b';
      SumByAppend(a, b', f);
    }
  }

  /** Summing a pointwise sum is summing each part. */
  lemma {:induction false} SumByLinear<T>(s: seq<T>, f: T -> real, g: T -> real, h: T -> real)
    requires forall i :: 0 <= i < |s| ==> f(s[i]) == g(s[i]) + h(s[i])
    ensures SumBy(s, f) == SumBy(s, g) + SumBy(s, h)
    decreases |s|
  {
    if s != [] {
      SumByLinear(s[..|s| - 1], f, g, h);
    }
  }

  /** A constant factor comes out of the sum. */
  lemma {:induction false} SumByScale<T>(s: seq<T>, f: T -> real, g: T -> real, c: real)
    requires forall i :: 0 <= i < |s| ==> f(s[i]) == c * g(s[i])
    ensures SumBy(s, f) == c * SumBy(s, g)
    decreases |s|
  {
    if s != [] {
      SumByScale(s[..|s| - 1], f, g, c);
    }
  }

  /** Replacing one element changes the sum by the difference. */
  lemma {:induction false} SumByUpdate<T>(s: seq<T>, i: nat, x: T, f: T -> real)
    requires i < |s|
    ensures SumBy(s[i := x], f) == SumBy(s, f) - f(s[i]) + f(x)
    decreases |s|
  {
    var n := |s| - 1;
    if i < n {
      SumByUpdate(s[..n], i, x, f);
      assert s[i := x][..n] == s[..n][i := x];
    } else {
      assert s[i := x][..n] == s[..n];
    }
  }

  /** The sum over a filter grows by the last element exactly when it passes. */
  lemma SumByFilterStep<T>(s: seq<T>, p: T -> bool, f: T -> real)
    requires s != []
    ensures SumBy(Filter(s, p), f)
      == SumBy(Filter(s[..|s| - 1], p), f) + (if p(s[|s| - 1]) then f(s[|s| - 1]) else 0.0)
  {
    var init := Filter(s[..|s| - 1], p);
    if p(s[|s| - 1]) {
      assert (init + [s[|s| - 1]])[..|init|] == init;
    } else {
      assert init + [] == init;
    }
  }

  /** Index of the first element satisfying `p` (`findIndex`, with `None` for -1). */
  function FindIndex<T>(s: seq<T>, p: T -> bool): (r: Option<nat>)
    ensures r.Some? ==> r.value < |s| && p(s[r.value])
    ensures r.Some? ==> forall j :: 0 <= j < r.value ==> !p(s[j])
    ensures r.None? ==> forall j :: 0 <= j < |s| ==> !p(s[j])
    decreases |s|
  {
    if s == [] then None
    else if p(s[0]) then Some(0)
    else match FindIndex(s[1..], p)
      case None => None
      case Some(i) => Some(i + 1)
  }

  /** The search stops at the first satisfying position and at no other. */
  lemma {:induction false} FindIndexAt<T>(s: seq<T>, p: T -> bool, i: nat)
    requires i < |s| && p(s[i])
    requires forall j :: 0 <= j < i ==> !p(s[j])
    ensures FindIndex(s, p) == Some(i)
    decreases i
  {
    if i > 0 {
      assert !p(s[0]);
      forall j | 0 <= j < i - 1
        ensures !p(s[1..][j])
      {
        assert s[1..][j] == s[j + 1];
      }
      FindIndexAt(s[1..], p, i - 1);
    }
  }

  /** `s.indexOf(x)`: the first position of `x`, or -1. */
  function IndexOf<T(==)>(s: seq<T>, x: T): (r: int)
    ensures -1 <= r < |s|
    ensures r >= 0 ==> s[r] == x && forall j :: 0 <= j < r ==> s[j] != x
    ensures r == -1 <==> x !in s
  {
    match FindIndex(s, (y: T) => y == x)
    case Some(i) => i
    case None => -1
  }

  /** `s.splice(i, 1)`. */
  function RemoveAt<T>(s: seq<T>, i: nat): (r: seq<T>)
    requires i < |s|
    ensures |r| == |s| - 1
    ensures r[..i] == s[..i] && r[i..] == s[i + 1..]
  {
    s[..i] + s[i + 1..]
  }

  predicate NoDuplicates<T(==)>(s: seq<T>) {
    forall i, j :: 0 <= i < j < |s| ==> s[i] != s[j]
  }

  /** The distinct elements of `s` in order of first appearance. */
  function Dedup<T(==)>(s: seq<T>): (r: seq<T>)
    ensures NoDuplicates(r)
    ensures forall i :: 0 <= i < |r| ==> r[i] in s
    ensures forall i :: 0 <= i < |s| ==> s[i] in r
    decreases |s|
  {
    if s == [] then []
    else
      var init := s[..|s| - 1];
      var rest := Dedup(init);
      assert forall i :: 0 <= i < |s| - 1 ==> s[i] == init[i];
      if s[|s| - 1] in rest then rest else rest + [s[|s| - 1]]
  }
}

=== FILE: sheet.dfy ===
/** gas/Code.js, the asset half: cells and truthiness, rows to records, the
    validators, and the add / update / delete operations on the Assets sheet.

    A sheet is its header row plus the data rows below it (the first row of
    `getDataRange().getValues()` and the rest). The spreadsheet service itself is
    foreign; here a sheet is a plain value and every write returns the new one. */
module Sheet {
  import opened Wrappers
  import opened Seqs

  /** A cell, or a field of the parsed request body. `Empty` is undefined/null. */
  datatype Value = Empty | Str(text: string) | Num(number: real) | Bool(flag: bool)

  /** JavaScript truthiness: '', 0, false, undefined and null are falsy. */
  predicate Truthy(v: Value) {
    match v
    case Empty => false
    case Str(t) => t != ""
    case Num(n) => n != 0.0
    case Bool(b) => b
  }

  /** `a || b`. */
  function Or(a: Value, b: Value): Value {
    if Truthy(a) then a else b
  }

  /** A JavaScript object with `Value` fields: a request body or a row read back. */
  type Record = map<string, Value>

  /** `data[key]`; undefined when the key is absent. */
  function Get(data: Record, key: string): Value {
    if key in data then data[key] else Empty
  }

  type Row = seq<Value>

  datatype Sheet = Sheet(header: seq<string>, rows: seq<Row>)

  /** `row[i]`; undefined outside the row, in particular for i == -1. */
  function Cell(row: Row, i: int): Value {
    if 0 <= i < |row| then row[i] else Empty
  }

  // ---------------------------------------------------------------------------
  // Reading rows (getAssets)

  /** `headers.forEach((header, index) => obj[header] = row[index])`: every header
      becomes a key; a repeated header keeps the cell of its last column. */
  function RowToRecord(header: seq<string>, row: Row): (r: Record)
    ensures forall h :: h in r <==> h in header
    decreases |header|
  {
    if header == [] then map[]
    else
      var n := |header| - 1;
      RowToRecord(header[..n], row)[header[n] := Cell(row, n)]
  }

  /** The key of column `i` holds that column's cell unless a later column repeats
      the same header. */
  lemma {:induction false} RecordLastColumn(header: seq<string>, row: Row, i: nat)
    requires i < |header|
    requires forall j :: i < j < |header| ==> header[j] != header[i]
    ensures Get(RowToRecord(header, row), header[i]) == Cell(row, i)
    decreases |header|
  {
    var n := |header| - 1;
    if i < n {
      var init := header[..n];
      assert init[i] == header[i];
      assert forall j :: i < j < n ==> init[j] == header[j];
      RecordLastColumn(init, row, i);
    }
  }

  /** With distinct headers, reading a row back gives each column's own cell. */
  lemma RecordField(header: seq<string>, row: Row, k: nat)
    requires NoDuplicates(header)
    requires k < |header|
    ensures Get(RowToRecord(header, row), header[k]) == Cell(row, k)
  {
    RecordLastColumn(header, row, k);
  }

  /** `getAssets` / `getTransactions`: one record per data row, in row order. */
  function Records(sheet: Sheet): (r: seq<Record>)
    ensures |r| == |sheet.rows|
    ensures forall i :: 0 <= i < |r| ==> r[i] == RowToRecord(sheet.header, sheet.rows[i])
  {
    seq(|sheet.rows|, i requires 0 <= i < |sheet.rows| => RowToRecord(sheet.header, sheet.rows[i]))
  }

  /** With distinct headers, the records read back hold exactly the data rows' cells
      under their column names; the header row itself is never returned as data. */
  lemma RecordsReadBack(sheet: Sheet)
    requires NoDuplicates(sheet.header)
    ensures forall i, k :: 0 <= i < |sheet.rows| && 0 <= k < |sheet.header| ==>
              Get(Records(sheet)[i], sheet.header[k]) == Cell(sheet.rows[i], k)
    ensures forall i, h :: 0 <= i < |sheet.rows| && h !in sheet.header ==> h !in Records(sheet)[i]
  {
    forall i, k | 0 <= i < |sheet.rows| && 0 <= k < |sheet.header|
      ensures Get(Records(sheet)[i], sheet.header[k]) == Cell(sheet.rows[i], k)
    {
      RecordField(sheet.header, sheet.rows[i], k);
    }
  }

  // ---------------------------------------------------------------------------
  // Validators

  /** The required fields are checked in order; the first falsy one is reported. */
  function Validate(data: Record, fields: seq<string>): (r: Outcome)
    ensures r.Pass? <==> forall i :: 0 <= i < |fields| ==> Truthy(Get(data, fields[i]))
    ensures r.Fail? ==>
      exists i :: 0 <= i < |fields| && !Truthy(Get(data, fields[i]))
        && r.error == Required(fields[i])
        && forall j :: 0 <= j < i ==> Truthy(Get(data, fields[j]))
    decreases |fields|
  {
    if fields == [] then Pass
    else if !Truthy(Get(data, fields[0])) then
      Fail(Required(fields[0]))
    else
      var rest := Validate(data, fields[1..]);
      assert rest.Fail? ==>
        exists i :: 0 <= i < |fields| && !Truthy(Get(data, fields[i]))
          && rest.error == Required(fields[i])
          && forall j :: 0 <= j < i ==> Truthy(Get(data, fields[j]))
      by {
        if rest.Fail? {
          var i' :| 0 <= i' < |fields| - 1 && !Truthy(Get(data, fields[1..][i']))
            && rest.error == Required(fields[1..][i'])
            && forall j :: 0 <= j < i' ==> Truthy(Get(data, fields[1..][j]));
          assert fields[i' + 1] == fields[1..][i'];
          assert forall j :: 1 <= j < i' + 1 ==> fields[j] == fields[1..][j - 1];
        }
      }
      rest
  }

  /** The error message for a missing required field. */
  function Required(field: string): string {
    field + " is required"
  }

  /** Validation of a non-empty list: the head is checked before the rest. */
  lemma ValidateCons(data: Record, field: string, rest: seq<string>)
    ensures Validate(data, [field] + rest)
              == if Truthy(Get(data, field)) then Validate(data, rest) else Fail(Required(field))
  {
    assert ([field] + rest)[0] == field;
    assert ([field] + rest)[1..] == rest;
  }

  const AssetFields: seq<string> := ["name", "type", "amount", "cost"]

  /** `validateAssetData`: name, type, amount and cost must all be truthy, so an
      amount or cost of 0 is rejected like a missing one. */
  function ValidateAsset(data: Record): (r: Outcome)
    ensures r.Pass? <==> (Truthy(Get(data, "name")) && Truthy(Get(data, "type"))
                         && Truthy(Get(data, "amount")) && Truthy(Get(data, "cost")))
    ensures !Truthy(Get(data, "name")) ==> r == Fail(Required("name"))
    ensures (Truthy(Get(data, "name")) && !Truthy(Get(data, "type"))) ==> r == Fail(Required("type"))
    ensures (Truthy(Get(data, "name")) && Truthy(Get(data, "type")) && !Truthy(Get(data, "amount")))
              ==> r == Fail(Required("amount"))
    ensures (Truthy(Get(data, "name")) && Truthy(Get(data, "type")) && Truthy(Get(data, "amount"))
              && !Truthy(Get(data, "cost"))) ==> r == Fail(Required("cost"))
  {
    ValidateCons(data, "name", ["type", "amount", "cost"]);
    ValidateCons(data, "type", ["amount", "cost"]);
    ValidateCons(data, "amount", ["cost"]);
    ValidateCons(data, "cost", []);
    assert AssetFields == ["name"] + ["type", "amount", "cost"];
    assert ["type", "amount", "cost"] == ["type"] + ["amount", "cost"];
    assert ["amount", "cost"] == ["amount"] + ["cost"];
    assert ["cost"] == ["cost"] + [];
    Validate(data, AssetFields)
  }

  // ---------------------------------------------------------------------------
  // Appending (addAsset)

  /** `headers.map(header => data[header] || '')`. */
  function NewRow(header: seq<string>, data: Record): (r: Row)
    ensures |r| == |header|
    ensures forall i :: 0 <= i < |header| && Truthy(Get(data, header[i])) ==> r[i] == Get(data, header[i])
    ensures forall i :: 0 <= i < |header| && !Truthy(Get(data, header[i])) ==> r[i] == Str("")
  {
    seq(|header|, i requires 0 <= i < |header| => Or(Get(data, header[i]), Str("")))
  }

  /** Reading an appended row back yields every truthy field of the request in its
      column and '' in every other column; fields that are not headers are lost. */
  lemma NewRowReadBack(header: seq<string>, data: Record)
    requires NoDuplicates(header)
    ensures forall h :: h in header && Truthy(Get(data, h)) ==>
      Get(RowToRecord(header, NewRow(header, data)), h) == Get(data, h)
    ensures forall h :: h in header && !Truthy(Get(data, h)) ==>
      Get(RowToRecord(header, NewRow(header, data)), h) == Str("")
    ensures forall h :: h !in header ==> h !in RowToRecord(header, NewRow(header, data))
  {
    var row := NewRow(header, data);
    forall h | h in header
      ensures Get(RowToRecord(header, row), h) == Or(Get(data, h), Str(""))
    {
      var k :| 0 <= k < |header| && header[k] == h;
      RecordField(header, row, k);
    }
  }

  function Append(sheet: Sheet, data: Record): Sheet {
    sheet.(rows := sheet.rows + [NewRow(sheet.header, data)])
  }

  /** `addAsset`: after validation, exactly one row is appended in header order and
      the existing rows are untouched; a failed validation changes nothing. */
  function AddAsset(assets: Sheet, data: Record): (r: Result<Sheet>)
    ensures r.Ok? <==> ValidateAsset(data).Pass?
    ensures r.Err? ==> r.error == ValidateAsset(data).error
    ensures r.Ok? ==> r.value.header == assets.header
    ensures r.Ok? ==> |r.value.rows| == |assets.rows| + 1 && r.value.rows[..|assets.rows|] == assets.rows
    ensures r.Ok? ==> r.value.rows[|assets.rows|] == NewRow(assets.header, data)
  {
    match ValidateAsset(data)
    case Fail(e) => Err(e)
    case Pass =>
      var s := Append(assets, data);
      assert s.rows[..|assets.rows|] == assets.rows;
      Ok(s)
  }

  // ---------------------------------------------------------------------------
  // Finding a row by id (updateAsset, deleteAsset)

  /** `headers.indexOf('id')`; -1 when there is no id column. */
  function IdColumn(sheet: Sheet): int {
    IndexOf(sheet.header, "id")
  }

  /** `values[i][idIndex] === id`. */
  predicate RowHasId(sheet: Sheet, row: Row, id: Value) {
    Cell(row, IdColumn(sheet)) == id
  }

  /** The first data row whose id cell is strictly equal to `id`. */
  function FindRow(sheet: Sheet, id: Value): (r: Option<nat>)
    ensures r.Some? ==> r.value < |sheet.rows| && RowHasId(sheet, sheet.rows[r.value], id)
    ensures r.Some? ==> forall j :: 0 <= j < r.value ==> !RowHasId(sheet, sheet.rows[j], id)
    ensures r.None? ==> forall j :: 0 <= j < |sheet.rows| ==> !RowHasId(sheet, sheet.rows[j], id)
  {
    FindIndex(sheet.rows, (row: Row) => RowHasId(sheet, row, id))
  }

  /** `i` is the first data row carrying `id`. */
  predicate FirstMatch(sheet: Sheet, i: int, id: Value) {
    0 <= i < |sheet.rows| && RowHasId(sheet, sheet.rows[i], id)
    && forall j :: 0 <= j < i ==> !RowHasId(sheet, sheet.rows[j], id)
  }

  // ---------------------------------------------------------------------------
  // updateAsset

  /** `headers.map(header => data[header] || values[i][headers.indexOf(header)])`. */
  function MergeRow(header: seq<string>, data: Record, previous: Row): (r: Row)
    ensures |r| == |header|
    ensures forall k :: 0 <= k < |header| && Truthy(Get(data, header[k])) ==> r[k] == Get(data, header[k])
    ensures NoDuplicates(header) ==>
      forall k :: 0 <= k < |header| && !Truthy(Get(data, header[k])) ==> r[k] == Cell(previous, k)
  {
    assert NoDuplicates(header) ==> forall k :: 0 <= k < |header| ==> IndexOf(header, header[k]) == k;
    seq(|header|, k requires 0 <= k < |header| => Or(Get(data, header[k]), Cell(previous, IndexOf(header, header[k]))))
  }

  /** `updateAsset`: rewrites only the first data row whose id matches. */
  function UpdateAsset(assets: Sheet, data: Record): (r: Result<Sheet>)
    ensures !Truthy(Get(data, "id")) ==> r == Err("Asset ID is required")
    ensures Truthy(Get(data, "id")) && ValidateAsset(data).Fail? ==> r == Err(ValidateAsset(data).error)
    ensures r.Ok? <==> Truthy(Get(data, "id")) && ValidateAsset(data).Pass?
                       && exists i :: 0 <= i < |assets.rows| && RowHasId(assets, assets.rows[i], Get(data, "id"))
    ensures r.Err? && Truthy(Get(data, "id")) && ValidateAsset(data).Pass? ==> r.error == "Asset not found"
    ensures r.Ok? ==> r.value.header == assets.header && |r.value.rows| == |assets.rows|
    ensures r.Ok? ==>
      exists i :: FirstMatch(assets, i, Get(data, "id"))
        && r.value.rows[i] == MergeRow(assets.header, data, assets.rows[i])
        && forall j :: 0 <= j < |assets.rows| && j != i ==> r.value.rows[j] == assets.rows[j]
  {
    var id := Get(data, "id");
    if !Truthy(id) then Err("Asset ID is required")
    else match ValidateAsset(data)
      case Fail(e) => Err(e)
      case Pass =>
        match FindRow(assets, id)
        case None => Err("Asset not found")
        case Some(i) =>
          var s := assets.(rows := assets.rows[i := MergeRow(assets.header, data, assets.rows[i])]);
          assert FirstMatch(assets, i, id);
          Ok(s)
  }

  /** A falsy value in the request keeps the old cell, so an update can never turn a
      truthy cell into 0, '' or false. */
  lemma UpdateNeverClears(assets: Sheet, data: Record)
    requires NoDuplicates(assets.header)
    requires UpdateAsset(assets, data).Ok?
    ensures forall i, k :: (0 <= i < |assets.rows| && 0 <= k < |assets.header|
              && Truthy(Cell(assets.rows[i], k))) ==> Truthy(Cell(UpdateAsset(assets, data).value.rows[i], k))
  {
    var s := UpdateAsset(assets, data).value;
    var i0 :| FirstMatch(assets, i0, Get(data, "id"))
      && s.rows[i0] == MergeRow(assets.header, data, assets.rows[i0])
      && forall j :: 0 <= j < |assets.rows| && j != i0 ==> s.rows[j] == assets.rows[j];
    forall i, k | 0 <= i < |assets.rows| && 0 <= k < |assets.header| && Truthy(Cell(assets.rows[i], k))
      ensures Truthy(Cell(s.rows[i], k))
    {
      if i == i0 {
        assert IndexOf(assets.header, assets.header[k]) == k;
      }
    }
  }

  // ---------------------------------------------------------------------------
  // deleteAsset

  /** `deleteAsset`: removes exactly the first data row whose id matches and keeps
      the order of the others. */
  function DeleteAsset(assets: Sheet, id: Value): (r: Result<Sheet>)
    ensures !Truthy(id) ==> r == Err("Asset ID is required")
    ensures r.Ok? <==> Truthy(id) && exists i :: 0 <= i < |assets.rows| && RowHasId(assets, assets.rows[i], id)
    ensures r.Err? && Truthy(id) ==> r.error == "Asset not found"
    ensures r.Ok? ==> r.value.header == assets.header && |r.value.rows| == |assets.rows| - 1
    ensures r.Ok? ==>
      exists i :: FirstMatch(assets, i, id)
        && r.value.rows[..i] == assets.rows[..i] && r.value.rows[i..] == assets.rows[i + 1..]
  {
    if !Truthy(id) then Err("Asset ID is required")
    else match FindRow(assets, id)
      case None => Err("Asset not found")
      case Some(i) =>
        assert FirstMatch(assets, i, id);
        Ok(assets.(rows := RemoveAt(assets.rows, i)))
  }

  /** Adding a record whose id is new and then deleting that id restores the sheet. */
  lemma AddThenDelete(assets: Sheet, data: Record)
    requires ValidateAsset(data).Pass?
    requires "id" in assets.header
    requires Truthy(Get(data, "id"))
    requires forall i :: 0 <= i < |assets.rows| ==> !RowHasId(assets, assets.rows[i], Get(data, "id"))
    ensures AddAsset(assets, data).Ok?
    ensures DeleteAsset(AddAsset(assets, data).value, Get(data, "id")) == Ok(assets)
  {
    var id := Get(data, "id");
    var added := AddAsset(assets, data).value;
    var n := |assets.rows|;
    var col := IdColumn(assets);
    assert added.rows[n] == NewRow(assets.header, data);
    assert 0 <= col < |assets.header| && assets.header[col] == "id";
    assert RowHasId(added, added.rows[n], id);
    assert forall j :: 0 <= j < n ==> added.rows[j] == assets.rows[j];
    assert FindRow(added, id) == Some(n);
    assert RemoveAt(added.rows, n) == assets.rows;
  }
}

=== FILE: transaction_list.dfy ===
/** The history table of components/transaction-list.tsx: the optional type
    filter, the signed value, the price and avatar texts, and the NT$ column,
    which reads the value text with JavaScript's `Number.parseInt`. */
module TransactionList {
  import opened Wrappers
  import opened Seqs

  /** One row of the table. Amounts, prices, values and fees are texts. */
  datatype Row = Row(
    id: string,
    date: string,
    time: string,
    kind: string,
    asset: string,
    assetName: string,
    amount: string,
    price: string,
    value: string,
    fee: string,
    platform: string,
    status: string,
    hash: string,
    currency: string,
    exchangeRate: real)

  function KindIs(t: string): Row -> bool {
    (r: Row) => r.kind == t
  }

  /** `type ? transactions.filter(tx => tx.type === type) : transactions`; an
      absent or empty type shows every row. */
  function Visible(rows: seq<Row>, filter: Option<string>): (r: seq<Row>)
    ensures filter.None? || filter.value == "" ==> r == rows
    ensures filter.Some? && filter.value != "" ==>
      (forall i :: 0 <= i < |r| ==> r[i].kind == filter.value)
      && (forall j :: 0 <= j < |rows| ==> (rows[j] in r <==> rows[j].kind == filter.value))
      && Selects(r, rows, KindIs(filter.value))
      && (forall x {:trigger multiset(r)[x]} :: x in rows ==> multiset(r)[x] == if x.kind == filter.value then multiset(rows)[x] else 0)
  {
    if filter.None? || filter.value == "" then rows
    else
      FilterSelects(rows, KindIs(filter.value));
      FilterMultiset(rows, KindIs(filter.value));
      Filter(rows, KindIs(filter.value))
  }

  /** Filtering again by the same type changes nothing. */
  lemma VisibleIdempotent(rows: seq<Row>, filter: Option<string>)
    ensures Visible(Visible(rows, filter), filter) == Visible(rows, filter)
  {
    if filter.Some? && filter.value != "" {
      FilterKeepsAll(Filter(rows, KindIs(filter.value)), KindIs(filter.value));
    }
  }

  /** The value cell's sign. */
  function SignPrefix(kind: string): (r: string)
    ensures r == "+" <==> kind == "buy"
    ensures r == "-" <==> kind == "sell"
    ensures r == "" <==> kind != "buy" && kind != "sell"
  {
    if kind == "buy" then "+" else if kind == "sell" then "-" else ""
  }

  /** The value cell: the signed value followed by its currency. */
  function ValueText(row: Row): (r: string)
    ensures |r| == |SignPrefix(row.kind)| + |row.value| + 1 + |row.currency|
    ensures r[|SignPrefix(row.kind)|..] == row.value + " " + row.currency
    ensures row.kind == "buy" ==> r[0] == '+'
    ensures row.kind == "sell" ==> r[0] == '-'
  {
    SignPrefix(row.kind) + row.value + " " + row.currency
  }

  /** A buy and a sell of the same value show the same text after the sign, and
      a type without a sign shows just the text. */
  lemma ValueTextsDiffer(row: Row)
    ensures ValueText(row.(kind := "buy"))[1..] == ValueText(row.(kind := "sell"))[1..]
    ensures row.kind != "buy" && row.kind != "sell" ==> ValueText(row) == row.value + " " + row.currency
  {
  }

  /** `price !== "-" ? `${price} ${currency}` : price`. */
  function PriceText(row: Row): (r: string)
    ensures row.price == "-" ==> r == "-"
    ensures row.price != "-" ==> |r| == |row.price| + 1 + |row.currency| && r[..|row.price|] == row.price
  {
    if row.price != "-" then row.price + " " + row.currency else row.price
  }

  /** `asset.substring(0, 2)`. */
  function AvatarFallback(asset: string): (r: string)
    ensures |r| == if |asset| < 2 then |asset| else 2
    ensures r == asset[..|r|]
  {
    if |asset| < 2 then asset else asset[..2]
  }

  lemma AvatarFallbackStable(asset: string)
    ensures AvatarFallback(AvatarFallback(asset)) == AvatarFallback(asset)
    ensures AvatarFallback("ETH/USDT") == "ET" && AvatarFallback("2330") == "23"
  {
  }

  // ----- Number.parseInt -----

  /** The white space `parseInt` skips: the ASCII spaces, no-break space and the
      byte-order mark. */
  predicate IsSpace(c: char) {
    c == ' ' || c == '\t' || c == '\n' || c == '\r' || c == '\U{000B}' || c == '\U{000C}'
      || c == '\U{00A0}' || c == '\U{FEFF}'
  }

  function TrimStart(s: string): (r: string)
    ensures |r| <= |s| && r == s[|s| - |r|..]
    ensures r != [] ==> !IsSpace(r[0])
    ensures forall i :: 0 <= i < |s| - |r| ==> IsSpace(s[i])
  {
    if s != [] && IsSpace(s[0]) then TrimStart(s[1..]) else s
  }

  /** The digit `c` stands for in `base` (10 or 16), if any. */
  function DigitValue(c: char, base: nat): (r: Option<nat>)
    requires base == 10 || base == 16
    ensures r.Some? ==> r.value < base
  {
    if '0' <= c <= '9' then Some(c as nat - '0' as nat)
    else if base == 16 && 'a' <= c <= 'f' then Some(c as nat - 'a' as nat + 10)
    else if base == 16 && 'A' <= c <= 'F' then Some(c as nat - 'A' as nat + 10)
    else None
  }

  predicate IsDigit(c: char, base: nat)
    requires base == 10 || base == 16
  {
    DigitValue(c, base).Some?
  }

  /** The length of the run of digits that starts `s`. */
  function DigitRun(s: string, base: nat): (n: nat)
    requires base == 10 || base == 16
    ensures n <= |s|
    ensures forall i :: 0 <= i < n ==> IsDigit(s[i], base)
    ensures n < |s| ==> !IsDigit(s[n], base)
  {
    if s != [] && IsDigit(s[0], base) then 1 + DigitRun(s[1..], base) else 0
  }

  /** The number a string of digits denotes, most significant digit first. */
  function DigitsValue(d: string, base: nat): nat
    requires base == 10 || base == 16
    requires forall i :: 0 <= i < |d| ==> IsDigit(d[i], base)
    decreases |d|
  {
    if d == [] then 0
    else
      assert IsDigit(d[|d| - 1], base);
      DigitsValue(d[..|d| - 1], base) * base + DigitValue(d[|d| - 1], base).value
  }

  /** The run of digits that starts `v`, read in `base`; `None` when `v` does
      not start with a digit. */
  function ReadDigits(v: string, base: nat): (r: Option<nat>)
    requires base == 10 || base == 16
    ensures r.None? <==> v == [] || !IsDigit(v[0], base)
  {
    var n := DigitRun(v, base);
    if n == 0 then None else Some(DigitsValue(v[..n], base))
  }

  /** The unsigned part: a `0x` or `0X` prefix selects base 16. */
  function ReadMagnitude(u: string): (r: Option<nat>)
    ensures (u == [] || !IsDigit(u[0], 10)) ==> r.None?
  {
    if |u| >= 2 && u[0] == '0' && (u[1] == 'x' || u[1] == 'X') then ReadDigits(u[2..], 16)
    else ReadDigits(u, 10)
  }

  /** `Number.parseInt(s)` with no radix: leading white space and one sign are
      skipped, a `0x` prefix selects base 16, and the longest run of digits that
      follows is read; anything after it is ignored. `None` is NaN, when no
      digit follows. */
  function ParseInt(s: string): (r: Option<int>)
    ensures var t := TrimStart(s);
      (t == [] || (!IsDigit(t[0], 10) && t[0] != '-' && t[0] != '+')) ==> r.None?
  {
    var t := TrimStart(s);
    if t != [] && (t[0] == '-' || t[0] == '+') then
      match ReadMagnitude(t[1..])
      case None => None
      case Some(m) => Some(if t[0] == '-' then -(m as int) else m as int)
    else
      match ReadMagnitude(t)
      case None => None
      case Some(m) => Some(m)
  }

  /** A non-negative decimal text with no sign, spaces or hex prefix: what the
      value column holds. */
  predicate PlainDecimal(d: string) {
    |d| > 0 && (forall i :: 0 <= i < |d| ==> IsDigit(d[i], 10)) && !(|d| >= 2 && d[1] == 'x')
  }

  /** A decimal text reads as its value, and whatever follows a decimal point
      is dropped: `parseInt("8.75")` is 8. */
  lemma ParseIntDropsFraction(d: string, fraction: string)
    requires PlainDecimal(d)
    ensures ParseInt(d) == Some(DigitsValue(d, 10) as int)
    ensures ParseInt(d + "." + fraction) == Some(DigitsValue(d, 10) as int)
  {
    assert !IsSpace(d[0]);
    assert TrimStart(d) == d;
    var s := d + "." + fraction;
    assert s[0] == d[0];
    assert TrimStart(s) == s;
    DigitRunStops(d, "." + fraction);
    assert s == d + ("." + fraction);
    assert s[..|d|] == d;
    DigitRunAll(d);
    assert d[..|d|] == d;
  }

  lemma {:induction false} DigitRunAll(d: string)
    requires forall i :: 0 <= i < |d| ==> IsDigit(d[i], 10)
    ensures DigitRun(d, 10) == |d|
    decreases |d|
  {
    if d != [] {
      DigitRunAll(d[1..]);
    }
  }

  lemma {:induction false} DigitRunStops(d: string, rest: string)
    requires forall i :: 0 <= i < |d| ==> IsDigit(d[i], 10)
    requires rest != [] && !IsDigit(rest[0], 10)
    ensures DigitRun(d + rest, 10) == |d|
    decreases |d|
  {
    if d != [] {
      assert (d + rest)[1..] == d[1..] + rest;
      DigitRunStops(d[1..], rest);
    }
  }

  /** The decimal text of a natural number, most significant digit first. */
  function DecimalText(n: nat): (r: string)
    ensures |r| > 0 && forall i :: 0 <= i < |r| ==> '0' <= r[i] <= '9'
    decreases n
  {
    var last := ['0' + (n % 10) as char];
    if n < 10 then last else DecimalText(n / 10) + last
  }

  lemma {:induction false} DecimalTextValue(n: nat)
    ensures forall i :: 0 <= i < |DecimalText(n)| ==> IsDigit(DecimalText(n)[i], 10)
    ensures DigitsValue(DecimalText(n), 10) == n
    decreases n
  {
    var d := DecimalText(n);
    if n >= 10 {
      DecimalTextValue(n / 10);
      assert d[..|d| - 1] == DecimalText(n / 10);
    }
  }

  /** Reading back the decimal text of a number gives the number, also with a
      fractional part appended. */
  lemma ParseIntDecimal(n: nat, fraction: string)
    ensures ParseInt(DecimalText(n)) == Some(n)
    ensures ParseInt(DecimalText(n) + "." + fraction) == Some(n)
  {
    DecimalTextValue(n);
    var d := DecimalText(n);
    assert PlainDecimal(d);
    ParseIntDropsFraction(d, fraction);
  }

  /** Leading white space and a sign are skipped, and reading stops at the
      first non-digit. */
  lemma ParseIntSignedExample()
    ensures ParseInt(" -12px") == Some(-12)
  {
    var t := TrimStart(" -12px");
    assert t == "-12px";
    assert t[1..] == "12px";
    TwelveDigits();
  }

  lemma TwelveDigits()
    ensures ReadMagnitude("12px") == Some(12)
  {
    var u := "12px";
    assert DigitRun(u, 10) == 2 by {
      assert u[1..] == "2px" && u[1..][1..] == "px";
      assert DigitRun("px", 10) == 0;
      assert DigitRun("2px", 10) == 1;
    }
    assert u[..2] == "12";
    assert DigitsValue("12", 10) == 12 by {
      assert "12"[..1] == "1";
    }
  }

  /** A `0x` prefix reads the digits as hexadecimal. */
  lemma ParseIntHexExample()
    ensures ParseInt("0x1A") == Some(26)
  {
    var t := TrimStart("0x1A");
    assert t == "0x1A";
    assert t[2..] == "1A";
    HexDigits();
  }

  lemma HexDigits()
    ensures ReadDigits("1A", 16) == Some(26)
  {
    var v := "1A";
    assert DigitRun(v, 16) == 2 by {
      assert v[1..] == "A" && v[1..][1..] == [];
      assert DigitRun("A", 16) == 1;
    }
    assert v[..2] == v;
    assert DigitValue('A', 16) == Some(10);
    assert DigitsValue("1A", 16) == 26 by {
      assert "1A"[..1] == "1";
      assert DigitsValue("1", 16) == 1 by {
        assert "1"[..0] == [];
      }
    }
  }

  /** A whole amount at an exchange rate. */
  function Convert(whole: int, rate: real): real { whole as real * rate }

  /** The NT$ column: the whole part of the value, converted at the row's rate
      unless the row is already in TWD. `None` is NaN. */
  function TwdValue(row: Row): (r: Option<real>)
    ensures r.None? <==> ParseInt(row.value).None?
    ensures r.Some? && row.currency == "TWD" ==> r.value == ParseInt(row.value).value as real
    ensures r.Some? && row.currency != "TWD" ==> r.value == Convert(ParseInt(row.value).value, row.exchangeRate)
  {
    match ParseInt(row.value)
    case None => None
    case Some(m) => Some(if row.currency == "TWD" then m as real else Convert(m, row.exchangeRate))
  }

  /** A value with a fractional part loses it before conversion. */
  lemma TwdValueDropsFraction(row: Row, n: nat, fraction: string)
    requires row.value == DecimalText(n) + "." + fraction
    ensures TwdValue(row) == Some(if row.currency == "TWD" then n as real else Convert(n, row.exchangeRate))
  {
    ParseIntDecimal(n, fraction);
  }

  /** A fee-sized value of 8.75 US dollars at 31.5 shows as 252, not 275.625. */
  lemma TwdValueExample(row: Row)
    requires row.value == "8.75" && row.currency == "USD" && row.exchangeRate == 31.5
    ensures TwdValue(row) == Some(252.0)
  {
    assert DecimalText(8) == "8";
    assert row.value == DecimalText(8) + "." + "75";
    TwdValueDropsFraction(row, 8, "75");
  }
}

=== FILE: types.dfy ===
/** The records of types/index.ts.

    The TypeScript declarations narrow `Asset.type` to six kinds and
    `Transaction.type` to buy/sell, but the forms store other strings in those
    fields at run time ('股票', '買入', ...). The records therefore keep the
    runtime string (`kind`) and the declared enumerations are stated separately,
    together with the parse from string to declared kind. */
module Types {
  import opened Wrappers

  /** `AssetType`: the closed set of six declared kinds. */
  datatype AssetType = StockTw | StockUs | Crypto | Cash | Defi | Wallet

  function AssetTypeName(t: AssetType): string {
    match t
    case StockTw => "stock_tw"
    case StockUs => "stock_us"
    case Crypto => "crypto"
    case Cash => "cash"
    case Defi => "defi"
    case Wallet => "wallet"
  }

  /** Reads a runtime `type` string as a declared kind; `None` for any other string. */
  function ParseAssetType(s: string): (r: Option<AssetType>)
    ensures r.Some? ==> AssetTypeName(r.value) == s
    ensures forall t :: AssetTypeName(t) == s ==> r == Some(t)
  {
    if s == "stock_tw" then Some(StockTw)
    else if s == "stock_us" then Some(StockUs)
    else if s == "crypto" then Some(Crypto)
    else if s == "cash" then Some(Cash)
    else if s == "defi" then Some(Defi)
    else if s == "wallet" then Some(Wallet)
    else None
  }

  /** `TransactionType`. */
  datatype TransactionType = Buy | Sell | Transfer

  function TransactionTypeName(t: TransactionType): string {
    match t
    case Buy => "buy"
    case Sell => "sell"
    case Transfer => "transfer"
  }

  /** The narrower type of `Transaction.type`: `TransactionType` without transfer. */
  type RecordedTransactionType = t: TransactionType | !t.Transfer? witness Buy

  /** Reads a runtime transaction `type` string as a recordable type. */
  function ParseRecordedType(s: string): (r: Option<RecordedTransactionType>)
    ensures r.Some? <==> s == "buy" || s == "sell"
    ensures r.Some? ==> TransactionTypeName(r.value) == s
  {
    if s == "buy" then Some(Buy) else if s == "sell" then Some(Sell) else None
  }

  /** A JavaScript quotient as far as the model tells them apart: a finite value,
      one of the two infinities, or NaN. Rounding is not modelled. */
  datatype Quotient = Finite(value: real) | PosInfinity | NegInfinity | NaN

  /** `Asset`. `kind` is the `type` field. `symbol` and `notes` are the two optional
      fields. The percentage is a `Quotient`, because at cost 0 JavaScript stores
      Infinity or NaN there. */
  datatype Asset = Asset(
    id: string,
    name: string,
    kind: string,
    symbol: Option<string>,
    amount: real,
    cost: real,
    currentPrice: real,
    marketValue: real,
    profit: real,
    profitPercentage: Quotient,
    lastUpdated: string,
    notes: Option<string>)

  /** `Transaction`; `kind` is the `type` field. */
  datatype Transaction = Transaction(
    id: string,
    assetId: string,
    kind: string,
    amount: real,
    price: real,
    total: real,
    date: string,
    notes: Option<string>)

  /** `Omit<Asset, 'id'>`: an asset before the store assigns its id. */
  datatype AssetDraft = AssetDraft(
    name: string,
    kind: string,
    symbol: Option<string>,
    amount: real,
    cost: real,
    currentPrice: real,
    marketValue: real,
    profit: real,
    profitPercentage: Quotient,
    lastUpdated: string,
    notes: Option<string>)

  /** `{ ...draft, id }`. */
  function WithId(d: AssetDraft, id: string): (r: Asset)
    ensures r.id == id
    ensures DraftOf(r) == d
  {
    Asset(id, d.name, d.kind, d.symbol, d.amount, d.cost, d.currentPrice, d.marketValue,
          d.profit, d.profitPercentage, d.lastUpdated, d.notes)
  }

  /** Every field of an asset but its id. */
  function DraftOf(a: Asset): AssetDraft {
    AssetDraft(a.name, a.kind, a.symbol, a.amount, a.cost, a.currentPrice, a.marketValue,
               a.profit, a.profitPercentage, a.lastUpdated, a.notes)
  }

  /** `Omit<Transaction, 'id'>`. */
  datatype TransactionDraft = TransactionDraft(
    assetId: string,
    kind: string,
    amount: real,
    price: real,
    total: real,
    date: string,
    notes: Option<string>)

  /** `notes || fallback`: optional text that is also falsy when empty. */
  function TextOr(t: Option<string>, fallback: string): (r: string)
    ensures t.Some? && t.value != "" ==> r == t.value
    ensures (t.None? || t.value == "") ==> r == fallback
  {
    if t.Some? && t.value != "" then t.value else fallback
  }

  /** `text || undefined`, used by every form for its notes field. */
  function OptionalText(text: string): (r: Option<string>)
    ensures r.None? <==> text == ""
    ensures r.Some? ==> r.value == text
  {
    if text == "" then None else Some(text)
  }
}

=== FILE: wrappers.dfy ===
/** Failure-carrying results shared by every module of the model.
    JavaScript `throw new Error(msg)` becomes `Err(msg)` / `Fail(msg)`;
    `undefined` (and a non-finite number) becomes `None`. */
module Wrappers {

  datatype Option<+T> = None | Some(value: T) {
    /** The wrapped value, or `default` when there is none. */
    function GetOr(default: T): T {
      match this
      case Some(v) => v
      case None => default
    }
  }

  /** A computation that either yields a value or throws an error message. */
  datatype Result<+T> = Ok(value: T) | Err(error: string)

  /** A computation with no value that either completes or throws. */
  datatype Outcome = Pass | Fail(error: string)
}
